=== FILE: README.md ===
# EzContract admin front-end: a Dafny model of its pure logic

EzContractFE is a React/TypeScript admin front-end for contract management.
Most of the code is screens, fetch calls and DOM work. This project takes
the small pieces of logic underneath them, writes each one as immutable data
plus pure transition functions, and proves properties of them:

- **Upload queue** of the contract-template form (`UploadQueue`). The queue is
  a list of file items keyed by id. It covers:
  - enqueueing, with the 10 MiB gate;
  - remove, cancel, cancel-all and start-all;
  - the transfer callbacks (progress, load, error, abort), which come back as events.
- **DKKD workflow panel** (`Workflow`), a state machine. Each async handler is
  cut at its `await`. Poll ticks, replies, and arming or clearing the timer are
  explicit events and requests.
- **Login session** (`Auth`): expiry arithmetic, the 30 s refresh skew, and
  refresh/logout over a storage slot. The clock and the server replies are
  parameters.
- **User badge** (`UserInfo`): the claims read from the access token's JWS
  payload. This covers:
  - the base64url alphabet mapped back to base64;
  - the `===` padding rule;
  - the claim fallbacks.
- **List screens** (`Listing`, shared; instantiated in `Companies`, `Roles`,
  `TemplatesList`, `FormInfo`, `Users`, `ContractFields`, `ContractTypes`).
  This covers:
  - case-insensitive substring filters;
  - `max(1, ceil(n/20))` pages;
  - the clamped page, 20-row slices and plain first-20 truncation;
  - the page reset on a query change, and the prev/next buttons.
- **Forms**, in `FormInfo`, `ContractFields`, `Users`, `Companies`, `Roles` and
  `ContractTypes`:
  - the `jsonForm` and `metaJson` round trips;
  - the password/confirm rules for adding versus editing a user;
  - field selection deduplicated by code (through `find`'s truthiness test);
  - the `isActive` "1"/"0" mapping (`Crud`);
  - the add/edit defaults and the bodies sent.
- **File names** (`FileNames`, `PendingContracts`, `CreateContract`):
  - `displayName`;
  - the Word/Excel classification;
  - the two `parseFiles` variants;
  - the download-name precedence ending in `contract_<number>.zip`;
  - the sort toggle, the draft-only delete guard and the list query.
- **Small UI stores** (`Sidebar`, `DkkdIframe`):
  - the sidebar store, whose theme always follows the active section;
  - the sidebar chosen by role;
  - the portal iframe's `message` reducer with its origin filter.

`JSON.parse`/`JSON.stringify` are a `Json.Codec` value handed in by the
caller, and `atob` is a function parameter. The round-trip lemmas assume only
what the JSON library promises: `Json.RoundTrips` says parse undoes stringify,
and `Json.BracketParsesToArray`/`Json.ArraysStringifyBracketed` give the
grammar facts about `[`. A JavaScript value that may be `undefined` is an
`Option<Json>`. `Json.Truthy` and `Json.Or` model truthiness and `||`.
Reading a property of `null` throws; the model shows this as `None` or as
"state unchanged", matching what the surrounding `try`/handler does.

## Model

| member | source | states |
|---|---|---|
| Listing.Filter | src/pages/admin/CompaniesPage.tsx:36-40 | `Array.filter`: never longer, keeps exactly the elements satisfying the test, each with its original multiplicity, and keeps everything when all pass |
| Listing.FilterFilter | src/pages/admin/CompaniesPage.tsx:37-39 | two chained filters equal one filter by the conjunction |
| Listing.FilterTwo | src/pages/admin/CompaniesPage.tsx:36-40 | the two query boxes: a row is kept iff both keys contain their query case-insensitively; two empty queries keep the whole list |
| Listing.Matches | src/pages/admin/CompaniesPage.tsx:36-40 | an empty query matches everything; a non-empty one needs a field at least as long |
| Listing.MatchesIgnoresCase | src/pages/admin/CompaniesPage.tsx:36-40 | lower-casing the field or the query first does not change the outcome |
| Listing.FilterTwoIsOneFilter | src/pages/admin/RolesPage.tsx:36-40 | the two chained box filters are one order-preserving filter by both queries |
| Listing.FilterFilterAs | src/pages/admin/UsersPage.tsx:41-44 | two chained filters equal one filter by any test that is their conjunction |
| Listing.FilterDropsOne | src/pages/ContractTemplatesPage.tsx:41 | a filter that fails exactly one element returns the list without that element, the rest in order |
| Listing.FilterCount | src/pages/CreateContractPage.tsx:38 | the length of a filter is the number of elements passing its test |
| Listing.FilterEmpty | src/pages/CreateContractPage.tsx:39-44 | a filter is empty iff no element passes its test |
| Listing.FilterFirst | src/pages/CreateContractPage.tsx:39-44 | the first element a filter keeps is the first element of the list that passes the test |
| Listing.TotalPages | src/pages/admin/CompaniesPage.tsx:42 | at least one page; the fewest 20-row pages that hold all rows |
| Listing.ClampPage | src/pages/admin/CompaniesPage.tsx:43 | the shown page is the requested page, or the last page when the request is past it |
| Listing.PageStart | src/pages/admin/CompaniesPage.tsx:45 | the slice start never passes the end of the rows, and lies inside them when there are rows |
| Listing.PageSlice | src/pages/admin/CompaniesPage.tsx:44-47 | the page of the filtered list (`IsPage`): the next 20 rows from the clamped page's start, or all the rows left when fewer remain; all from the filtered list, and non-empty while any row matches |
| Listing.PagesFromIsSuffix | src/pages/admin/RolesPage.tsx:44-47 | the pages from `p` on, concatenated, are exactly the rows from `(p-1)*20` on |
| Listing.PagesCover | src/pages/admin/CompaniesPage.tsx:44-47 | all pages concatenated give the filtered list: each row is on exactly one page, in order |
| Listing.FirstPage | src/pages/admin/UsersPage.tsx:45 | `.slice(0, 20)`: the first `min(n, 20)` rows |
| Listing.SetQuery1 | src/pages/admin/CompaniesPage.tsx:48 | changing the first query sets it and returns to page 1; retyping the same query changes nothing |
| Listing.SetQuery2 | src/pages/admin/RolesPage.tsx:48 | the same for the second query box |
| Listing.SelectPage | src/pages/admin/CompaniesPage.tsx:152 | the page selector sets the page and keeps both queries |
| Listing.PrevPage | src/pages/admin/CompaniesPage.tsx:158 | "« Trước" goes back one page, never below 1 |
| Listing.NextPage | src/pages/admin/CompaniesPage.tsx:159 | "Sau »" goes forward one page, never past the last |
| Listing.PrevNextStayInRange | src/pages/admin/RolesPage.tsx:146-147 | from an in-range page both buttons stay within [1, totalPages] |
| Text.Lower | src/pages/admin/CompaniesPage.tsx:38 | `toLowerCase` (ASCII): same length, each character lower-cased |
| Text.Upper | src/pages/ContractFormInfoPage.tsx:110-111 | `toUpperCase` (ASCII): same length, each character upper-cased |
| Text.TrimStart | src/pages/PendingContractsPage.tsx:108 | a suffix of the input that starts with a non-space, everything cut being space |
| Text.TrimEnd | src/pages/PendingContractsPage.tsx:108 | a prefix of the input that ends with a non-space, everything cut being space |
| Text.Trim | src/pages/PendingContractsPage.tsx:108 | `trim()`: a contiguous piece with no space at either end, everything outside it being space |
| Text.TrimKeepsFirst | src/pages/PendingContractsPage.tsx:108 | trimming text that starts with a non-space keeps that first character |
| Text.IndexOf | src/pages/ContractTemplatesPage.tsx:99 | `indexOf(c)`: absent iff `c` does not occur; otherwise the first position of `c` |
| Text.Split | src/components/Layout.tsx:18 | `split(".")`: at least one piece, no piece holding the separator |
| Text.JoinSplit | src/components/Layout.tsx:18 | splitting loses nothing: joining the pieces gives the input back |
| Text.SplitJoin | src/components/Layout.tsx:18 | splitting separator-free pieces joined by the separator gives the pieces back |
| Text.Decimal | src/pages/ContractTemplatesPage.tsx:77 | a number in a template literal: non-empty decimal digits without a leading zero |
| Text.DecimalRoundTrip | src/pages/PendingContractsPage.tsx:46 | reading the digits back gives the number |
| Text.DecimalInjective | src/pages/ContractTemplatesPage.tsx:77 | different numbers render differently |
| Json.Or | src/components/Layout.tsx:22 | the `or` operator on values: `a` when truthy, `b` otherwise, and the result is truthy iff either operand is |
| Json.Get | src/pages/ContractFieldsPage.tsx:58 | a property read on a non-null value is defined iff the value is an object holding that key |
| Json.Put | src/pages/ContractTypesPage.tsx:79 | `JSON.stringify` writes a property only when it is not `undefined` |
| Json.PutReadBack | src/pages/ContractTypesPage.tsx:79 | a property written by `Put` reads back as its value, an `undefined` one as `undefined` on a fresh key, and every other property as before |
| FileNames.DisplayName | src/pages/ContractTemplatesPage.tsx:98-101 | a name without `_` is kept; otherwise the result is what follows an `_`-free prefix and the first `_` |
| FileNames.DisplayNameOfStored | src/pages/CreateContractPage.tsx:40 | `<prefix>_<name>` with an `_`-free prefix displays as `<name>`, whatever `<name>` contains |
| FileNames.WordExcelDisjoint | src/pages/CreateContractPage.tsx:38-39 | no name is both a Word and an Excel file |
| FileNames.ExcelFiles | src/pages/CreateContractPage.tsx:39 | exactly the template's names ending `.xls`/`.xlsx` in any case, none of them a Word file |
| FileNames.WordFiles | src/pages/CreateContractPage.tsx:38 | exactly the template's names ending `.doc`/`.docx` in any case, none of them an Excel file |
| FileNames.DownloadName | src/pages/PendingContractsPage.tsx:82-85 | the precedence: header filename, then the requested file, then the zip name for a file list, then the file id, then "document.docx"; never empty without a header |
| UploadQueue.NewItem | src/pages/ContractTemplatesPage.tsx:271-283 | an item is `error` with "File vượt quá 10MB" iff its size is strictly above 10 MiB, otherwise `queued`; progress 0, no server name, no transfer |
| UploadQueue.Enqueue | src/pages/ContractTemplatesPage.tsx:284 | one new item per picked file, in picked order, ahead of the unchanged old queue |
| UploadQueue.Update | src/pages/ContractTemplatesPage.tsx:62 | the per-id rewrite every handler uses: items with another id keep their place and contents |
| UploadQueue.RemoveQueued | src/pages/ContractTemplatesPage.tsx:41 | removes exactly the items with that id, the rest stay in order; an absent id changes nothing |
| UploadQueue.RemoveOffered | src/pages/ContractTemplatesPage.tsx:350-352 | the remove button, offered only for queued, uploaded and failed rows, takes out exactly its row, so no upload in progress is dropped |
| UploadQueue.CancelItem | src/pages/ContractTemplatesPage.tsx:47 | the cancelled item is `canceled` with progress 0, every other field unchanged |
| UploadQueue.CancelUpload | src/pages/ContractTemplatesPage.tsx:43-51 | only the items with that id are cancelled, and every abort issued is for that id |
| UploadQueue.Aborts | src/pages/ContractTemplatesPage.tsx:46 | one abort per item with that id that holds a transfer |
| UploadQueue.CancelAll | src/pages/ContractTemplatesPage.tsx:53-55 | the queue is emptied and each held transfer is aborted, in queue order |
| UploadQueue.CancelAllAbortsLive | src/pages/ContractTemplatesPage.tsx:54 | an id is aborted by cancel-all iff some item with it holds a transfer |
| UploadQueue.StartUpload | src/pages/ContractTemplatesPage.tsx:61-92 | the matching items become `uploading` and hold the transfer; an id in the queue sends exactly one request under `files`; an absent id sends nothing and changes nothing |
| UploadQueue.QueuedIds | src/pages/ContractTemplatesPage.tsx:58 | an id is listed iff some item with it is `queued` |
| UploadQueue.StartAll | src/pages/ContractTemplatesPage.tsx:57-59 | the rows keep their places and ids, and with nothing queued nothing happens |
| UploadQueue.SendAll | src/pages/ContractTemplatesPage.tsx:58 | one send request per id, in order, under `files` |
| UploadQueue.StartEach | src/pages/ContractTemplatesPage.tsx:58 | starting ids in turn keeps the queue's length and its ids in place |
| UploadQueue.StartEachItems | src/pages/ContractTemplatesPage.tsx:58-62 | an item whose id is started ends `Started` (starting twice is starting once), the others are untouched |
| UploadQueue.StartEachRequests | src/pages/ContractTemplatesPage.tsx:58-64 | when every id names an item, one send request goes out per id, in order |
| UploadQueue.StartAllStartsQueued | src/pages/ContractTemplatesPage.tsx:57-59 | start-all starts every queued item, sends one request per queued item in queue order, and leaves items with no queued namesake untouched |
| UploadQueue.RoundPercent | src/pages/ContractTemplatesPage.tsx:69 | the nearest whole percentage of loaded/total, halves rounded up, within 0..100 when loaded ≤ total |
| UploadQueue.Member | src/pages/ContractTemplatesPage.tsx:75 | `v?.[key]` is defined iff `v` is an object holding the key |
| UploadQueue.ServerNameOf | src/pages/ContractTemplatesPage.tsx:75 | a name only from a response object with a `template`; the first of a non-empty `fileNames` array when there is one |
| UploadQueue.ServerNameOfTemplate | src/pages/ContractTemplatesPage.tsx:75 | a response carrying `template.fileNames` yields its first name |
| UploadQueue.ServerNameOfMissing | src/pages/ContractTemplatesPage.tsx:75 | a response without a `template` object yields no name |
| UploadQueue.Apply | src/pages/ContractTemplatesPage.tsx:67-85 | progress only when the length is computable; 2xx load gives `uploaded`, 100 and the server name or null; another status gives "Server error <status>"; network error and abort as in the source; the id, name, size and transfer are never changed |
| UploadQueue.Handle | src/pages/ContractTemplatesPage.tsx:62-91 | an event changes only the items with its id |
| UploadQueue.OthersUntouched | src/pages/ContractTemplatesPage.tsx:62-91 | however many events arrive for other ids, an item stays exactly as it was, in its place |
| UploadQueue.CancelThenAbort | src/pages/ContractTemplatesPage.tsx:43-51 | cancel followed by the abort callback leaves `canceled`, progress 0, "Canceled" |
| UploadQueue.UploadedOnlyBySuccess | src/pages/ContractTemplatesPage.tsx:73-85 | an item not yet uploaded becomes `uploaded` iff a 2xx load arrives |
| Workflow.Login | src/components/WorkflowManager.tsx:17-23 | the click sets loading, `logging_in` and the starting message, and sends the start request |
| Workflow.Next | src/components/WorkflowManager.tsx:17-91 | an event the panel cannot receive (disabled button, unawaited reply, tick with no interval) changes nothing and sends nothing; a login click and a tick run their handlers; unmounting leaves no interval armed |
| Workflow.OnStart | src/components/WorkflowManager.tsx:23-37 | a flow id is stored and any armed interval is replaced by one 2000 ms interval polling it; otherwise `error` with "Lỗi: …", loading cleared, no interval armed |
| Workflow.Fail | src/components/WorkflowManager.tsx:33-37 | the `catch`: `error`, "Lỗi: " plus the error text, loading cleared, nothing sent |
| Workflow.StartAutomation | src/components/WorkflowManager.tsx:56-71 | without a contract id: `error` with the missing-id message, nothing sent, loading left as it was; otherwise `automating` and one request carrying exactly the flow id and the contract id |
| Workflow.OnTick | src/components/WorkflowManager.tsx:40-54 | a poll without `loggedIn`, or one that throws, changes nothing; `loggedIn` disarms the interval first, then starts the automation for that flow id |
| Workflow.OnAutomation | src/components/WorkflowManager.tsx:73-84 | loading always cleared; `completed` iff the answer says success; otherwise `error` with the server text or "Lỗi không xác định" |
| Workflow.RetryAndUnmount | src/components/WorkflowManager.tsx:88-92 | retry from `error` returns to `idle` and changes nothing else; unmount clears an armed interval and changes nothing else |
| Workflow.InitialInv | src/components/WorkflowManager.tsx:11-15 | the initial panel satisfies the invariant |
| Workflow.NextInv | src/components/WorkflowManager.tsx:17-92 | every event keeps the invariant: an armed interval polls the stored flow id while logging in; no interval while a handler waits; at most one handler waits |
| Workflow.StepDedup | src/components/WorkflowManager.tsx:43-49 | one event sends an automation request only by disarming an interval |
| Workflow.RunDedup | src/components/WorkflowManager.tsx:24-49 | over any run, the automation requests sent never exceed the intervals armed (counting an interval armed at the start, and one still armed at the end) |
| Workflow.AutomationUsesStoredFlow | src/components/WorkflowManager.tsx:49-70 | an automation request carries the flow id stored from the start reply and the panel's contract id |
| Workflow.MissingContractKeepsLoginDisabled | src/components/WorkflowManager.tsx:57-61 | after the missing-contract failure and Retry the panel is idle, but the Login button stays disabled because loading is still set |
| Auth.LifetimeSeconds | src/services/authService.ts:11 | a missing or zero lifetime means 300 s |
| Auth.ExpiresAt | src/services/authService.ts:11 | expiry is now plus 1000 times the lifetime |
| Auth.Login | src/services/authService.ts:3-15 | a non-ok answer fails and stores nothing; an ok one stores the new record and returns its access token |
| Auth.Logout | src/services/authService.ts:17-19 | after logout nothing loads and no instant is authenticated |
| Auth.Load | src/services/authService.ts:21-23 | a record is loaded iff one is stored readably |
| Auth.IsAuthenticated | src/services/authService.ts:54-58 | authenticated only with a stored record, and then exactly while its expiry is strictly ahead |
| Auth.Refreshed | src/services/authService.ts:44-45 | the new record has the new token and expiry and the old refresh token and user id |
| Auth.AccessToken | src/services/authService.ts:29-52 | no record gives null without a request; a fresh token is served as is; otherwise a refresh carrying the user id and refresh token is sent, and its failure clears the storage and gives null |
| Auth.CachedIffFresh | src/services/authService.ts:32-34 | no refresh happens iff the token expires more than 30 s from now, and such a token is then also authenticated |
| Auth.RefreshKeepsIdentity | src/services/authService.ts:43-47 | a refresh keeps the user id and refresh token, and with a positive lifetime is authenticated right after |
| Auth.LoginThenAccess | src/services/authService.ts:11-13 | after login the session is authenticated and the token is served from the cache while more than 30 s remain |
| UserInfo.FromUrl | src/components/Layout.tsx:19 | same length, every `-` becomes `+`, every `_` becomes `/`, every other character kept |
| UserInfo.ToUrl | src/components/Layout.tsx:19 | the base64 → base64url mapping, the partner of `FromUrl` |
| UserInfo.UrlRoundTrip | src/components/Layout.tsx:19 | on base64url text the mapping loses nothing |
| UserInfo.Padding | src/components/Layout.tsx:20 | k `=` signs where k = (4 − len mod 4) mod 4, so k ≤ 3 and the padded length is a multiple of 4; three exactly when len mod 4 is 1 |
| UserInfo.Padded | src/components/Layout.tsx:20 | the text handed to `atob`: the input followed by only `=` signs, a multiple of 4 long |
| UserInfo.TrimPad | src/components/Layout.tsx:20 | dropping trailing `=` gives a prefix not ending in `=` |
| UserInfo.PaddedStrips | src/components/Layout.tsx:20 | padding can be stripped again: no information is lost |
| UserInfo.PayloadSegment | src/components/Layout.tsx:18 | the second segment exists iff the token holds a `.`, and holds no `.` itself |
| UserInfo.PayloadOfCompact | src/components/Layout.tsx:18 | a compact JWS `header.payload.signature` yields its payload |
| UserInfo.Claim | src/components/Layout.tsx:22-23 | the first claim when truthy, otherwise the second |
| UserInfo.ClaimsOf | src/components/Layout.tsx:22-23 | role is `role` over the role-claim URI; username is `unique_name` over `name` |
| UserInfo.UserInfoOf | src/components/Layout.tsx:15-28 | the empty token or one without a second segment gives both undefined; any known badge means the segment, the decode and the parse all succeeded |
| UserInfo.UserInfoOfCompact | src/components/Layout.tsx:18-24 | a well-formed token whose payload decodes to a claims object shows that object's claims |
| UserInfo.RoleFallback | src/components/Layout.tsx:22 | a truthy `role` claim wins; otherwise the role-claim URI value is shown |
| PendingContracts.QueryParams | src/pages/PendingContractsPage.tsx:45-51 | page, limit 10 and the sort order always; `search` and `sortBy` only when non-empty |
| PendingContracts.PageParamRoundTrip | src/pages/PendingContractsPage.tsx:46 | the server reads back the page asked for |
| PendingContracts.SubmitSearch | src/pages/PendingContractsPage.tsx:141-145 | submitting a search returns to page 1 and keeps the rest |
| PendingContracts.Flip | src/pages/PendingContractsPage.tsx:149 | the order always changes |
| PendingContracts.Sort | src/pages/PendingContractsPage.tsx:147-154 | the current field flips the order; another field is selected, descending |
| PendingContracts.SortTwice | src/pages/PendingContractsPage.tsx:147-154 | sorting twice by the current field restores the controls |
| PendingContracts.RequestDelete | src/pages/PendingContractsPage.tsx:117-120 | a confirmation target is set only for a draft; anything else changes nothing |
| PendingContracts.Deletable | src/pages/PendingContractsPage.tsx:118 | exactly the statuses of five letters that lower-case to "draft" |
| PendingContracts.DeletableExamples | src/pages/PendingContractsPage.tsx:118 | the guard ignores case only: "Draft"/"DRAFT" pass; "pending", a missing status, " draft" do not |
| PendingContracts.NonEmptyStrings | src/pages/PendingContractsPage.tsx:110 | exactly the non-empty string entries, never an empty name |
| PendingContracts.PendingFiles | src/pages/PendingContractsPage.tsx:105-114 | nothing for a missing or empty id; the non-empty strings of a trimmed-`[` array; otherwise the id itself; never an empty name |
| PendingContracts.PendingFilesRoundTrip | src/pages/PendingContractsPage.tsx:108-110 | a list stored as a JSON array of non-empty names reads back as those names, in order |
| PendingContracts.SaveName | src/pages/PendingContractsPage.tsx:81-85 | this list's download name, its file-list test trimming the id first |
| PendingContracts.ShownName | src/pages/PendingContractsPage.tsx:295 | the label of a listed file agrees with `displayName` |
| FormInfo.FilteredAll | src/pages/ContractFormInfoPage.tsx:43-47 | the rows matching the name box and the status box (a missing status searched as "") |
| FormInfo.Shown | src/pages/ContractFormInfoPage.tsx:43-55 | at most 20 matching rows, contiguous in the filtered list from the clamped page's start |
| FormInfo.Entry | src/pages/ContractFormInfoPage.tsx:76 | an entry carries the code and name, the data type or "String", Encrypt false, Required "false", DefaultValue "" |
| FormInfo.Entries | src/pages/ContractFormInfoPage.tsx:76 | one entry per selected field, in order |
| FormInfo.JsonForm | src/pages/ContractFormInfoPage.tsx:76 | the saved text reads back as the array of entries and starts with `[` |
| FormInfo.StoredEntries | src/pages/ContractFormInfoPage.tsx:69 | the entries are read exactly when the stored text parses to an array with no null, and they are that array's entries |
| FormInfo.SelectionOf | src/pages/ContractFormInfoPage.tsx:65-71 | one field per readable entry, in order; anything that throws gives the empty selection |
| FormInfo.JsonFormRoundTrip | src/pages/ContractFormInfoPage.tsx:69-76 | saving then reopening gives back each field's code, name and data type, in order |
| FormInfo.MissingTypeIsString | src/pages/ContractFormInfoPage.tsx:69-76 | a missing data type comes back as "String" |
| FormInfo.AddField | src/pages/ContractFormInfoPage.tsx:127 | unchanged when the first selected field with the code is a truthy value; otherwise appended, even when the code is already held by a falsy value |
| FormInfo.AddFieldKeepsUnique | src/pages/ContractFormInfoPage.tsx:127 | from distinct codes, dropping keeps them distinct exactly when the code, if already selected, is found by `find`'s truthiness test; the code is selected afterwards |
| FormInfo.FindIndex | src/pages/ContractFormInfoPage.tsx:127 | `find` stops at the first selected field with the code, and finds none exactly when no field has it |
| FormInfo.ObjectsKeepUnique | src/pages/ContractFormInfoPage.tsx:127 | while every selected value is an object, dropping never duplicates a code |
| FormInfo.Drop | src/pages/ContractFormInfoPage.tsx:121-129 | empty or unparseable drop data changes nothing; otherwise the dropped value, with its truthiness, is added by code |
| FormInfo.FalsyDropRepeats | src/pages/ContractFormInfoPage.tsx:127 | dropping `0`, `false` or `""` twice selects it twice, because `find` hands back the falsy first copy |
| FormInfo.RemoveSelected | src/pages/ContractFormInfoPage.tsx:132 | removes every field with that code and keeps the others, in order |
| FormInfo.AddThenRemove | src/pages/ContractFormInfoPage.tsx:127-132 | removing a newly added code restores the selection |
| FormInfo.ActiveFields | src/pages/ContractFormInfoPage.tsx:110-111 | exactly the catalogue fields whose upper-cased status is ACTIVE |
| FormInfo.SearchFields | src/pages/ContractFormInfoPage.tsx:118 | exactly the fields whose name or code contains the query, ignoring case |
| FormInfo.DragDrop | src/pages/ContractFormInfoPage.tsx:120-129 | dragging a catalogue field in adds exactly its code, name and data type, unless the code is already there |
| CreateContract.FindTemplate | src/pages/CreateContractPage.tsx:35 | the first template with that id, as `find` returns it, or none when no template has it |
| CreateContract.WordCount | src/pages/CreateContractPage.tsx:38 | the number of the chosen template's files that are Word files, the count the screen shows |
| CreateContract.SelectTemplate | src/pages/CreateContractPage.tsx:42-46 | another template clears the created list and the upload, and picks its first Excel file, or "" when it has none |
| CreateContract.InitFields | src/pages/CreateContractPage.tsx:82-86 | always companyId and templateId, and `excel` exactly when a file was chosen |
| CreateContract.CanInit | src/pages/CreateContractPage.tsx:48 | both a company and a template are chosen (the guard `StartInit`'s contract is stated with) |
| CreateContract.StartInit | src/pages/CreateContractPage.tsx:77-80 | without both choices: an error toast and no request; otherwise the created list is emptied and the request built |
| CreateContract.FinishInit | src/pages/CreateContractPage.tsx:87-102 | an array becomes the created list with a count toast; anything else shows an error; an aborted request shows nothing |
| CreateContract.InitWithoutArray | src/pages/CreateContractPage.tsx:80-94 | a non-array answer leaves no created contracts, whatever was listed before |
| CreateContract.TemplateExcelName | src/pages/CreateContractPage.tsx:51-59 | no download without a template and an Excel file; the header name, or the display name |
| CreateContract.CreatedFiles | src/pages/CreateContractPage.tsx:165-172 | the parsed array, unfiltered, for a trimmed-`[` id that parses; otherwise the id itself, the empty id included |
| CreateContract.FileListsDiffer | src/pages/CreateContractPage.tsx:165-172 | unlike the pending list, the empty id is kept and parsed entries are not filtered |
| CreateContract.SaveName | src/pages/CreateContractPage.tsx:146-150 | this screen's download name, its file-list test not trimming the id |
| CreateContract.LeadingSpaceBundle | src/pages/CreateContractPage.tsx:150 | an id stored with a leading space is saved under the raw id here, but under the zip name on the pending list |
| Crud.SaveTarget | src/pages/admin/UsersPage.tsx:86-90 | update iff editing with a non-empty id, and then to that id |
| Crud.ActiveText | src/pages/admin/UsersPage.tsx:58 | the select holds "1" or "0" |
| Crud.ActiveRoundTrip | src/pages/admin/UsersPage.tsx:58 | true ↔ "1" and false ↔ "0", in both directions |
| Users.CompanyName | src/pages/admin/UsersPage.tsx:44 | the name of the first company with that id, or none iff no company has it |
| Users.Matching | src/pages/admin/UsersPage.tsx:41-44 | a user is kept iff the username+fullName text and the company name match their boxes |
| Users.MatchingIsOneFilter | src/pages/admin/UsersPage.tsx:41-44 | the two chained filters are one filter by both boxes, so the kept users stay in their original order and multiplicity |
| Users.Shown | src/pages/admin/UsersPage.tsx:41-46 | at most 20 matching users, the first ones in original order |
| Users.UnknownCompanyHidden | src/pages/admin/UsersPage.tsx:44 | a non-empty company query excludes a user of an unknown company |
| Users.QuerySpansBoundary | src/pages/admin/UsersPage.tsx:43 | a query can span the boundary between username and full name |
| Users.EditForm | src/pages/admin/UsersPage.tsx:55-60 | the flag maps back to the user's `isActive`, and both password boxes start empty |
| Users.Save | src/pages/admin/UsersPage.tsx:62-90 | adding needs a valid pair and sends it; editing sends a password only when one is typed, and then needs a valid pair; an invalid pair sends nothing |
| Users.PairValid | src/pages/admin/UsersPage.tsx:66 | a valid pair has equal boxes, a non-empty password, and counts as trying to change it |
| Users.TryingToChange | src/pages/admin/UsersPage.tsx:74 | not trying exactly when both boxes are empty or missing |
| Users.EditUntouched | src/pages/admin/UsersPage.tsx:55-90 | saving an untouched edit form sends the user's own fields, without a password, to the user's id |
| Users.AddNeedsPassword | src/pages/admin/UsersPage.tsx:48-71 | a new user is never sent without a password, and the fresh add form is refused |
| ContractFields.Shown | src/pages/ContractFieldsPage.tsx:36-41 | at most 20 rows matching name and code, the first ones in order |
| ContractFields.ParseMeta | src/pages/ContractFieldsPage.tsx:43-45 | `{}` for missing, empty or unparseable meta text, otherwise the parsed value |
| ContractFields.EditForm | src/pages/ContractFieldsPage.tsx:54-60 | code and name kept; the default value, status and data type read back with "", "ACTIVE" and "string" for falsy ones |
| ContractFields.MetaObject | src/pages/ContractFieldsPage.tsx:71 | the meta object holds exactly `defaultValue` and `status` |
| ContractFields.SavePayload | src/pages/ContractFieldsPage.tsx:65-72 | isRequired false, order 0, and a metaJson that parses back to the meta object |
| ContractFields.MetaRoundTrip | src/pages/ContractFieldsPage.tsx:54-72 | saving then editing again gives back the form, falsy entries replaced by their defaults |
| ContractFields.MetaRoundTripStrings | src/pages/ContractFieldsPage.tsx:54-72 | a form of non-empty strings comes back exactly |
| ContractFields.NoMetaDefaults | src/pages/ContractFieldsPage.tsx:58 | a record without meta opens with the default value "" and status "ACTIVE" |
| ContractFields.StatusLabel | src/pages/ContractFieldsPage.tsx:147 | "Hoạt động" iff the status is falsy or "ACTIVE", otherwise "Tạm dừng" |
| ContractFields.RowStatusLabel | src/pages/ContractFieldsPage.tsx:147 | the row label is that of the meta status, and is absent only where reading the meta throws |
| ContractFields.LabelMatchesForm | src/pages/ContractFieldsPage.tsx:58 | the row label agrees with the status `openEdit` puts in the form |
| Companies.FilteredAll | src/pages/admin/CompaniesPage.tsx:36-40 | exactly the companies matching both boxes, in order; empty boxes keep all |
| Companies.Shown | src/pages/admin/CompaniesPage.tsx:41-47 | at most 20 rows of the filtered list, contiguous from the clamped page's start |
| Companies.PagesShowAll | src/pages/admin/CompaniesPage.tsx:44-47 | walking every page shows each matching company once, in order |
| Companies.EditForm | src/pages/admin/CompaniesPage.tsx:57-62 | name and code kept, the flag as "1"/"0" |
| Companies.Save | src/pages/admin/CompaniesPage.tsx:64-79 | update iff editing with an id; the body's flag is true iff the select says "1" |
| Companies.EditSaveRoundTrip | src/pages/admin/CompaniesPage.tsx:60-71 | an untouched edit sends the company's own fields and flag back to its id |
| Companies.AddIsActive | src/pages/admin/CompaniesPage.tsx:50-55 | a new company is created active unless the select is changed |
| Roles.FilteredAll | src/pages/admin/RolesPage.tsx:36-40 | exactly the roles matching both boxes, in order; empty boxes keep all |
| Roles.Shown | src/pages/admin/RolesPage.tsx:41-47 | at most 20 rows of the filtered list, contiguous from the clamped page's start |
| Roles.PagesShowAll | src/pages/admin/RolesPage.tsx:44-47 | walking every page shows each matching role once, in order |
| Roles.EditForm | src/pages/admin/RolesPage.tsx:60 | a missing or empty permissions text becomes "" |
| Roles.EditSaveRoundTrip | src/pages/admin/RolesPage.tsx:57-68 | an untouched edit sends the role's own name and code and its permissions ("" when none) to its own id |
| ContractTypes.Shown | src/pages/ContractTypesPage.tsx:45-50 | at most 20 rows matching name and code, the first ones in order |
| ContractTypes.StatusLabel | src/pages/ContractTypesPage.tsx:141 | ACTIVE → "Hoạt động", INACTIVE → "Tạm dừng", another non-empty status as is, missing or empty → "-" |
| ContractTypes.EditForm | src/pages/ContractTypesPage.tsx:59-64 | description and company default to "", status to "ACTIVE" |
| ContractTypes.Body | src/pages/ContractTypesPage.tsx:73 | the body carries name, code, description, and companyId and status when defined, nothing else |
| ContractTypes.Save | src/pages/ContractTypesPage.tsx:66-81 | update iff editing with an id; the listed update body and the whole-form create body coincide |
| ContractTypes.AddSendsNoStatus | src/pages/ContractTypesPage.tsx:52-57 | a type added without picking a status is created with no status property |
| ContractTypes.EditSendsStatus | src/pages/ContractTypesPage.tsx:62-73 | editing always sends a status, "ACTIVE" for a type without one |
| TemplatesList.FilteredAll | src/pages/ContractTemplatesPage.tsx:118 | exactly the templates matching the name box and the status box (missing status as ""), in order |
| TemplatesList.Shown | src/pages/ContractTemplatesPage.tsx:118-122 | at most 20 matching rows, contiguous from the clamped page's start |
| TemplatesList.NoStatusHidden | src/pages/ContractTemplatesPage.tsx:118 | a template without a status is hidden by any status query |
| TemplatesList.PagesShowAll | src/pages/ContractTemplatesPage.tsx:119-123 | every matching template is on exactly one page, in order; a query change lands on page 1 |
| Sidebar.ThemeIffAdmin | src/stores/sidebarStore.ts:38-41 | in a consistent state the theme is the admin one iff the section is admin |
| Sidebar.SetCollapsed | src/stores/sidebarStore.ts:36 | sets only the collapsed flag |
| Sidebar.SetMobileOpen | src/stores/sidebarStore.ts:37 | sets only the mobile flag |
| Sidebar.SetActiveSection | src/stores/sidebarStore.ts:38-41 | sets the section with its own theme and keeps both flags |
| Sidebar.ToggleCollapsed | src/stores/sidebarStore.ts:42 | flips only the collapsed flag |
| Sidebar.ToggleMobile | src/stores/sidebarStore.ts:43 | flips only the mobile flag |
| Sidebar.TogglesInvolutive | src/stores/sidebarStore.ts:42-43 | each toggle applied twice is the identity |
| Sidebar.ApplyKeepsConsistent | src/stores/sidebarStore.ts:36-43 | every store action keeps the theme consistent with the section |
| Sidebar.RunKeepsConsistent | src/stores/sidebarStore.ts:30-43 | any sequence of actions keeps the theme consistent |
| Sidebar.InitialConsistent | src/stores/sidebarStore.ts:31-34 | the initial state (contracts section, contract theme) is consistent |
| Sidebar.RenderSidebar | src/components/sidebar/SidebarContainer.tsx:31-55 | the admin sidebar iff an admin is in the admin section, so a non-admin gets the contract sidebar in every state |
| Sidebar.Other | src/components/sidebar/SidebarContainer.tsx:64 | the switch always targets the other section |
| Sidebar.SwitchButton | src/components/sidebar/SidebarContainer.tsx:61-66 | shown to admins only; pressing it activates the other section |
| Sidebar.SwitchTwice | src/components/sidebar/SidebarContainer.tsx:61-66 | pressing the switch twice returns to the same state |
| Sidebar.RenderMatchesTheme | src/components/sidebar/SidebarContainer.tsx:31-55 | after any store actions from a consistent state, an admin sees the admin sidebar exactly when the store's theme is the admin one |
| Sidebar.OnMedia | src/components/sidebar/SidebarContainer.tsx:16-25 | the sidebar is collapsed exactly when `(max-width: 1023px)` matches; nothing else changes |
| DkkdIframe.OnMessage | src/components/DkkdLoginIframe.tsx:10-19 | other origins and other message types change nothing; success logs in and stores the session id; an error sets the message and keeps the login flag |
| DkkdIframe.Logout | src/components/DkkdLoginIframe.tsx:25-29 | the session entry goes, login and error are cleared, other stored entries stay |
| DkkdIframe.ErrorKeepsLogin | src/components/DkkdLoginIframe.tsx:16-17 | a login error never changes the login flag or the storage |
| DkkdIframe.SuccessThenLogout | src/components/DkkdLoginIframe.tsx:13-29 | success then logout leaves no session and no login |
| DkkdIframe.ForeignOriginsIgnored | src/components/DkkdLoginIframe.tsx:11 | any run of messages from other origins leaves the state unchanged |

## Left out

- Transport and storage are not modelled: XHR, fetch, FormData, blobs and URL downloads, `window.open`, and `localStorage` access. Replies are inputs, storage is a value, and a request is a datum the model returns.
- `src/services/api.ts` and `src/services/dkkdAuthService.ts` are not part of this model.
- `src/components/DkkdLogin.tsx` is not part of this model. It is reCAPTCHA injection, window callbacks, a timeout and chained fetches.
- Timers and concurrency are sequential here:
  - a poll tick is one event, request and reply together;
  - overlapping in-flight polls are not modelled; in the source two polls that both see `loggedIn` would each start the automation, since `checkStatus` does not re-check that its interval is still armed (`src/components/WorkflowManager.tsx:43-49`);
  - React state batching and the stale `fileItems` closure read by start-all are not modelled.
- `maxParallelUploads` and `activeUploads` are declared but never used, so no concurrency cap is modelled.
- The source has no separate session-exchange step after login, so none is modelled. It has no concurrency cap either, and the upload queue does not keep "progress is 100 iff uploaded": a progress event can reach 100 while uploading, and a server error after it keeps 100. The model follows the code.
- UploadQueue.RoundPercent: rounds the exact rational loaded/total half up; floating-point error in `Math.round(loaded / total * 100)` is not modelled.
- UploadQueue.Apply: a computable progress event with total 0 (a NaN or Infinity percentage in JavaScript) is modelled as no change.
- UploadQueue.Apply: an upload answer whose text is not JSON makes `JSON.parse` throw inside the load handler; that path is not modelled, and the body is taken as already parsed.
- Library behaviour is abstract: `JSON.parse`/`JSON.stringify` (a `Json.Codec`), `atob` (a function parameter) and the Content-Disposition regex (its capture is an optional header name).
- Case mapping (`toLowerCase`/`toUpperCase`) is ASCII only; Unicode case folding is not modelled.
- Numbers are integers; JSON numbers with fractions and `Number(...)` conversion of non-numeric lifetimes are not modelled.
- JavaScript object identity: `===` on dropped field codes is value equality here.
- FormInfo.Drop: a dropped `null` is modelled as no change. In the source the state updater throws on it when a field is already selected, and otherwise appends a `null` that the selection list then fails to render.
- The access token shown in the header is an input: `getTokensSync`, which `Layout.tsx` imports, is not defined in `authService.ts`.
- DkkdIframe.OnMessage: `localStorage.setItem` converts the session id to a string; the model stores the JavaScript value as handed over.
- Toasts after a save, the list reloads after a save, and the delete handlers (confirm dialog, DELETE request, reload) are not modelled.
- The company-name column of the contract-types list is not modelled.
- Money, date and size formatting (`toFixed`, locale dates) are not modelled.
- Presentational and configuration files are not part of this model: toast, dialog, header, home, the sidebar components, popups, routing and build configuration.
- Listing.PrevPage: the source disables "« Trước" while the clamped page is at most 1; the model accepts that click and moves the raw page (to 1).
- Listing.NextPage: the source disables "Sau »" while the clamped page is at least the last page; the model accepts that click and moves the raw page to at most the last page.
- Workflow.Login: its guard is the button's visibility and `disabled`; a click the button cannot deliver is ignored in `Workflow.Next`.

=== FILE: auth.dfy ===
/** The system login session: the token record kept in browser storage, its
    expiry arithmetic, and the access-token refresh with a 30 s skew. The
    clock is a parameter (milliseconds), so are the server's replies; the
    storage slot is a value threaded through. */
module Auth {
  import opened Prelude

  const DefaultLifetimeSeconds: int := 300
  const RefreshSkewMs: int := 30000
  const LoginFailedMessage: string := "Đăng nhập thất bại"

  datatype Tokens = Tokens(accessToken: string, refreshToken: string, userId: string, expiresAt: int)

  /** The `auth.tokens` storage entry: absent (or empty), present but not
      readable as JSON, or a stored record. */
  datatype Slot = NoTokens | Unreadable | Stored(tokens: Tokens)

  /** The fields read from a login or refresh answer; `expiresIn` is `None`
      when `accessTokenExpiresIn` is missing. */
  datatype Grant = Grant(accessToken: string, refreshToken: string, userId: string, expiresIn: Option<int>)

  /** `Number(expiresIn || 300)`: a missing or zero lifetime means 300 s. */
  function LifetimeSeconds(expiresIn: Option<int>): (s: int)
    ensures expiresIn.None? || expiresIn.value == 0 ==> s == DefaultLifetimeSeconds
    ensures expiresIn.Some? && expiresIn.value != 0 ==> s == expiresIn.value
  {
    match expiresIn
    case Some(v) => if v != 0 then v else DefaultLifetimeSeconds
    case None => DefaultLifetimeSeconds
  }

  /** `Date.now() + lifetime * 1000`. */
  function ExpiresAt(now: int, expiresIn: Option<int>): (t: int)
    ensures t - now == 1000 * LifetimeSeconds(expiresIn)
    ensures expiresIn.None? ==> t == now + 300000
  {
    now + LifetimeSeconds(expiresIn) * 1000
  }

  datatype LoginOutcome = LoginFailed(message: string) | LoggedIn(accessToken: string, slot: Slot)

  /** `loginSystem` once its answer is in: a non-ok answer fails and stores
      nothing; an ok one stores the new record and yields its access token. */
  function Login(ok: bool, data: Grant, now: int): (r: LoginOutcome)
    ensures !ok ==> r == LoginFailed(LoginFailedMessage)
    ensures ok ==> r.LoggedIn? && r.accessToken == data.accessToken
    ensures ok ==> r.slot == Stored(Tokens(data.accessToken, data.refreshToken, data.userId, ExpiresAt(now, data.expiresIn)))
  {
    if !ok then LoginFailed(LoginFailedMessage)
    else LoggedIn(data.accessToken, Stored(Tokens(data.accessToken, data.refreshToken, data.userId, ExpiresAt(now, data.expiresIn))))
  }

  /** `logoutSystem`. */
  function Logout(slot: Slot): (r: Slot)
    ensures Load(r).None?
    ensures forall now :: !IsAuthenticated(r, now)
  {
    NoTokens
  }

  /** `loadTokens`: the stored record, or `None` when absent or unreadable. */
  function Load(slot: Slot): (r: Option<Tokens>)
    ensures r.Some? <==> slot.Stored?
    ensures slot.Stored? ==> r.value == slot.tokens
  {
    if slot.Stored? then Some(slot.tokens) else None
  }

  /** The cached access token is still good: it expires more than the skew
      from now. */
  predicate Fresh(t: Tokens, now: int) {
    t.expiresAt > now + RefreshSkewMs
  }

  /** The refresh request body. */
  datatype RefreshBody = RefreshBody(userId: string, refreshToken: string)

  /** How the refresh ended: a throw, or an answer with its ok flag. */
  datatype RefreshReply = RefreshThrew | RefreshAnswered(ok: bool, data: Grant)

  /** The result of `getAccessTokenAuto`, the storage after it, and the
      refresh request it sent, if any. */
  datatype Access = Access(token: Option<string>, slot: Slot, sent: Option<RefreshBody>)

  /** The record a successful refresh stores: the new access token and
      expiry, with the old refresh token and user id. */
  function Refreshed(t: Tokens, data: Grant, later: int): (nt: Tokens)
    ensures nt.accessToken == data.accessToken && nt.expiresAt == ExpiresAt(later, data.expiresIn)
    ensures nt.refreshToken == t.refreshToken && nt.userId == t.userId
  {
    Tokens(data.accessToken, t.refreshToken, t.userId, ExpiresAt(later, data.expiresIn))
  }

  /** `getAccessTokenAuto` at time `now`; `reply` is the refresh's outcome
      and `later` the clock read after it, used only when a refresh happens. */
  function AccessToken(slot: Slot, now: int, reply: RefreshReply, later: int): (a: Access)
    ensures !slot.Stored? ==> a == Access(None, slot, None)
    ensures slot.Stored? && Fresh(slot.tokens, now) ==> a == Access(Some(slot.tokens.accessToken), slot, None)
    ensures slot.Stored? && !Fresh(slot.tokens, now) ==>
              && a.sent == Some(RefreshBody(slot.tokens.userId, slot.tokens.refreshToken))
              && (reply.RefreshAnswered? && reply.ok ==>
                    a.token == Some(reply.data.accessToken) && a.slot == Stored(Refreshed(slot.tokens, reply.data, later)))
              && (!(reply.RefreshAnswered? && reply.ok) ==> a.token == None && a.slot == NoTokens)
  {
    match Load(slot)
    case None => Access(None, slot, None)
    case Some(t) =>
      if Fresh(t, now) then Access(Some(t.accessToken), slot, None)
      else
        var body := Some(RefreshBody(t.userId, t.refreshToken));
        match reply
        case RefreshAnswered(ok, data) =>
          if ok then Access(Some(data.accessToken), Stored(Refreshed(t, data, later)), body)
          else Access(None, Logout(slot), body)
        case RefreshThrew => Access(None, Logout(slot), body)
  }

  /** `isAuthenticatedSync`: a record exists and has not expired (strictly). */
  predicate IsAuthenticated(slot: Slot, now: int): (b: bool)
    ensures b ==> slot.Stored?
    ensures slot.Stored? ==> (b <==> now < slot.tokens.expiresAt)
  {
    var t := Load(slot);
    t.Some? && t.value.expiresAt > now
  }

  /** The cached token is served without a request exactly when it is fresh,
      and a token served that way is also authenticated at that instant. */
  lemma CachedIffFresh(slot: Slot, now: int, reply: RefreshReply, later: int)
    requires slot.Stored?
    ensures AccessToken(slot, now, reply, later).sent.None? <==> Fresh(slot.tokens, now)
    ensures AccessToken(slot, now, reply, later).sent.None? ==> IsAuthenticated(slot, now)
  {
  }

  /** A refresh never changes who is logged in or the refresh token, and
      with a positive lifetime the new record is authenticated right after. */
  lemma RefreshKeepsIdentity(slot: Slot, now: int, data: Grant, later: int)
    requires slot.Stored? && !Fresh(slot.tokens, now)
    requires LifetimeSeconds(data.expiresIn) > 0
    ensures AccessToken(slot, now, RefreshAnswered(true, data), later).slot.Stored?
    ensures AccessToken(slot, now, RefreshAnswered(true, data), later).slot.tokens.userId == slot.tokens.userId
    ensures AccessToken(slot, now, RefreshAnswered(true, data), later).slot.tokens.refreshToken == slot.tokens.refreshToken
    ensures IsAuthenticated(AccessToken(slot, now, RefreshAnswered(true, data), later).slot, later)
  {
  }

  /** Right after a login with a positive lifetime the session is authenticated,
      and its token is served from the cache while more than 30 s remain. */
  lemma LoginThenAccess(data: Grant, now: int, t: int, reply: RefreshReply, later: int)
    requires LifetimeSeconds(data.expiresIn) > 0
    requires now <= t && t + RefreshSkewMs < now + 1000 * LifetimeSeconds(data.expiresIn)
    ensures Login(true, data, now).LoggedIn?
    ensures IsAuthenticated(Login(true, data, now).slot, now)
    ensures AccessToken(Login(true, data, now).slot, t, reply, later) ==
            Access(Some(data.accessToken), Login(true, data, now).slot, None)
  {
  }
}

=== FILE: companies.dfy ===
/** The companies screen: name and code filters over a paged list, and the
    `isActive` flag carried through the form as "1"/"0". */
module Companies {
  import opened Listing
  import opened Crud

  datatype Company = Company(id: string, name: string, code: string, isActive: bool)

  /** `filteredAll`: the companies matching both boxes, in order. */
  function FilteredAll(items: seq<Company>, v: View): (r: seq<Company>)
    ensures forall c :: c in r <==> c in items && Matches(c.name, v.q1) && Matches(c.code, v.q2)
    ensures v.q1 == "" && v.q2 == "" ==> r == items
  {
    FilterTwo(items, (c: Company) => c.name, (c: Company) => c.code, v.q1, v.q2)
  }

  /** The page shown: at most 20 rows of `filteredAll`, from the start of
      the clamped page. */
  function Shown(items: seq<Company>, v: View): (r: seq<Company>)
    ensures |r| <= PageSize
    ensures forall c :: c in r ==> c in items && Matches(c.name, v.q1) && Matches(c.code, v.q2)
    ensures IsPage(r, FilteredAll(items, v), v.page)
  {
    PageSlice(FilteredAll(items, v), v.page)
  }

  /** Walking every page of the list shows each matching company once, in order. */
  lemma PagesShowAll(items: seq<Company>, v: View)
    ensures PagesFrom(FilteredAll(items, v), 1) == FilteredAll(items, v)
  {
    PagesCover(FilteredAll(items, v));
  }

  datatype Form = Form(name: string, code: string, isActive: string)

  const AddForm := Form("", "", "1")

  function EditForm(c: Company): (f: Form)
    ensures f.name == c.name && f.code == c.code
    ensures f.isActive == "1" || f.isActive == "0"
  {
    Form(c.name, c.code, ActiveText(c.isActive))
  }

  /** The body of both the update and the create. */
  datatype Body = Body(name: string, code: string, isActive: bool)

  function Save(f: Form, isEdit: bool, editId: string): (r: (Target, Body))
    ensures r.0.Update? <==> isEdit && editId != ""
    ensures r.1.name == f.name && r.1.code == f.code
    ensures r.1.isActive <==> f.isActive == "1"
  {
    (SaveTarget(isEdit, editId), Body(f.name, f.code, ActiveValue(f.isActive)))
  }

  /** Editing a company and saving it untouched sends back its own fields,
      its flag included. */
  lemma EditSaveRoundTrip(c: Company)
    requires c.id != ""
    ensures Save(EditForm(c), true, c.id) == (Update(c.id), Body(c.name, c.code, c.isActive))
  {
    ActiveRoundTrip(c.isActive, "");
  }

  /** A new company is active unless the select is changed. */
  lemma AddIsActive(editId: string)
    ensures Save(AddForm, false, editId).1.isActive
    ensures Save(AddForm, false, editId).0 == Create
  {
  }
}

=== FILE: contract_fields.dfy ===
/** The contract-fields screen: its list (first 20 rows by name and code),
    the `metaJson` text that packs a field's default value and status, the
    form `openEdit` fills from a record, and the status label. Values read
    from parsed JSON are kept as `Json` (`Option<Json>` where they may be
    `undefined`). */
module ContractFields {
  import opened Prelude
  import opened Json
  import opened Listing
  import FileNames

  const DefaultDataType: string := "string"
  const DefaultStatus: string := "ACTIVE"
  const ActiveLabel: string := "Hoạt động"
  const PausedLabel: string := "Tạm dừng"

  datatype ContractField = ContractField(id: string, name: string, code: string,
                                         dataType: Option<Json>, metaJson: Option<string>)

  /** The rows shown: name and code filters, then the first 20. */
  function Shown(items: seq<ContractField>, qName: string, qCode: string): (r: seq<ContractField>)
    ensures |r| <= PageSize
    ensures forall it :: it in r ==> it in items && Matches(it.name, qName) && Matches(it.code, qCode)
    ensures var all := FilterTwo(items, (it: ContractField) => it.name, (it: ContractField) => it.code, qName, qCode);
            |r| == Min(|all|, PageSize) && r == all[..|r|]
  {
    var all := FilterTwo(items, (it: ContractField) => it.name, (it: ContractField) => it.code, qName, qCode);
    var r := FirstPage(all);
    assert forall it :: it in r ==> it in all;
    r
  }

  const EmptyObject: Json := JObj(map[])

  /** `parseMeta`: `{}` for a missing or empty text and for text that does
      not parse; otherwise the parsed value. */
  function ParseMeta(meta: Option<string>, codec: Codec): (r: Json)
    ensures !FileNames.Present(meta) ==> r == EmptyObject
    ensures FileNames.Present(meta) && codec.parse(meta.value).None? ==> r == EmptyObject
    ensures FileNames.Present(meta) && codec.parse(meta.value).Some? ==> r == codec.parse(meta.value).value
  {
    if !FileNames.Present(meta) then EmptyObject
    else codec.parse(meta.value).GetOr(EmptyObject)
  }

  /** The form. */
  datatype Form = Form(code: string, name: string, defaultValue: Json, dataType: Json, status: Json)

  /** `openAdd`. */
  const AddForm := Form("", "", JStr(""), JStr(DefaultDataType), JStr(DefaultStatus))

  /** `openEdit`: code and name as they are; the default value and status
      from the meta (`""` and "ACTIVE" when falsy), the data type
      ("string" when falsy). Meta text that parses to `null` makes reading
      its properties throw: `None`, and the form stays as it was. */
  function EditForm(it: ContractField, codec: Codec): (r: Option<Form>)
    ensures r.None? <==> ParseMeta(it.metaJson, codec).JNull?
    ensures r.Some? ==>
              var meta := ParseMeta(it.metaJson, codec);
              && r.value.code == it.code && r.value.name == it.name
              && r.value.defaultValue == Or(Get(meta, "defaultValue"), Some(JStr(""))).value
              && r.value.status == Or(Get(meta, "status"), Some(JStr(DefaultStatus))).value
              && r.value.dataType == Or(it.dataType, Some(JStr(DefaultDataType))).value
  {
    var meta := ParseMeta(it.metaJson, codec);
    if meta.JNull? then None
    else Some(Form(it.code, it.name,
                   Or(Get(meta, "defaultValue"), Some(JStr(""))).value,
                   Or(it.dataType, Some(JStr(DefaultDataType))).value,
                   Or(Get(meta, "status"), Some(JStr(DefaultStatus))).value))
  }

  /** `{ defaultValue, status }`, the object `metaJson` is written from. */
  function MetaObject(f: Form): (m: Json)
    ensures m.JObj? && m.fields.Keys == {"defaultValue", "status"}
    ensures Get(m, "defaultValue") == Some(f.defaultValue) && Get(m, "status") == Some(f.status)
  {
    JObj(map["defaultValue" := f.defaultValue, "status" := f.status])
  }

  /** The body of `save`. */
  datatype Payload = Payload(code: string, name: string, dataType: Json, isRequired: bool, order: int, metaJson: string)

  function SavePayload(f: Form, codec: Codec): (p: Payload)
    ensures p.code == f.code && p.name == f.name && p.dataType == f.dataType
    ensures !p.isRequired && p.order == 0
    ensures RoundTrips(codec) ==> codec.parse(p.metaJson) == Some(MetaObject(f))
  {
    Payload(f.code, f.name, f.dataType, false, 0, codec.stringify(MetaObject(f)))
  }

  /** The record as the server stores a saved payload. */
  function Stored(id: string, p: Payload): ContractField {
    ContractField(id, p.name, p.code, Some(p.dataType), Some(p.metaJson))
  }

  /** A falsy value reads back as the default. */
  function Defaulted(v: Json, default: string): Json {
    if Truthy(Some(v)) then v else JStr(default)
  }

  /** Saving a form and editing the stored record again gives back the
      form, with a falsy default value, data type or status replaced by its
      default. */
  lemma MetaRoundTrip(f: Form, id: string, codec: Codec)
    requires RoundTrips(codec)
    requires codec.stringify(MetaObject(f)) != ""
    ensures EditForm(Stored(id, SavePayload(f, codec)), codec) ==
            Some(Form(f.code, f.name, Defaulted(f.defaultValue, ""), Defaulted(f.dataType, DefaultDataType),
                      Defaulted(f.status, DefaultStatus)))
  {
    assert ParseMeta(Some(codec.stringify(MetaObject(f))), codec) == MetaObject(f);
  }

  /** A field saved from a form with non-empty strings reads back exactly. */
  lemma MetaRoundTripStrings(code: string, name: string, dv: string, dt: string, st: string, id: string, codec: Codec)
    requires RoundTrips(codec)
    requires dv != "" && dt != "" && st != ""
    requires codec.stringify(MetaObject(Form(code, name, JStr(dv), JStr(dt), JStr(st)))) != ""
    ensures EditForm(Stored(id, SavePayload(Form(code, name, JStr(dv), JStr(dt), JStr(st)), codec)), codec) ==
            Some(Form(code, name, JStr(dv), JStr(dt), JStr(st)))
  {
    MetaRoundTrip(Form(code, name, JStr(dv), JStr(dt), JStr(st)), id, codec);
  }

  /** A record without meta opens with the defaults. */
  lemma NoMetaDefaults(it: ContractField, codec: Codec)
    requires it.metaJson == None
    ensures EditForm(it, codec).Some?
    ensures EditForm(it, codec).value.defaultValue == JStr("")
    ensures EditForm(it, codec).value.status == JStr(DefaultStatus)
  {
  }

  /** `(meta.status || "ACTIVE") === "ACTIVE"`: active for a falsy status
      or exactly "ACTIVE", paused otherwise. */
  function StatusLabel(status: Option<Json>): (s: string)
    ensures s == ActiveLabel <==> !Truthy(status) || status == Some(JStr(DefaultStatus))
    ensures s == ActiveLabel || s == PausedLabel
  {
    if Or(status, Some(JStr(DefaultStatus))) == Some(JStr(DefaultStatus)) then ActiveLabel else PausedLabel
  }

  /** The label of a listed row; `None` where reading the meta throws. */
  function RowStatusLabel(it: ContractField, codec: Codec): (r: Option<string>)
    ensures r.None? <==> ParseMeta(it.metaJson, codec).JNull?
    ensures r.Some? ==> r.value == StatusLabel(Get(ParseMeta(it.metaJson, codec), "status"))
  {
    var meta := ParseMeta(it.metaJson, codec);
    if meta.JNull? then None else Some(StatusLabel(Get(meta, "status")))
  }

  /** The label agrees with what `openEdit` puts in the status box. */
  lemma LabelMatchesForm(it: ContractField, codec: Codec)
    requires EditForm(it, codec).Some?
    ensures RowStatusLabel(it, codec) ==
            Some(if EditForm(it, codec).value.status == JStr(DefaultStatus) then ActiveLabel else PausedLabel)
  {
  }
}

=== FILE: contract_types.dfy ===
/** The contract-types screen: its list (first 20 rows by name and code),
    the status label, the add and edit forms and the bodies `save` sends.
    Form properties that may be `undefined` are `Option<string>`; a body is
    the JSON object `JSON.stringify` is given, where an `undefined`
    property is left out. */
module ContractTypes {
  import opened Prelude
  import opened Json
  import opened Listing
  import opened Crud
  import FileNames

  const ActiveStatus: string := "ACTIVE"
  const InactiveStatus: string := "INACTIVE"
  const ActiveLabel: string := "Hoạt động"
  const PausedLabel: string := "Tạm dừng"
  const NoStatusLabel: string := "-"

  datatype ContractType = ContractType(id: string, name: string, code: string, description: Option<string>,
                                       companyId: Option<string>, status: Option<string>)

  /** The rows shown: name and code filters, then the first 20. */
  function Shown(items: seq<ContractType>, qName: string, qCode: string): (r: seq<ContractType>)
    ensures |r| <= PageSize
    ensures forall it :: it in r ==> it in items && Matches(it.name, qName) && Matches(it.code, qCode)
    ensures var all := FilterTwo(items, (it: ContractType) => it.name, (it: ContractType) => it.code, qName, qCode);
            |r| == Min(|all|, PageSize) && r == all[..|r|]
  {
    var all := FilterTwo(items, (it: ContractType) => it.name, (it: ContractType) => it.code, qName, qCode);
    var r := FirstPage(all);
    assert forall it :: it in r ==> it in all;
    r
  }

  /** The status column: the two known statuses get labels, any other
      non-empty status is shown as it is, and a missing or empty one is "-". */
  function StatusLabel(status: Option<string>): (s: string)
    ensures s == ActiveLabel <==> status == Some(ActiveStatus) || status == Some(ActiveLabel)
    ensures status == Some(ActiveStatus) ==> s == ActiveLabel
    ensures status == Some(InactiveStatus) ==> s == PausedLabel
    ensures FileNames.Present(status) && status.value != ActiveStatus && status.value != InactiveStatus ==> s == status.value
    ensures !FileNames.Present(status) ==> s == NoStatusLabel
    ensures s != ""
  {
    match status
    case Some(st) =>
      if st == ActiveStatus then ActiveLabel
      else if st == InactiveStatus then PausedLabel
      else if st != "" then st
      else NoStatusLabel
    case None => NoStatusLabel
  }

  /** The form. */
  datatype Form = Form(name: string, code: string, description: string, companyId: Option<string>, status: Option<string>)

  /** The form's starting value. */
  const InitialForm := Form("", "", "", Some(""), Some(ActiveStatus))

  /** `openAdd`: the form is reset without a status. */
  const AddForm := Form("", "", "", Some(""), None)

  /** `openEdit`: the description and company default to "", the status to
      "ACTIVE". */
  function EditForm(it: ContractType): (f: Form)
    ensures f.name == it.name && f.code == it.code
    ensures FileNames.Present(it.description) ==> f.description == it.description.value
    ensures !FileNames.Present(it.description) ==> f.description == ""
    ensures f.companyId.Some? && (FileNames.Present(it.companyId) ==> f.companyId == it.companyId)
    ensures !FileNames.Present(it.companyId) ==> f.companyId == Some("")
    ensures f.status.Some? && (FileNames.Present(it.status) ==> f.status == it.status)
    ensures !FileNames.Present(it.status) ==> f.status == Some(ActiveStatus)
  {
    Form(it.name, it.code,
         if FileNames.Present(it.description) then it.description.value else "",
         Some(if FileNames.Present(it.companyId) then it.companyId.value else ""),
         Some(if FileNames.Present(it.status) then it.status.value else ActiveStatus))
  }

  /** The JSON object written for a form: its five properties, an
      `undefined` one left out. */
  function Body(f: Form): (b: Json)
    ensures b.JObj?
    ensures Get(b, "name") == Some(JStr(f.name)) && Get(b, "code") == Some(JStr(f.code))
    ensures Get(b, "description") == Some(JStr(f.description))
    ensures Get(b, "companyId") == StrOrUndefined(f.companyId)
    ensures Get(b, "status") == StrOrUndefined(f.status)
    ensures b.fields.Keys <= {"name", "code", "description", "companyId", "status"}
  {
    var m := map["name" := JStr(f.name), "code" := JStr(f.code), "description" := JStr(f.description)];
    JObj(Put(Put(m, "companyId", StrOrUndefined(f.companyId)), "status", StrOrUndefined(f.status)))
  }

  /** `save`: the update lists the five properties by name, the create
      sends the whole form; for this form the two bodies coincide. */
  function Save(f: Form, isEdit: bool, editId: string): (r: (Target, Json))
    ensures r.0.Update? <==> isEdit && editId != ""
    ensures r.1 == Body(f)
  {
    var update := Body(Form(f.name, f.code, f.description, f.companyId, f.status));
    (SaveTarget(isEdit, editId), if isEdit && editId != "" then update else Body(f))
  }

  /** A type added without picking a status is created with no status
      property at all. */
  lemma AddSendsNoStatus(editId: string)
    ensures Save(AddForm, false, editId).0 == Create
    ensures "status" !in Save(AddForm, false, editId).1.fields
  {
    assert Get(Body(AddForm), "status") == None;
  }

  /** Editing always sends a status, "ACTIVE" for a type that had none. */
  lemma EditSendsStatus(it: ContractType)
    requires it.id != ""
    ensures Save(EditForm(it), true, it.id).0 == Update(it.id)
    ensures Get(Save(EditForm(it), true, it.id).1, "status") ==
            Some(JStr(if FileNames.Present(it.status) then it.status.value else ActiveStatus))
  {
  }
}

=== FILE: create_contract.dfy ===
/** The create-contract screen: the template's Word and Excel files, the
    reset when another template is picked, the init request and its answer,
    and this screen's own file list and download names. */
module CreateContract {
  import opened Prelude
  import opened Text
  import opened Json
  import opened FileNames
  import PendingContracts

  const IncompleteMessage: string := "Vui lòng chọn đầy đủ thông tin"
  const BadReplyMessage: string := "Phản hồi không đúng định dạng"
  const InitFailedMessage: string := "Khởi tạo hợp đồng thất bại"

  datatype Template = Template(id: string, name: string, fileNames: Option<seq<string>>)

  /** The screen's inputs: the chosen company and template, the chosen Excel
      template file ("" for none), the name of an uploaded Excel file, and the
      contracts created by the last init. */
  datatype Form = Form(companyId: string, templateId: string, excelTemplate: string,
                       excelUpload: Option<string>, created: seq<Json>)

  datatype Toast = Success(text: string) | Failure(text: string)

  /** `templates.find(t => t.id === templateId)`: the first template with
      that id. */
  function FindTemplate(templates: seq<Template>, id: string): (r: Option<Template>)
    ensures r.Some? ==> r.value in templates && r.value.id == id
    ensures r.Some? ==> exists k :: 0 <= k < |templates| && templates[k] == r.value &&
                                    forall j :: 0 <= j < k ==> templates[j].id != id
    ensures r.None? ==> forall t :: t in templates ==> t.id != id
  {
    if templates == [] then None
    else if templates[0].id == id then Some(templates[0])
    else
      var r := FindTemplate(templates[1..], id);
      FirstAfterHead(templates, id, r);
      r
  }

  /** A first match in the tail, after a head that does not match, is the
      first match of the whole list. */
  lemma FirstAfterHead(templates: seq<Template>, id: string, r: Option<Template>)
    requires templates != [] && templates[0].id != id
    requires r.Some? ==> exists k :: 0 <= k < |templates[1..]| && templates[1..][k] == r.value &&
                                     forall j :: 0 <= j < k ==> templates[1..][j].id != id
    ensures r.Some? ==> exists k :: 0 <= k < |templates| && templates[k] == r.value &&
                                    forall j :: 0 <= j < k ==> templates[j].id != id
  {
    if r.Some? {
      var k :| 0 <= k < |templates[1..]| && templates[1..][k] == r.value &&
               forall j :: 0 <= j < k ==> templates[1..][j].id != id;
      assert templates[k + 1] == r.value;
      forall j | 0 <= j < k + 1 ensures templates[j].id != id {
        if j > 0 {
          assert templates[j] == templates[1..][j - 1];
        }
      }
    }
  }

  /** `currentTemplate?.fileNames || []`. */
  function TemplateFiles(templates: seq<Template>, id: string): seq<string> {
    match FindTemplate(templates, id)
    case Some(t) => t.fileNames.GetOr([])
    case None => []
  }

  /** The number of Word files of the chosen template, as the screen shows
      it. */
  function WordCount(templates: seq<Template>, id: string): (n: nat)
    ensures n == Listing.CountIf(TemplateFiles(templates, id), IsWord)
    ensures n <= |TemplateFiles(templates, id)|
  {
    var files := TemplateFiles(templates, id);
    Listing.FilterCount(files, IsWord);
    |WordFiles(files)|
  }

  /** Picking a template: the created list and the uploaded Excel are
      cleared, and the first Excel file of the new template (or "") is
      chosen. Picking the same template again changes nothing. */
  function SelectTemplate(f: Form, templates: seq<Template>, id: string): (r: Form)
    ensures id == f.templateId ==> r == f
    ensures id != f.templateId ==>
              && r.templateId == id && r.companyId == f.companyId
              && r.created == [] && r.excelUpload == None
              && (r.excelTemplate == "" || (IsExcel(r.excelTemplate) && r.excelTemplate in TemplateFiles(templates, id)))
              && (r.excelTemplate == "" ==> forall fn :: fn in TemplateFiles(templates, id) && IsExcel(fn) ==> fn == "")
    ensures id != f.templateId && r.excelTemplate != "" ==>
              var files := TemplateFiles(templates, id);
              exists k :: 0 <= k < |files| && files[k] == r.excelTemplate && forall j :: 0 <= j < k ==> !IsExcel(files[j])
  {
    if id == f.templateId then f
    else
      var files := TemplateFiles(templates, id);
      var excel := ExcelFiles(files);
      var first := if |excel| > 0 then excel[0] else "";
      assert |excel| > 0 ==> excel[0] in excel;
      assert excel == Listing.Filter(files, IsExcel);
      if |excel| > 0 then
        Listing.FilterFirst(files, IsExcel);
        Form(f.companyId, id, first, None, [])
      else Form(f.companyId, id, first, None, [])
  }

  /** `canInit`: both a company and a template are chosen. */
  predicate CanInit(f: Form) {
    f.companyId != "" && f.templateId != ""
  }

  /** The multipart fields of the init request. */
  function InitFields(f: Form): (r: seq<(string, string)>)
    ensures |r| >= 2 && r[0] == ("companyId", f.companyId) && r[1] == ("templateId", f.templateId)
    ensures |r| == 3 <==> f.excelUpload.Some?
    ensures f.excelUpload.Some? ==> r[2] == ("excel", f.excelUpload.value)
    ensures |r| <= 3
  {
    [("companyId", f.companyId), ("templateId", f.templateId)]
    + (match f.excelUpload case Some(x) => [("excel", x)] case None => [])
  }

  /** Pressing init: refused with a toast and no request unless both are
      chosen; otherwise the created list is emptied and the request built. */
  datatype InitStart = Refused(toast: Toast) | Sent(form: Form, fields: seq<(string, string)>)

  function StartInit(f: Form): (r: InitStart)
    ensures !CanInit(f) <==> r.Refused?
    ensures !CanInit(f) ==> r.toast == Failure(IncompleteMessage)
    ensures CanInit(f) ==> r.form == f.(created := []) && r.fields == InitFields(f)
  {
    if !CanInit(f) then Refused(Failure(IncompleteMessage)) else Sent(f.(created := []), InitFields(f))
  }

  /** How the init request ended. */
  datatype InitReply = InitAnswered(data: Json) | InitThrew(aborted: bool)

  /** The success toast: `Đã tạo <n> hợp đồng thành công`. */
  function CreatedMessage(n: nat): string {
    "Đã tạo " + Decimal(n) + " hợp đồng thành công"
  }

  /** The answer to init: an array becomes the created list; anything else
      leaves it empty; an aborted request shows nothing. */
  function FinishInit(f: Form, reply: InitReply): (r: (Form, Option<Toast>))
    ensures reply.InitAnswered? && reply.data.JArr? ==>
              r.0 == f.(created := reply.data.elems) && r.1 == Some(Success(CreatedMessage(|reply.data.elems|)))
    ensures !(reply.InitAnswered? && reply.data.JArr?) ==> r.0 == f
    ensures reply.InitAnswered? && !reply.data.JArr? ==> r.1 == Some(Failure(BadReplyMessage))
    ensures reply.InitThrew? ==> r.1 == (if reply.aborted then None else Some(Failure(InitFailedMessage)))
  {
    match reply
    case InitAnswered(JArr(es)) => (f.(created := es), Some(Success(CreatedMessage(|es|))))
    case InitAnswered(_) => (f, Some(Failure(BadReplyMessage)))
    case InitThrew(aborted) => (f, if aborted then None else Some(Failure(InitFailedMessage)))
  }

  /** An init answered with anything but an array ends with no created
      contracts, whatever was listed before. */
  lemma InitWithoutArray(f: Form, reply: InitReply)
    requires CanInit(f)
    requires !(reply.InitAnswered? && reply.data.JArr?)
    ensures FinishInit(StartInit(f).form, reply).0.created == []
    ensures reply.InitAnswered? ==> FinishInit(StartInit(f).form, reply).1 == Some(Failure(BadReplyMessage))
  {
  }

  /** The name the chosen Excel template is saved under; no download without
      both a template and an Excel file. */
  function TemplateExcelName(f: Form, header: Option<string>): (r: Option<string>)
    ensures f.templateId == "" || f.excelTemplate == "" ==> r == None
    ensures f.templateId != "" && f.excelTemplate != "" && header.Some? ==> r == header
    ensures f.templateId != "" && f.excelTemplate != "" && header.None? ==> r == Some(DisplayName(f.excelTemplate))
  {
    if f.templateId == "" || f.excelTemplate == "" then None
    else Some(if header.Some? then header.value else DisplayName(f.excelTemplate))
  }

  /** This screen's `parseFiles`: the parsed array, unfiltered, when the
      trimmed id starts with `[` and parses; otherwise the id itself, the
      empty id included. */
  function CreatedFiles(fileId: string, codec: Codec): (r: seq<Json>)
    requires BracketParsesToArray(codec)
    ensures fileId != "" && StartsWith(Trim(fileId), "[") && codec.parse(fileId).Some? ==>
              r == codec.parse(fileId).value.elems
    ensures !(fileId != "" && StartsWith(Trim(fileId), "[") && codec.parse(fileId).Some?) ==> r == [JStr(fileId)]
  {
    if fileId != "" && StartsWith(Trim(fileId), "[") then
      match codec.parse(fileId)
      case Some(v) => v.elems
      case None => [JStr(fileId)]
    else [JStr(fileId)]
  }

  /** The two screens' file lists differ: this one keeps an empty id and
      keeps entries that are not non-empty strings. */
  lemma FileListsDiffer(codec: Codec, s: string, es: seq<Json>)
    requires BracketParsesToArray(codec)
    requires s != "" && StartsWith(Trim(s), "[") && codec.parse(s) == Some(JArr(es))
    ensures CreatedFiles("", codec) == [JStr("")] && PendingContracts.PendingFiles(Some(""), codec) == []
    ensures CreatedFiles(s, codec) == es
    ensures PendingContracts.PendingFiles(Some(s), codec) == PendingContracts.NonEmptyStrings(es)
  {
  }

  /** A stored file list as this screen tests it: no trimming. */
  predicate Bundled(fileId: Option<string>) {
    Present(fileId) && StartsWith(fileId.value, "[")
  }

  /** The name a created contract's download is saved under. */
  function SaveName(header: Option<string>, requested: Option<string>, fileId: Option<string>, number: string): (r: string)
    ensures header.Some? ==> r == header.value
    ensures header.None? && Present(requested) ==> r == requested.value
    ensures header.None? && !Present(requested) && (Present(fileId) && StartsWith(fileId.value, "[")) ==> r == BundleName(number)
    ensures header.None? && !Present(requested) && !(Present(fileId) && StartsWith(fileId.value, "[")) ==>
              r == (if Present(fileId) then fileId.value else DefaultDownloadName)
  {
    DownloadName(header, requested, fileId, number, Bundled(fileId))
  }

  /** The untrimmed test: a file list stored with a leading space is saved
      under its raw id here but under the zip name on the pending list. */
  lemma LeadingSpaceBundle(s: string, number: string)
    requires |s| >= 2 && s[0] == ' ' && s[1] == '['
    ensures SaveName(None, None, Some(s), number) == s
    ensures PendingContracts.SaveName(None, None, Some(s), number) == BundleName(number)
  {
    assert !StartsWith(s, "[");
    TrimmedBracket(s);
  }

  /** Trimming one leading space uncovers the `[`. */
  lemma TrimmedBracket(s: string)
    requires |s| >= 2 && s[0] == ' ' && s[1] == '['
    ensures StartsWith(Trim(s), "[")
  {
    var t := s[1..];
    assert t[0] == '[' && !IsSpace(t[0]);
    assert TrimStart(s) == TrimStart(t) == t;
    TrimKeepsFirst(t);
    assert Trim(s) == Trim(t);
  }
}

=== FILE: crud.dfy ===
/** What the admin/CRUD forms share: the choice between updating the record
    being edited and creating a new one, and the `isActive` flag kept in a
    `<select>` as the string "1" or "0". */
module Crud {

  /** Where `save` sends the body: `PUT <base>/<id>` or `POST <base>`. */
  datatype Target = Create | Update(id: string)

  /** `if (isEdit && editId) PUT … else POST …`: an edit whose id is empty
      creates. */
  function SaveTarget(isEdit: bool, editId: string): (t: Target)
    ensures t.Update? <==> isEdit && editId != ""
    ensures t.Update? ==> t.id == editId
  {
    if isEdit && editId != "" then Update(editId) else Create
  }

  /** `isActive ? "1" : "0"`, the value `openEdit` puts in the form. */
  function ActiveText(b: bool): (s: string)
    ensures s == "1" || s == "0"
  {
    if b then "1" else "0"
  }

  /** `form.isActive === "1"`, the flag sent in the body. */
  predicate ActiveValue(s: string) {
    s == "1"
  }

  /** The two mappings are inverse on the select's two options. */
  lemma ActiveRoundTrip(b: bool, s: string)
    ensures ActiveValue(ActiveText(b)) == b
    ensures s == "1" || s == "0" ==> ActiveText(ActiveValue(s)) == s
  {
  }
}

=== FILE: dkkd_iframe.dfy ===
/** The business-registration portal login frame: the `message` handler
    that accepts only the portal's origin, and logout. The page's browser
    storage is a map from key to the value handed to `setItem` (`None` for
    `undefined`); `event.data` is a JSON value. */
module DkkdIframe {
  import opened Prelude
  import opened Json

  const PortalOrigin: string := "https://dangkyquamang.dkkd.gov.vn"
  const SessionKey: string := "dkkd-session"
  const SuccessType: string := "login-success"
  const ErrorType: string := "login-error"

  /** `isLoggedIn`, `error` (a JavaScript value: `setError` is handed
      `event.data.message` as it is), and the storage. */
  datatype State = State(loggedIn: bool, error: Option<Json>, storage: map<string, Option<Json>>)

  function Initial(storage: map<string, Option<Json>>): State {
    State(false, Some(JStr("")), storage)
  }

  /** `handleMessage`. Another origin, a `null` payload (reading its `type`
      throws) and any other message type change nothing. */
  function OnMessage(st: State, origin: string, data: Json): (r: State)
    ensures origin != PortalOrigin ==> r == st
    ensures data.JNull? ==> r == st
    ensures origin == PortalOrigin && !data.JNull? && Get(data, "type") == Some(JStr(SuccessType)) ==>
              r == State(true, st.error, st.storage[SessionKey := Get(data, "sessionId")])
    ensures origin == PortalOrigin && !data.JNull? && Get(data, "type") == Some(JStr(ErrorType)) ==>
              r == st.(error := Get(data, "message"))
    ensures origin == PortalOrigin && !data.JNull? && Get(data, "type") !in {Some(JStr(SuccessType)), Some(JStr(ErrorType))} ==>
              r == st
  {
    if origin != PortalOrigin || data.JNull? then st
    else
      var t := Get(data, "type");
      if t == Some(JStr(SuccessType)) then State(true, st.error, st.storage[SessionKey := Get(data, "sessionId")])
      else if t == Some(JStr(ErrorType)) then st.(error := Get(data, "message"))
      else st
  }

  /** `handleLogout`: the session entry goes, the flag and the error are
      cleared, every other stored entry stays. */
  function Logout(st: State): (r: State)
    ensures !r.loggedIn && r.error == Some(JStr(""))
    ensures SessionKey !in r.storage
    ensures forall k :: k != SessionKey ==> (k in r.storage <==> k in st.storage)
    ensures forall k :: k in r.storage ==> r.storage[k] == st.storage[k]
  {
    State(false, Some(JStr("")), st.storage - {SessionKey})
  }

  /** A login error never logs in or out, and never touches the storage. */
  lemma ErrorKeepsLogin(st: State, data: Json)
    requires !data.JNull? && Get(data, "type") == Some(JStr(ErrorType))
    ensures OnMessage(st, PortalOrigin, data).loggedIn == st.loggedIn
    ensures OnMessage(st, PortalOrigin, data).storage == st.storage
  {
  }

  /** A success from the portal followed by logout leaves no session and no
      login, whatever was stored before. */
  lemma SuccessThenLogout(st: State, sessionId: Json)
    ensures var data := JObj(map["type" := JStr(SuccessType), "sessionId" := sessionId]);
            && OnMessage(st, PortalOrigin, data).loggedIn
            && OnMessage(st, PortalOrigin, data).storage[SessionKey] == Some(sessionId)
            && SessionKey !in Logout(OnMessage(st, PortalOrigin, data)).storage
            && !Logout(OnMessage(st, PortalOrigin, data)).loggedIn
  {
  }

  /** Messages from any other origin are ignored one after another. */
  function Receive(st: State, msgs: seq<(string, Json)>): State
    decreases |msgs|
  {
    if msgs == [] then st else Receive(OnMessage(st, msgs[0].0, msgs[0].1), msgs[1..])
  }

  lemma {:induction false} ForeignOriginsIgnored(st: State, msgs: seq<(string, Json)>)
    requires forall k :: 0 <= k < |msgs| ==> msgs[k].0 != PortalOrigin
    ensures Receive(st, msgs) == st
    decreases |msgs|
  {
    if msgs != [] {
      ForeignOriginsIgnored(st, msgs[1..]);
    }
  }
}

=== FILE: file_names.dfy ===
/** File-name rules shared by the contract pages: the display name shown for a
    stored file (the server prefixes names with an id and `_`), and the Word /
    Excel classification by extension. */
module FileNames {
  import opened Prelude
  import opened Text
  import Listing

  /** `displayName(fn)`: everything after the first `_`, or `fn` itself when
      it has none. The result is what follows a `_`-free prefix and one `_`. */
  function DisplayName(fn: string): (r: string)
    ensures '_' !in fn ==> r == fn
    ensures '_' in fn ==>
              && |r| < |fn|
              && fn == fn[..|fn| - |r| - 1] + ['_'] + r
              && '_' !in fn[..|fn| - |r| - 1]
  {
    match IndexOf(fn, '_')
    case None => fn
    case Some(i) =>
      assert fn == fn[..i] + ['_'] + fn[i + 1..];
      fn[i + 1..]
  }

  /** A stored name `<prefix>_<name>` with an `_`-free prefix displays as `<name>`,
      whatever `<name>` contains. */
  lemma DisplayNameOfStored(prefix: string, name: string)
    requires '_' !in prefix
    ensures DisplayName(prefix + "_" + name) == name
  {
    IndexOfAfterFree(prefix, "_" + name, '_');
    assert prefix + "_" + name == prefix + ("_" + name);
    assert (prefix + "_" + name)[|prefix| + 1..] == name;
  }

  /** Names ending `.doc`/`.docx`, case-insensitively. */
  predicate IsWord(fn: string) {
    EndsWith(Lower(fn), ".doc") || EndsWith(Lower(fn), ".docx")
  }

  /** Names ending `.xls`/`.xlsx`, case-insensitively. */
  predicate IsExcel(fn: string) {
    EndsWith(Lower(fn), ".xls") || EndsWith(Lower(fn), ".xlsx")
  }

  /** No name is both a Word and an Excel file. */
  lemma WordExcelDisjoint(fn: string)
    ensures !(IsWord(fn) && IsExcel(fn))
  {
    var l := Lower(fn);
    var n := |l|;
    EndsWithCharAt(l, ".doc", 1);
    EndsWithCharAt(l, ".docx", 4);
    EndsWithCharAt(l, ".xls", 1);
    EndsWithCharAt(l, ".xlsx", 4);
  }

  /** The `k`-th character from the end of a suffix is that of the whole. */
  lemma EndsWithCharAt(s: string, suffix: string, k: nat)
    requires 1 <= k <= |suffix|
    ensures EndsWith(s, suffix) ==> s[|s| - k] == suffix[|suffix| - k]
  {
  }

  /** The Excel files of a template, in their stored order. */
  function ExcelFiles(fileNames: seq<string>): (r: seq<string>)
    ensures forall f :: f in r <==> f in fileNames && IsExcel(f)
    ensures forall f :: f in r ==> !IsWord(f)
  {
    var r := Listing.Filter(fileNames, IsExcel);
    forall f | f in r ensures !IsWord(f) { WordExcelDisjoint(f); }
    r
  }

  /** The Word files of a template, in their stored order. */
  function WordFiles(fileNames: seq<string>): (r: seq<string>)
    ensures forall f :: f in r <==> f in fileNames && IsWord(f)
    ensures forall f :: f in r ==> !IsExcel(f)
  {
    var r := Listing.Filter(fileNames, IsWord);
    forall f | f in r ensures !IsExcel(f) { WordExcelDisjoint(f); }
    r
  }

  /** A truthy optional string: present and non-empty. */
  predicate Present(s: Option<string>) {
    s.Some? && s.value != ""
  }

  const DefaultDownloadName: string := "document.docx"

  /** The name of a bundle download: `contract_<number>.zip`. */
  function BundleName(number: string): string {
    "contract_" + number + ".zip"
  }

  /** The name a contract download is saved under: the `filename` of the
      response's Content-Disposition header when it has one; else the
      requested file; else, for a stored file list (`bundle`), the zip name;
      else the stored file id; else "document.docx". `bundle` is the page's
      own test of the file id. */
  function DownloadName(header: Option<string>, requested: Option<string>, fileId: Option<string>,
                        number: string, bundle: bool): (r: string)
    ensures header.Some? ==> r == header.value
    ensures header.None? && Present(requested) ==> r == requested.value
    ensures header.None? && !Present(requested) && bundle ==> r == BundleName(number)
    ensures header.None? && !Present(requested) && !bundle && Present(fileId) ==> r == fileId.value
    ensures header.None? && !Present(requested) && !bundle && !Present(fileId) ==> r == DefaultDownloadName
    ensures header.None? ==> r != ""
  {
    if header.Some? then header.value
    else if Present(requested) then requested.value
    else if bundle then BundleName(number)
    else if Present(fileId) then fileId.value
    else DefaultDownloadName
  }
}

=== FILE: form_info.dfy ===
/** The contract form-info screen: its paged list, and the form designer
    whose selection of fields is stored as the `jsonForm` text. Field
    properties are JavaScript values read from JSON, so they are kept as
    `Option<Json>` (`None` for `undefined`). */
module FormInfo {
  import opened Prelude
  import opened Text
  import opened Json
  import opened Listing
  import FileNames

  /** A row of the list. */
  datatype FormRow = FormRow(id: string, name: string, status: Option<string>)

  /** A row passes both queries. */
  predicate RowMatches(it: FormRow, v: View) {
    Matches(it.name, v.q1) && Matches(it.status.GetOr(""), v.q2)
  }

  /** The list: name filter, then status filter (a missing status is ""). */
  function FilteredAll(items: seq<FormRow>, v: View): (r: seq<FormRow>)
    ensures forall it :: it in r <==> it in items && RowMatches(it, v)
    ensures |r| <= |items|
  {
    FilterTwo(items, (it: FormRow) => it.name, (it: FormRow) => it.status.GetOr(""), v.q1, v.q2)
  }

  /** The rows shown: at most 20 matching rows, a contiguous run of the
      filtered list from the start of the clamped page. */
  function Shown(items: seq<FormRow>, v: View): (r: seq<FormRow>)
    ensures |r| <= PageSize
    ensures forall it :: it in r ==> RowMatches(it, v)
    ensures IsPage(r, FilteredAll(items, v), v.page)
  {
    PageSlice(FilteredAll(items, v), v.page)
  }

  /** A field of the designer's selection: the properties read from the
      selected value, and whether that value is truthy (an object always
      is; a dropped `0`, `false` or `""` is not). */
  datatype Field = Field(code: Option<Json>, name: Option<Json>, dataType: Option<Json>, truthy: bool)

  const DefaultFieldType: string := "String"

  /** One stored entry of `jsonForm`. */
  function Entry(f: Field): (e: Json)
    ensures e.JObj?
    ensures Get(e, "Name") == f.code && Get(e, "Description") == f.name
    ensures Get(e, "FieldType") == Or(f.dataType, Some(JStr(DefaultFieldType)))
    ensures Get(e, "Encrypt") == Some(JBool(false)) && Get(e, "Required") == Some(JStr("false"))
    ensures Get(e, "DefaultValue") == Some(JStr(""))
  {
    var m := Put(map[], "Name", f.code);
    var m := m["Encrypt" := JBool(false)];
    var m := m["Required" := JStr("false")];
    var m := m["FieldType" := Or(f.dataType, Some(JStr(DefaultFieldType))).value];
    var m := Put(m, "Description", f.name);
    JObj(m["DefaultValue" := JStr("")])
  }

  function Entries(sel: seq<Field>): (r: seq<Json>)
    ensures |r| == |sel|
    ensures forall k :: 0 <= k < |sel| ==> r[k] == Entry(sel[k])
  {
    seq(|sel|, k requires 0 <= k < |sel| => Entry(sel[k]))
  }

  /** `save`: the `jsonForm` text of the selection, which the library reads
      back as the array of entries. */
  function JsonForm(sel: seq<Field>, codec: Codec): (r: string)
    ensures RoundTrips(codec) ==> codec.parse(r) == Some(JArr(Entries(sel)))
    ensures ArraysStringifyBracketed(codec) ==> StartsWith(r, "[")
  {
    codec.stringify(JArr(Entries(sel)))
  }

  /** The field `openEdit` reads back from one entry: a fresh object. */
  function FieldOfEntry(e: Json): Field
    requires !e.JNull?
  {
    Field(Get(e, "Name"), Get(e, "Description"), Get(e, "FieldType"), true)
  }

  predicate NoNull(es: seq<Json>) {
    forall k :: 0 <= k < |es| ==> !es[k].JNull?
  }

  /** The entries `openEdit` can read: exactly when the stored text parses
      to an array without a `null` entry, that array's entries. */
  function StoredEntries(jsonForm: Option<string>, codec: Codec): (r: Option<seq<Json>>)
    ensures r.Some? ==> NoNull(r.value) && codec.parse(FormText(jsonForm)) == Some(JArr(r.value))
    ensures var parsed := codec.parse(FormText(jsonForm));
            parsed.Some? && parsed.value.JArr? && NoNull(parsed.value.elems) ==> r == Some(parsed.value.elems)
  {
    match codec.parse(FormText(jsonForm))
    case Some(JArr(es)) => if NoNull(es) then Some(es) else None
    case _ => None
  }

  /** `openEdit`: the selection stored in `jsonForm` ("[]" when empty); a
      parse failure, a value that is not an array, or a `null` entry (each
      of which throws) gives the empty selection. */
  function SelectionOf(jsonForm: Option<string>, codec: Codec): (r: seq<Field>)
    ensures StoredEntries(jsonForm, codec).None? ==> r == []
    ensures StoredEntries(jsonForm, codec).Some? ==>
              && |r| == |StoredEntries(jsonForm, codec).value|
              && forall k :: 0 <= k < |r| ==> r[k] == FieldOfEntry(StoredEntries(jsonForm, codec).value[k])
  {
    match StoredEntries(jsonForm, codec)
    case Some(es) => seq(|es|, k requires 0 <= k < |es| => FieldOfEntry(es[k]))
    case None => []
  }

  /** `it.jsonForm || "[]"`. */
  function FormText(jsonForm: Option<string>): string {
    if FileNames.Present(jsonForm) then jsonForm.value else "[]"
  }

  /** What saving and reopening keeps of a field: code and name unchanged,
      the data type with "String" for a falsy one, held by an object. */
  function Normalised(f: Field): Field {
    Field(f.code, f.name, Or(f.dataType, Some(JStr(DefaultFieldType))), true)
  }

  /** Saving the selection and reopening it gives back every field's code,
      name and data type, in order. */
  lemma JsonFormRoundTrip(sel: seq<Field>, codec: Codec)
    requires RoundTrips(codec) && ArraysStringifyBracketed(codec)
    ensures |SelectionOf(Some(JsonForm(sel, codec)), codec)| == |sel|
    ensures forall k :: 0 <= k < |sel| ==> SelectionOf(Some(JsonForm(sel, codec)), codec)[k] == Normalised(sel[k])
  {
    var text := JsonForm(sel, codec);
    assert StartsWith(text, "[");
    assert FormText(Some(text)) == text;
    assert codec.parse(text) == Some(JArr(Entries(sel)));
    assert NoNull(Entries(sel));
  }

  /** A field whose data type is missing comes back as "String". */
  lemma MissingTypeIsString(code: Json, name: Json, codec: Codec)
    requires RoundTrips(codec) && ArraysStringifyBracketed(codec)
    ensures SelectionOf(Some(JsonForm([Field(Some(code), Some(name), None, true)], codec)), codec)
            == [Field(Some(code), Some(name), Some(JStr(DefaultFieldType)), true)]
  {
    JsonFormRoundTrip([Field(Some(code), Some(name), None, true)], codec);
  }

  /** Whether some selected field has this code (`===` on the values). */
  predicate Selected(sel: seq<Field>, code: Option<Json>) {
    exists k :: 0 <= k < |sel| && sel[k].code == code
  }

  /** `k` is the first selected field with this code. */
  predicate FirstAt(sel: seq<Field>, code: Option<Json>, k: int) {
    0 <= k < |sel| && sel[k].code == code && forall j :: 0 <= j < k ==> sel[j].code != code
  }

  /** `prev.find(p => p.code === code)` is truthy: the first selected field
      with this code is held by a truthy value. */
  ghost predicate FindHits(sel: seq<Field>, code: Option<Json>) {
    exists k :: FirstAt(sel, code, k) && sel[k].truthy
  }

  /** The position `find` stops at: the first field with this code, if any. */
  function FindIndex(sel: seq<Field>, code: Option<Json>): (r: Option<nat>)
    ensures r.None? <==> !Selected(sel, code)
    ensures r.Some? ==> FirstAt(sel, code, r.value)
  {
    if sel == [] then None
    else if sel[0].code == code then Some(0)
    else
      var r := FindIndex(sel[1..], code);
      ShiftedFind(sel, code, r);
      if r.Some? then Some(r.value + 1) else None
  }

  /** A first match in the tail, after a head that does not match, is one
      position further on in the whole list; no match in the tail is none. */
  lemma ShiftedFind(sel: seq<Field>, code: Option<Json>, r: Option<nat>)
    requires sel != [] && sel[0].code != code
    requires r.None? <==> !Selected(sel[1..], code)
    requires r.Some? ==> FirstAt(sel[1..], code, r.value)
    ensures r.None? <==> !Selected(sel, code)
    ensures r.Some? ==> FirstAt(sel, code, r.value + 1)
  {
    if r.Some? {
      assert sel[r.value + 1] == sel[1..][r.value];
      forall j | 0 <= j < r.value + 1 ensures sel[j].code != code {
        if j > 0 {
          assert sel[j] == sel[1..][j - 1];
        }
      }
    } else {
      forall k | 0 <= k < |sel| ensures sel[k].code != code {
        if k > 0 {
          assert sel[k] == sel[1..][k - 1];
        }
      }
    }
  }

  /** Adding a dropped field: unchanged if `find` hands back a truthy field
      with its code, otherwise appended at the end, even when the code is
      already held by a falsy value. */
  function AddField(sel: seq<Field>, f: Field): (r: seq<Field>)
    ensures FindHits(sel, f.code) ==> r == sel
    ensures !FindHits(sel, f.code) ==> r == sel + [f]
  {
    match FindIndex(sel, f.code)
    case Some(k) =>
      assert forall k' :: FirstAt(sel, f.code, k') ==> k' == k;
      if sel[k].truthy then sel else sel + [f]
    case None => sel + [f]
  }

  /** No two selected fields share a code. */
  predicate CodesUnique(sel: seq<Field>) {
    forall i, j :: 0 <= i < j < |sel| ==> sel[i].code != sel[j].code
  }

  /** Dropping keeps the codes distinct exactly when the code, if already
      selected, is found by `find`'s truthiness test; either way the code is
      selected afterwards. */
  lemma AddFieldKeepsUnique(sel: seq<Field>, f: Field)
    requires CodesUnique(sel)
    ensures CodesUnique(AddField(sel, f)) <==> (Selected(sel, f.code) ==> FindHits(sel, f.code))
    ensures Selected(AddField(sel, f), f.code)
  {
    var r := AddField(sel, f);
    if FindHits(sel, f.code) {
      var k :| FirstAt(sel, f.code, k) && sel[k].truthy;
    } else {
      assert r[|sel|] == f;
      if Selected(sel, f.code) {
        var k :| 0 <= k < |sel| && sel[k].code == f.code;
        assert r[k] == sel[k];
        assert r[k].code == r[|sel|].code;
      } else {
        forall i, j | 0 <= i < j < |r| ensures r[i].code != r[j].code {
          assert r[i] == sel[i];
          if j < |sel| {
            assert r[j] == sel[j];
          }
        }
      }
    }
  }

  /** While every selected value is an object, dropping never duplicates a code. */
  lemma ObjectsKeepUnique(sel: seq<Field>, f: Field)
    requires CodesUnique(sel)
    requires forall k :: 0 <= k < |sel| ==> sel[k].truthy
    ensures CodesUnique(AddField(sel, f))
  {
    var i := FindIndex(sel, f.code);
    if i.Some? {
      assert FirstAt(sel, f.code, i.value) && sel[i.value].truthy;
    }
    AddFieldKeepsUnique(sel, f);
  }

  /** The field made from the dropped value: its properties (`undefined`
      on anything but an object) and its truthiness. */
  function FieldOfObject(v: Json): Field
    requires !v.JNull?
  {
    Field(Get(v, "code"), Get(v, "name"), Get(v, "dataType"), Truthy(Some(v)))
  }

  /** `onDropSelect`: empty drop text, text that does not parse, and (as not
      modelled further) a dropped `null` change nothing; otherwise the field
      is added by code. */
  function Drop(sel: seq<Field>, txt: string, codec: Codec): (r: seq<Field>)
    ensures txt == "" ==> r == sel
    ensures codec.parse(txt).None? ==> r == sel
    ensures txt != "" && codec.parse(txt).Some? && !codec.parse(txt).value.JNull? ==>
              r == AddField(sel, FieldOfObject(codec.parse(txt).value))
  {
    if txt == "" then sel
    else match codec.parse(txt)
      case None => sel
      case Some(JNull) => sel
      case Some(v) => AddField(sel, FieldOfObject(v))
  }

  /** A falsy primitive dropped twice is selected twice: `find` matches the
      first copy, whose `code` is `undefined` like the new one's, but hands
      back the falsy value itself. */
  lemma FalsyDropRepeats(v: Json, codec: Codec)
    requires RoundTrips(codec)
    requires v == JNum(0) || v == JBool(false) || v == JStr("")
    requires codec.stringify(v) != ""
    ensures var txt := codec.stringify(v);
            Drop(Drop([], txt, codec), txt, codec) == [Field(None, None, None, false), Field(None, None, None, false)]
  {
    var txt := codec.stringify(v);
    assert codec.parse(txt) == Some(v);
    var once := Drop([], txt, codec);
    assert once == [Field(None, None, None, false)];
    assert FirstAt(once, None, 0);
    assert !FindHits(once, None);
  }

  /** `removeSelected(code)`: every field with that code goes, the others stay in order. */
  function RemoveSelected(sel: seq<Field>, code: Option<Json>): (r: seq<Field>)
    ensures !Selected(r, code)
    ensures forall f :: f in r <==> f in sel && f.code != code
    ensures !Selected(sel, code) ==> r == sel
  {
    var r := Filter(sel, (f: Field) => f.code != code);
    assert forall k :: 0 <= k < |r| ==> r[k] in r;
    r
  }

  /** Removing a code after adding a field with a new code gives the
      selection back. */
  lemma AddThenRemove(sel: seq<Field>, f: Field)
    requires !Selected(sel, f.code)
    ensures RemoveSelected(AddField(sel, f), f.code) == sel
  {
    assert AddField(sel, f) == sel + [f] by {
      assert !FindHits(sel, f.code);
    }
    var p := (x: Field) => x.code != f.code;
    FilterAppend(sel, [f], p);
    assert Filter([f], p) == [];
    assert forall k :: 0 <= k < |sel| ==> p(sel[k]);
  }

  /** A field of the catalogue as loaded for the designer. */
  datatype CatalogueField = CatalogueField(id: string, code: string, name: string, status: Option<string>, dataType: Option<string>)

  /** `(status || "").toUpperCase() === "ACTIVE"`. */
  predicate IsActive(c: CatalogueField) {
    Upper(c.status.GetOr("")) == "ACTIVE"
  }

  /** The designer lists the active fields, in catalogue order. */
  function ActiveFields(all: seq<CatalogueField>): (r: seq<CatalogueField>)
    ensures forall c :: c in r <==> c in all && IsActive(c)
  {
    Filter(all, IsActive)
  }

  /** The designer's search: name or code contains the query, ignoring case. */
  function SearchFields(avail: seq<CatalogueField>, q: string): (r: seq<CatalogueField>)
    ensures forall c :: c in r <==> c in avail && (Matches(c.name, q) || Matches(c.code, q))
    ensures q == "" ==> r == avail
  {
    Filter(avail, (c: CatalogueField) => Matches(c.name, q) || Matches(c.code, q))
  }

  /** The drag data of a catalogue field: the field as JSON, with a missing
      data type left out. */
  function DragObject(c: CatalogueField): Json {
    JObj(Put(map["id" := JStr(c.id), "code" := JStr(c.code), "name" := JStr(c.name)], "dataType", StrOrUndefined(c.dataType)))
  }

  /** Dragging a catalogue field into the selection adds exactly its code,
      name and data type, unless its code is already there. */
  lemma DragDrop(sel: seq<Field>, c: CatalogueField, codec: Codec)
    requires RoundTrips(codec)
    requires codec.stringify(DragObject(c)) != ""
    ensures Drop(sel, codec.stringify(DragObject(c)), codec) ==
            AddField(sel, Field(Some(JStr(c.code)), Some(JStr(c.name)), StrOrUndefined(c.dataType), true))
  {
    assert codec.parse(codec.stringify(DragObject(c))) == Some(DragObject(c));
  }
}

=== FILE: json.dfy ===
/** An abstract JSON value, JavaScript truthiness over it, and the library
    functions `JSON.parse`/`JSON.stringify` as a pair handed in by the caller.
    Property access yields `None` for `undefined`. */
module Json {
  import opened Prelude
  import opened Text

  datatype Json =
    | JNull
    | JBool(b: bool)
    | JNum(n: int)
    | JStr(s: string)
    | JArr(elems: seq<Json>)
    | JObj(fields: map<string, Json>)

  /** `JSON.parse` (None when it throws) and `JSON.stringify`. */
  datatype Codec = Codec(parse: string -> Option<Json>, stringify: Json -> string)

  /** What the library promises: stringified values parse back unchanged. */
  ghost predicate RoundTrips(codec: Codec) {
    forall j :: codec.parse(codec.stringify(j)) == Some(j)
  }

  /** Two facts of the JSON grammar the pages rely on: text whose trimmed
      form starts with `[` parses, if at all, to an array, and an array is
      written starting with `[`. */
  ghost predicate BracketParsesToArray(codec: Codec) {
    forall s :: codec.parse(s).Some? && StartsWith(Trim(s), "[") ==> codec.parse(s).value.JArr?
  }

  ghost predicate ArraysStringifyBracketed(codec: Codec) {
    forall es :: StartsWith(codec.stringify(JArr(es)), "[")
  }

  /** JavaScript truthiness of a possibly-undefined value. */
  predicate Truthy(v: Option<Json>) {
    match v
    case None => false
    case Some(JNull) => false
    case Some(JBool(b)) => b
    case Some(JNum(n)) => n != 0
    case Some(JStr(s)) => s != ""
    case Some(_) => true
  }

  /** `a || b`: one of the operands, truthy iff either operand is. */
  function Or(a: Option<Json>, b: Option<Json>): (r: Option<Json>)
    ensures Truthy(a) ==> r == a
    ensures !Truthy(a) ==> r == b
    ensures Truthy(r) <==> Truthy(a) || Truthy(b)
  {
    if Truthy(a) then a else b
  }

  /** `v[key]` on a value that is not null, for the property names the
      pages read: only objects hold them; on strings, numbers, booleans and
      arrays they are `undefined`. Keys such as `length`, an index or an
      inherited name would behave otherwise and are never read. */
  function Get(v: Json, key: string): (r: Option<Json>)
    requires !v.JNull?
    ensures r.Some? <==> v.JObj? && key in v.fields
  {
    if v.JObj? && key in v.fields then Some(v.fields[key]) else None
  }

  /** A value seen as a string property: present only when it is a string. */
  function AsString(v: Option<Json>): Option<string> {
    match v
    case Some(JStr(s)) => Some(s)
    case _ => None
  }

  function StrOrUndefined(s: Option<string>): Option<Json> {
    match s
    case Some(x) => Some(JStr(x))
    case None => None
  }

  /** Adds a property to an object literal as `JSON.stringify` writes it:
      a property whose value is `undefined` is left out. */
  function Put(m: map<string, Json>, key: string, v: Option<Json>): (r: map<string, Json>)
    ensures v.Some? ==> r == m[key := v.value]
    ensures v.None? ==> r == m
  {
    match v
    case Some(x) => m[key := x]
    case None => m
  }

  /** Reading an object built by `Put` gives back the value written; an
      `undefined` value leaves the key as it was, so on a key not yet
      present it reads back as `undefined`. Every other property reads as
      before. */
  lemma PutReadBack(m: map<string, Json>, key: string, v: Option<Json>, other: string)
    ensures v.Some? || key !in m ==> Get(JObj(Put(m, key, v)), key) == v
    ensures v.None? ==> Get(JObj(Put(m, key, v)), key) == Get(JObj(m), key)
    ensures other != key ==> Get(JObj(Put(m, key, v)), other) == Get(JObj(m), other)
  {
  }
}

=== FILE: listing.dfy ===
/** The list-screen logic every admin/CRUD page repeats: case-insensitive
    substring filters, 20-row pages with a clamped page number, the
    previous/next buttons, the page reset when a query changes, and the
    plain "first 20 rows" cut used by the pages without paging. */
module Listing {
  import opened Text

  const PageSize: nat := 20

  /** A page number as the pages keep it: never below 1. */
  type Page = p: int | p >= 1 witness 1

  /** `xs.filter(p)`: the elements satisfying `p`, each as often as in `xs`. */
  function Filter<T(!new)>(xs: seq<T>, p: T -> bool): (r: seq<T>)
    ensures |r| <= |xs|
    ensures forall x :: x in r <==> x in xs && p(x)
    ensures forall x :: multiset(r)[x] == if p(x) then multiset(xs)[x] else 0
    ensures (forall i :: 0 <= i < |xs| ==> p(xs[i])) ==> r == xs
  {
    if xs == [] then []
    else
      var head := if p(xs[0]) then [xs[0]] else [];
      var rest := Filter(xs[1..], p);
      assert xs == [xs[0]] + xs[1..];
      assert multiset(xs) == multiset([xs[0]]) + multiset(xs[1..]);
      assert multiset(head + rest) == multiset(head) + multiset(rest);
      head + rest
  }

  /** Filtering respects order: it distributes over concatenation. */
  lemma {:induction false} FilterAppend<T(!new)>(a: seq<T>, b: seq<T>, p: T -> bool)
    ensures Filter(a + b, p) == Filter(a, p) + Filter(b, p)
    decreases |a|
  {
    if a == [] {
      assert a + b == b;
    } else {
      var head := if p(a[0]) then [a[0]] else [];
      var ab := a + b;
      assert ab != [] && ab[0] == a[0] && ab[1..] == a[1..] + b;
      calc {
        Filter(ab, p);
        head + Filter(ab[1..], p);
        head + Filter(a[1..] + b, p);
        { FilterAppend(a[1..], b, p); }
        head + (Filter(a[1..], p) + Filter(b, p));
        (head + Filter(a[1..], p)) + Filter(b, p);
        Filter(a, p) + Filter(b, p);
      }
    }
  }

  /** Two filters in a row are one filter by the conjunction. */
  lemma {:induction false} FilterFilter<T(!new)>(xs: seq<T>, p: T -> bool, q: T -> bool)
    ensures Filter(Filter(xs, p), q) == Filter(xs, x => p(x) && q(x))
    decreases |xs|
  {
    if xs != [] {
      var head := if p(xs[0]) then [xs[0]] else [];
      FilterAppend(head, Filter(xs[1..], p), q);
      FilterFilter(xs[1..], p, q);
    }
  }

  /** Two filters in a row are one filter by any predicate equal to the
      conjunction. */
  lemma FilterFilterAs<T(!new)>(xs: seq<T>, p: T -> bool, q: T -> bool, r: T -> bool)
    requires forall x :: r(x) == (p(x) && q(x))
    ensures Filter(Filter(xs, p), q) == Filter(xs, r)
  {
    FilterFilter(xs, p, q);
    FilterExt(xs, x => p(x) && q(x), r);
  }

  /** Filtering out a single failing element leaves the list without it. */
  lemma {:induction false} FilterDropsOne<T(!new)>(xs: seq<T>, i: int, p: T -> bool)
    requires 0 <= i < |xs| && !p(xs[i])
    requires forall k :: 0 <= k < |xs| && k != i ==> p(xs[k])
    ensures Filter(xs, p) == xs[..i] + xs[i + 1..]
    decreases i
  {
    TailPasses(xs, i, p);
    if i == 0 {
      DropsHead(xs, p);
    } else {
      FilterDropsOne(xs[1..], i - 1, p);
      DropsOneStep(xs, i, p);
    }
  }

  /** The base case: only the head fails, so the filter is the tail. */
  lemma DropsHead<T(!new)>(xs: seq<T>, p: T -> bool)
    requires xs != [] && !p(xs[0])
    requires forall k :: 0 <= k < |xs[1..]| && k != -1 ==> p(xs[1..][k])
    ensures Filter(xs, p) == xs[..0] + xs[1..]
  {
    assert Filter(xs[1..], p) == xs[1..];
    assert xs[..0] + xs[1..] == xs[1..];
  }

  /** The elements of the tail pass, except the one that moved to `i - 1`. */
  lemma TailPasses<T>(xs: seq<T>, i: int, p: T -> bool)
    requires 0 <= i < |xs|
    requires forall k :: 0 <= k < |xs| && k != i ==> p(xs[k])
    ensures forall k :: 0 <= k < |xs[1..]| && k != i - 1 ==> p(xs[1..][k])
  {
    forall k | 0 <= k < |xs[1..]| && k != i - 1 ensures p(xs[1..][k]) {
      assert xs[1..][k] == xs[k + 1];
    }
  }

  /** The inductive step: a kept head in front of the filtered tail. */
  lemma DropsOneStep<T(!new)>(xs: seq<T>, i: int, p: T -> bool)
    requires 0 < i < |xs| && p(xs[0])
    requires Filter(xs[1..], p) == xs[1..][..i - 1] + xs[1..][i..]
    ensures Filter(xs, p) == xs[..i] + xs[i + 1..]
  {
    assert Filter(xs, p) == [xs[0]] + Filter(xs[1..], p);
    ShiftSlices(xs, i);
  }

  /** Slicing a tail is slicing the list one further on. */
  lemma ShiftSlices<T>(xs: seq<T>, i: int)
    requires 0 < i < |xs|
    ensures [xs[0]] + (xs[1..][..i - 1] + xs[1..][i..]) == xs[..i] + xs[i + 1..]
  {
    assert xs[1..][..i - 1] == xs[1..i];
    assert xs[1..][i..] == xs[i + 1..];
    assert [xs[0]] + xs[1..i] == xs[..i];
  }

  /** The number of elements satisfying `p`. */
  function CountIf<T>(xs: seq<T>, p: T -> bool): (n: nat)
    ensures n <= |xs|
  {
    if xs == [] then 0 else (if p(xs[0]) then 1 else 0) + CountIf(xs[1..], p)
  }

  lemma {:induction false} CountIfAppend<T>(a: seq<T>, b: seq<T>, p: T -> bool)
    ensures CountIf(a + b, p) == CountIf(a, p) + CountIf(b, p)
    decreases |a|
  {
    if a != [] {
      assert (a + b)[0] == a[0];
      assert (a + b)[1..] == a[1..] + b;
      CountIfAppend(a[1..], b, p);
    } else {
      assert a + b == b;
    }
  }

  /** A filter keeps as many elements as satisfy `p`. */
  lemma {:induction false} FilterCount<T(!new)>(xs: seq<T>, p: T -> bool)
    ensures |Filter(xs, p)| == CountIf(xs, p)
    decreases |xs|
  {
    if xs != [] {
      FilterCount(xs[1..], p);
    }
  }

  /** A filter keeps nothing iff no element satisfies `p`. */
  lemma FilterEmpty<T(!new)>(xs: seq<T>, p: T -> bool)
    ensures Filter(xs, p) == [] <==> forall i :: 0 <= i < |xs| ==> !p(xs[i])
  {
  }

  /** The first element a filter keeps is the first element of `xs` that
      satisfies `p`. */
  lemma {:induction false} FilterFirst<T(!new)>(xs: seq<T>, p: T -> bool)
    requires Filter(xs, p) != []
    ensures exists k :: 0 <= k < |xs| && xs[k] == Filter(xs, p)[0] && p(xs[k]) && forall j :: 0 <= j < k ==> !p(xs[j])
    decreases |xs|
  {
    var tail := xs[1..];
    var rest := Filter(tail, p);
    if p(xs[0]) {
      FirstIsHead(xs, p);
    } else {
      FilterFirst(tail, p);
      var k :| 0 <= k < |tail| && tail[k] == rest[0] && p(tail[k]) && forall j :: 0 <= j < k ==> !p(tail[j]);
      NoneBeforeShifted(xs, p, k);
      FirstFromTail(xs, p, k);
    }
  }

  /** The base case: a passing head is the first element kept. */
  lemma FirstIsHead<T(!new)>(xs: seq<T>, p: T -> bool)
    requires xs != [] && p(xs[0])
    ensures exists k :: 0 <= k < |xs| && xs[k] == Filter(xs, p)[0] && p(xs[k]) && forall j :: 0 <= j < k ==> !p(xs[j])
  {
    assert Filter(xs, p) == [xs[0]] + Filter(xs[1..], p);
  }

  /** The inductive step: with a failing head, the first kept element of the
      tail, at `k` there, is the first kept element of `xs`, at `k + 1`. */
  lemma FirstFromTail<T(!new)>(xs: seq<T>, p: T -> bool, k: int)
    requires 0 <= k < |xs| - 1 && !p(xs[0])
    requires Filter(xs[1..], p) != [] && xs[1..][k] == Filter(xs[1..], p)[0] && p(xs[1..][k])
    requires forall j :: 0 <= j < k + 1 ==> !p(xs[j])
    ensures exists k :: 0 <= k < |xs| && xs[k] == Filter(xs, p)[0] && p(xs[k]) && forall j :: 0 <= j < k ==> !p(xs[j])
  {
    assert Filter(xs, p) == Filter(xs[1..], p);
    assert xs[k + 1] == xs[1..][k];
  }

  /** A failing head in front of `k` failing tail elements: the first
      `k + 1` elements all fail. */
  lemma NoneBeforeShifted<T>(xs: seq<T>, p: T -> bool, k: int)
    requires 0 <= k < |xs| - 1 && !p(xs[0])
    requires forall j :: 0 <= j < k ==> !p(xs[1..][j])
    ensures forall j :: 0 <= j < k + 1 ==> !p(xs[j])
  {
    forall j | 0 <= j < k + 1 ensures !p(xs[j]) {
      if j > 0 {
        assert xs[j] == xs[1..][j - 1];
      }
    }
  }

  /** `q ? field.toLowerCase().includes(q.toLowerCase()) : true`. */
  predicate Matches(field: string, q: string): (b: bool)
    ensures q == "" ==> b
    ensures b && q != "" ==> |q| <= |field|
  {
    q == "" || Contains(Lower(field), Lower(q))
  }

  /** The test ignores case on both sides: lower-casing the field or the
      query first changes nothing. */
  lemma MatchesIgnoresCase(field: string, q: string)
    ensures Matches(Lower(field), q) == Matches(field, q)
    ensures Matches(field, Lower(q)) == Matches(field, q)
  {
    LowerTwice(field);
    LowerTwice(q);
  }

  /** Filters by pointwise-equal predicates agree. */
  lemma {:induction false} FilterExt<T(!new)>(xs: seq<T>, p: T -> bool, q: T -> bool)
    requires forall x :: p(x) == q(x)
    ensures Filter(xs, p) == Filter(xs, q)
    decreases |xs|
  {
    if xs != [] {
      FilterExt(xs[1..], p, q);
    }
  }

  /** The two query boxes of a list screen: the rows whose first key matches
      the first query and whose second key matches the second, in order. */
  function FilterTwo<T(!new)>(xs: seq<T>, key1: T -> string, key2: T -> string, q1: string, q2: string): (r: seq<T>)
    ensures |r| <= |xs|
    ensures forall x :: x in r <==> x in xs && Matches(key1(x), q1) && Matches(key2(x), q2)
    ensures q1 == "" && q2 == "" ==> r == xs
  {
    Filter(Filter(xs, x => Matches(key1(x), q1)), x => Matches(key2(x), q2))
  }

  /** The two filters in a row are one filter by both queries, so the kept
      rows keep their order and multiplicity. */
  lemma FilterTwoIsOneFilter<T(!new)>(xs: seq<T>, key1: T -> string, key2: T -> string, q1: string, q2: string)
    ensures FilterTwo(xs, key1, key2, q1, q2) == Filter(xs, x => Matches(key1(x), q1) && Matches(key2(x), q2))
  {
    var p := x => Matches(key1(x), q1);
    var q := x => Matches(key2(x), q2);
    FilterFilter(xs, p, q);
    FilterExt(xs, x => p(x) && q(x), x => Matches(key1(x), q1) && Matches(key2(x), q2));
  }

  /** `Math.max(1, Math.ceil(n / PageSize))`: the fewest pages that hold
      `n` rows, and at least one. */
  function TotalPages(n: nat): (r: nat)
    ensures r >= 1
    ensures n <= r * PageSize
    ensures r == 1 || (r - 1) * PageSize < n
  {
    if n == 0 then 1 else (n + PageSize - 1) / PageSize
  }

  /** `Math.min(page, totalPages)` for a list of `n` rows. */
  function ClampPage(page: Page, n: nat): (r: Page)
    ensures r <= TotalPages(n) && r <= page
    ensures r == page || r == TotalPages(n)
  {
    if page < TotalPages(n) then page else TotalPages(n)
  }

  /** `(pageClamped - 1) * pageSize`: never past the end of the rows. */
  function PageStart(page: Page, n: nat): (start: nat)
    ensures start <= n
    ensures n > 0 ==> start < n
  {
    var c := ClampPage(page, n);
    assert (c - 1) * PageSize <= (TotalPages(n) - 1) * PageSize;
    (c - 1) * PageSize
  }

  function Min(a: int, b: int): int {
    if a <= b then a else b
  }

  /** `r` is page `page` of `xs`: the next `PageSize` rows of `xs` from the
      start of the clamped page, or all the rows left when fewer remain. */
  ghost predicate IsPage<T>(r: seq<T>, xs: seq<T>, page: Page) {
    && |r| == Min(PageSize, |xs| - PageStart(page, |xs|))
    && forall k :: 0 <= k < |r| ==> r[k] == xs[PageStart(page, |xs|) + k]
  }

  /** `filteredAll.slice(start, start + pageSize)`: the shown rows. At most
      20, contiguous in the filtered list, and never empty while any row
      matches. */
  function PageSlice<T>(xs: seq<T>, page: Page): (r: seq<T>)
    ensures IsPage(r, xs, page)
    ensures |r| <= PageSize && PageStart(page, |xs|) + |r| <= |xs|
    ensures xs != [] ==> r != []
    ensures forall x :: x in r ==> x in xs
  {
    var start := PageStart(page, |xs|);
    xs[start..Min(start + PageSize, |xs|)]
  }

  /** Pages `p`, `p + 1`, ..., up to the last one, concatenated. */
  function PagesFrom<T>(xs: seq<T>, p: Page): seq<T>
    decreases TotalPages(|xs|) + 1 - p
  {
    if p > TotalPages(|xs|) then [] else PageSlice(xs, p) + PagesFrom(xs, p + 1)
  }

  /** An unclamped page starts `(p - 1) * PageSize` rows in; the last page
      reaches the end of the rows and every earlier page is full. */
  lemma PageBounds(n: nat, p: Page)
    requires p <= TotalPages(n)
    ensures PageStart(p, n) == (p - 1) * PageSize
    ensures p == TotalPages(n) ==> n <= (p - 1) * PageSize + PageSize
    ensures p < TotalPages(n) ==> (p - 1) * PageSize + PageSize < n
  {
    assert ClampPage(p, n) == p;
    if p < TotalPages(n) {
      assert p * PageSize <= (TotalPages(n) - 1) * PageSize;
    }
  }

  /** Walking the pages from `p` on shows exactly the rows from the start of page `p`. */
  lemma {:induction false} PagesFromIsSuffix<T>(xs: seq<T>, p: Page)
    requires p <= TotalPages(|xs|)
    ensures PagesFrom(xs, p) == xs[(p - 1) * PageSize..]
    decreases TotalPages(|xs|) + 1 - p
  {
    var n := |xs|;
    var start := (p - 1) * PageSize;
    PageBounds(n, p);
    if p == TotalPages(n) {
      assert PageSlice(xs, p) == xs[start..];
      assert PagesFrom(xs, p) == PageSlice(xs, p) + [];
    } else {
      assert PageSlice(xs, p) == xs[start..start + PageSize];
      PagesFromIsSuffix(xs, p + 1);
      assert PagesFrom(xs, p) == xs[start..start + PageSize] + xs[start + PageSize..];
      assert xs[start..] == xs[start..start + PageSize] + xs[start + PageSize..];
    }
  }

  /** Every filtered row is on exactly one page, in order: all the pages
      concatenated are the filtered list. */
  lemma PagesCover<T>(xs: seq<T>)
    ensures PagesFrom(xs, 1) == xs
  {
    PagesFromIsSuffix(xs, 1);
  }

  /** `.slice(0, pageSize)`: the pages without paging show the first 20 rows. */
  function FirstPage<T>(xs: seq<T>): (r: seq<T>)
    ensures |r| == Min(|xs|, PageSize)
    ensures r == xs[..|r|]
  {
    xs[..Min(|xs|, PageSize)]
  }

  /** The list controls of a paged screen: two query boxes and the page. */
  datatype View = View(q1: string, q2: string, page: Page)

  const InitialView := View("", "", 1)

  /** Typing into the first query box. The page goes back to 1 whenever the
      query actually changes (the reset effect depends on the query's value). */
  function SetQuery1(v: View, q: string): (r: View)
    ensures r.q1 == q && r.q2 == v.q2
    ensures q != v.q1 ==> r.page == 1
    ensures q == v.q1 ==> r == v
  {
    if q == v.q1 then v else View(q, v.q2, 1)
  }

  function SetQuery2(v: View, q: string): (r: View)
    ensures r.q2 == q && r.q1 == v.q1
    ensures q != v.q2 ==> r.page == 1
    ensures q == v.q2 ==> r == v
  {
    if q == v.q2 then v else View(v.q1, q, 1)
  }

  /** The page selector (its options are 1 .. totalPages). */
  function SelectPage(v: View, p: Page): (r: View)
    ensures r.page == p && r.q1 == v.q1 && r.q2 == v.q2
  {
    v.(page := p)
  }

  /** "« Trước": `Math.max(1, p - 1)`. */
  function PrevPage(v: View): (r: View)
    ensures r.q1 == v.q1 && r.q2 == v.q2
    ensures v.page > 1 ==> r.page == v.page - 1
    ensures v.page == 1 ==> r.page == 1
  {
    v.(page := if v.page > 1 then v.page - 1 else 1)
  }

  /** "Sau »": `Math.min(totalPages, p + 1)` for a list of `n` rows. */
  function NextPage(v: View, n: nat): (r: View)
    ensures r.q1 == v.q1 && r.q2 == v.q2
    ensures r.page <= TotalPages(n)
    ensures v.page < TotalPages(n) ==> r.page == v.page + 1
  {
    v.(page := Min(TotalPages(n), v.page + 1))
  }

  /** The buttons keep an in-range page in range. */
  lemma PrevNextStayInRange(v: View, n: nat)
    requires v.page <= TotalPages(n)
    ensures PrevPage(v).page <= TotalPages(n)
    ensures 1 <= NextPage(v, n).page <= TotalPages(n)
    ensures NextPage(v, n).page >= v.page
  {
  }
}

=== FILE: pending_contracts.dfy ===
/** The pending-contracts list: its server query, the sort toggle, the
    draft-only delete guard, the stored file list of a contract and the name
    a download is saved under. */
module PendingContracts {
  import opened Prelude
  import opened Text
  import opened Json
  import opened FileNames
  import Listing

  const Limit: nat := 10

  datatype Order = Asc | Desc

  function OrderText(o: Order): string {
    match o
    case Asc => "asc"
    case Desc => "desc"
  }

  /** The list's controls: page, the search box's current text, sort field
      and order. The request reads the box as it is typed, so each keystroke
      refetches at the current page; submitting only resets the page. */
  datatype Controls = Controls(page: Listing.Page, search: string, sortBy: string, order: Order)

  const InitialControls := Controls(1, "", "created_at", Desc)

  /** The query string of the list request, as key/value pairs in order:
      page, limit 10, the search and sort field only when non-empty, and the
      order. */
  function QueryParams(c: Controls): (r: seq<(string, string)>)
    ensures |r| >= 3
    ensures r[0] == ("page", Decimal(c.page)) && r[1] == ("limit", "10")
    ensures r[|r| - 1] == ("sortOrder", OrderText(c.order))
    ensures ("search", c.search) in r <==> c.search != ""
    ensures ("sortBy", c.sortBy) in r <==> c.sortBy != ""
    ensures |r| == 3 + (if c.search != "" then 1 else 0) + (if c.sortBy != "" then 1 else 0)
  {
    assert Decimal(Limit) == Decimal(1) + [DigitChar(0)] == "10";
    [("page", Decimal(c.page)), ("limit", Decimal(Limit))]
    + (if c.search != "" then [("search", c.search)] else [])
    + (if c.sortBy != "" then [("sortBy", c.sortBy)] else [])
    + [("sortOrder", OrderText(c.order))]
  }

  /** The first value under `key`. */
  function Lookup(params: seq<(string, string)>, key: string): Option<string> {
    if params == [] then None
    else if params[0].0 == key then Some(params[0].1)
    else Lookup(params[1..], key)
  }

  /** The server reads back the page asked for. */
  lemma PageParamRoundTrip(c: Controls)
    ensures Lookup(QueryParams(c), "page").Some?
    ensures IsDigits(Lookup(QueryParams(c), "page").value)
    ensures ParseDecimal(Lookup(QueryParams(c), "page").value) == c.page
  {
    DecimalRoundTrip(c.page);
  }

  /** `handleSearch`: submitting goes back to page 1 and keeps the text. */
  function SubmitSearch(c: Controls): (r: Controls)
    ensures r == c.(page := 1)
  {
    c.(page := 1)
  }

  function Flip(o: Order): (r: Order)
    ensures r != o
  {
    if o == Asc then Desc else Asc
  }

  /** `handleSort(field)`: the current field flips the order; another field
      is selected, descending. */
  function Sort(c: Controls, field: string): (r: Controls)
    ensures r.page == c.page && r.search == c.search && r.sortBy == field
    ensures field == c.sortBy ==> r.order != c.order
    ensures field != c.sortBy ==> r.order == Desc
  {
    if c.sortBy == field then c.(order := Flip(c.order)) else c.(sortBy := field, order := Desc)
  }

  /** Sorting by the same field twice restores the order. */
  lemma SortTwice(c: Controls, field: string)
    ensures Sort(Sort(c, field), field).order == (if field == c.sortBy then c.order else Asc)
    ensures field == c.sortBy ==> Sort(Sort(c, field), field) == c
  {
  }

  /** `(status || '').toLowerCase() === 'draft'`: exactly the statuses that
      spell "draft" in any mix of cases. */
  predicate Deletable(status: Option<string>): (b: bool)
    ensures b <==> status.Some? && |status.value| == 5 &&
                   forall i :: 0 <= i < 5 ==> LowerChar(status.value[i]) == "draft"[i]
  {
    var low := Lower(status.GetOr(""));
    assert |low| == 5 && (forall i :: 0 <= i < 5 ==> low[i] == "draft"[i]) ==> low == "draft";
    low == "draft"
  }

  /** `handleDelete`: asks for confirmation only for a draft. */
  function RequestDelete<C>(target: Option<C>, contract: C, status: Option<string>): (r: Option<C>)
    ensures Deletable(status) ==> r == Some(contract)
    ensures !Deletable(status) ==> r == target
  {
    if Deletable(status) then Some(contract) else target
  }

  /** The guard ignores case and nothing else. */
  lemma DeletableExamples()
    ensures Deletable(Some("Draft")) && Deletable(Some("DRAFT"))
    ensures !Deletable(Some("pending")) && !Deletable(None) && !Deletable(Some(" draft"))
  {
    assert Lower("Draft") == "draft";
    assert Lower("DRAFT") == "draft";
    assert |Lower(" draft")| == 6;
  }

  /** The string entries that are non-empty, in order. */
  function NonEmptyStrings(es: seq<Json>): (r: seq<string>)
    ensures "" !in r
    ensures forall s :: s in r <==> s != "" && JStr(s) in es
    ensures |r| <= |es|
  {
    if es == [] then []
    else
      var head := if es[0].JStr? && es[0].s != "" then [es[0].s] else [];
      var tail := NonEmptyStrings(es[1..]);
      assert es == [es[0]] + es[1..];
      head + tail
  }

  /** Text read as a file list: trimmed, it starts with `[`, and it parses to an array. */
  predicate ListText(f: string, codec: Codec) {
    StartsWith(Trim(f), "[") && codec.parse(f).Some? && codec.parse(f).value.JArr?
  }

  /** `parseFiles(file_id)`: nothing for a missing or empty id; the
      non-empty string entries when the trimmed id starts with `[` and parses
      to an array; otherwise the id itself. Never an empty name. */
  function PendingFiles(fileId: Option<string>, codec: Codec): (r: seq<string>)
    ensures "" !in r
    ensures !Present(fileId) ==> r == []
    ensures Present(fileId) && ListText(fileId.value, codec) ==>
              r == NonEmptyStrings(codec.parse(fileId.value).value.elems)
    ensures Present(fileId) && !ListText(fileId.value, codec) ==> r == [fileId.value]
  {
    if !Present(fileId) then []
    else
      var f := fileId.value;
      if StartsWith(Trim(f), "[") then
        match codec.parse(f)
        case Some(JArr(es)) => NonEmptyStrings(es)
        case _ => [f]
      else [f]
  }

  function Strings(names: seq<string>): (r: seq<Json>)
    ensures |r| == |names|
    ensures forall k :: 0 <= k < |names| ==> r[k] == JStr(names[k])
  {
    seq(|names|, k requires 0 <= k < |names| => JStr(names[k]))
  }

  lemma {:induction false} NonEmptyStringsOfStrings(names: seq<string>)
    requires "" !in names
    ensures NonEmptyStrings(Strings(names)) == names
    decreases |names|
  {
    if names != [] {
      var js := Strings(names);
      assert names[0] in names;
      assert js[0] == JStr(names[0]) && names[0] != "";
      assert js[1..] == Strings(names[1..]);
      assert "" !in names[1..] by {
        forall k | 0 <= k < |names[1..]| ensures names[1..][k] != "" {
          assert names[1..][k] == names[k + 1] && names[k + 1] in names;
        }
      }
      NonEmptyStringsOfStrings(names[1..]);
      assert NonEmptyStrings(js) == [names[0]] + NonEmptyStrings(js[1..]);
      assert names == [names[0]] + names[1..];
    }
  }

  /** A file list written as a JSON array of non-empty names reads back as
      those names, in order. */
  lemma PendingFilesRoundTrip(names: seq<string>, codec: Codec)
    requires RoundTrips(codec) && ArraysStringifyBracketed(codec)
    requires "" !in names
    ensures PendingFiles(Some(codec.stringify(JArr(Strings(names)))), codec) == names
  {
    var text := codec.stringify(JArr(Strings(names)));
    assert StartsWith(text, "[");
    TrimKeepsFirst(text);
    assert text[0] == '[';
    assert StartsWith(Trim(text), "[");
    assert codec.parse(text) == Some(JArr(Strings(names)));
    NonEmptyStringsOfStrings(names);
  }

  /** A stored file list: the trimmed id starts with `[` and the id is present. */
  predicate Bundled(fileId: Option<string>) {
    Present(fileId) && StartsWith(Trim(fileId.value), "[")
  }

  /** The name a download from this list is saved under. */
  function SaveName(header: Option<string>, requested: Option<string>, fileId: Option<string>, number: string): (r: string)
    ensures header.Some? ==> r == header.value
    ensures header.None? && Present(requested) ==> r == requested.value
    ensures header.None? && !Present(requested) && (Present(fileId) && StartsWith(Trim(fileId.value), "[")) ==> r == BundleName(number)
    ensures header.None? && !Present(requested) && !(Present(fileId) && StartsWith(Trim(fileId.value), "[")) ==>
              r == (if Present(fileId) then fileId.value else DefaultDownloadName)
  {
    DownloadName(header, requested, fileId, number, Bundled(fileId))
  }

  /** The label shown for one listed file: the part after the first `_`. */
  function ShownName(f: string): (r: string)
    ensures r == DisplayName(f)
  {
    if f != "" && '_' in f then f[IndexOf(f, '_').value + 1..] else f
  }
}

=== FILE: prelude.dfy ===
/** Shared optional-value datatype: `None` plays the part of JavaScript's
    `undefined`/`null` wherever the front-end treats the two alike. */
module Prelude {

  datatype Option<+T> = None | Some(value: T) {

    /** The value, or `default` when absent (JavaScript's `x ?? default`). */
    function GetOr(default: T): T {
      match this
      case Some(v) => v
      case None => default
    }
  }
}

=== FILE: roles.dfy ===
/** The roles screen: name and code filters over a paged list, and the form
    whose permissions text defaults to "". */
module Roles {
  import opened Prelude
  import opened Listing
  import opened Crud
  import FileNames

  datatype Role = Role(id: string, name: string, code: string, permissionsJson: Option<string>)

  /** `filteredAll`: the roles matching both boxes, in order. */
  function FilteredAll(items: seq<Role>, v: View): (r: seq<Role>)
    ensures forall x :: x in r <==> x in items && Matches(x.name, v.q1) && Matches(x.code, v.q2)
    ensures v.q1 == "" && v.q2 == "" ==> r == items
  {
    FilterTwo(items, (x: Role) => x.name, (x: Role) => x.code, v.q1, v.q2)
  }

  /** The page shown: at most 20 rows of `filteredAll`, from the start of
      the clamped page. */
  function Shown(items: seq<Role>, v: View): (r: seq<Role>)
    ensures |r| <= PageSize
    ensures forall x :: x in r ==> x in items && Matches(x.name, v.q1) && Matches(x.code, v.q2)
    ensures IsPage(r, FilteredAll(items, v), v.page)
  {
    PageSlice(FilteredAll(items, v), v.page)
  }

  /** Walking every page of the list shows each matching role once, in order. */
  lemma PagesShowAll(items: seq<Role>, v: View)
    ensures PagesFrom(FilteredAll(items, v), 1) == FilteredAll(items, v)
  {
    PagesCover(FilteredAll(items, v));
  }

  /** The form; it is also the body sent, as it is. */
  datatype Form = Form(name: string, code: string, permissionsJson: string)

  const AddForm := Form("", "", "")

  /** `openEdit`: a missing or empty permissions text becomes "". */
  function EditForm(x: Role): (f: Form)
    ensures f.name == x.name && f.code == x.code
    ensures FileNames.Present(x.permissionsJson) ==> f.permissionsJson == x.permissionsJson.value
    ensures !FileNames.Present(x.permissionsJson) ==> f.permissionsJson == ""
  {
    Form(x.name, x.code, if FileNames.Present(x.permissionsJson) then x.permissionsJson.value else "")
  }

  /** Editing a role and saving it untouched sends its own name and code
      and its permissions (as "" when it had none) to its own id. */
  lemma EditSaveRoundTrip(x: Role)
    requires x.id != ""
    ensures SaveTarget(true, x.id) == Update(x.id)
    ensures EditForm(x).permissionsJson == x.permissionsJson.GetOr("")
    ensures EditForm(x) == Form(x.name, x.code, x.permissionsJson.GetOr(""))
  {
  }
}

=== FILE: sidebar.dfy ===
/** The sidebar store (collapsed and mobile flags, the active section and
    its colour theme) and the container that picks which sidebar to render
    for the user's role. */
module Sidebar {
  import opened Prelude

  datatype Section = AdminSection | ContractsSection

  datatype Theme = Theme(primary: string, secondary: string, hover: string, active: string, text: string, border: string)

  const AdminTheme := Theme("#2563EB", "#3B82F6", "#DBEAFE", "#DBEAFE", "#1E40AF", "#BFDBFE")
  const ContractTheme := Theme("#059669", "#10B981", "#D1FAE5", "#D1FAE5", "#047857", "#A7F3D0")

  datatype State = State(isCollapsed: bool, isMobileOpen: bool, activeSection: Section, theme: Theme)

  const Initial := State(false, false, ContractsSection, ContractTheme)

  /** The theme a section is shown in. */
  function ThemeOf(s: Section): Theme {
    if s == AdminSection then AdminTheme else ContractTheme
  }

  /** The theme matches the active section. */
  predicate Consistent(st: State) {
    st.theme == ThemeOf(st.activeSection)
  }

  /** The admin theme is shown exactly in the admin section. */
  lemma ThemeIffAdmin(st: State)
    requires Consistent(st)
    ensures st.theme == AdminTheme <==> st.activeSection == AdminSection
  {
    assert AdminTheme.primary != ContractTheme.primary;
  }

  function SetCollapsed(st: State, b: bool): (r: State)
    ensures r.isCollapsed == b
    ensures r.(isCollapsed := st.isCollapsed) == st
  {
    st.(isCollapsed := b)
  }

  function SetMobileOpen(st: State, b: bool): (r: State)
    ensures r.isMobileOpen == b
    ensures r.(isMobileOpen := st.isMobileOpen) == st
  {
    st.(isMobileOpen := b)
  }

  /** `setActiveSection`: the section and its theme, nothing else. */
  function SetActiveSection(st: State, s: Section): (r: State)
    ensures Consistent(r) && r.activeSection == s
    ensures r.isCollapsed == st.isCollapsed && r.isMobileOpen == st.isMobileOpen
  {
    st.(activeSection := s, theme := ThemeOf(s))
  }

  function ToggleCollapsed(st: State): (r: State)
    ensures r.isCollapsed != st.isCollapsed
    ensures r.(isCollapsed := st.isCollapsed) == st
  {
    st.(isCollapsed := !st.isCollapsed)
  }

  function ToggleMobile(st: State): (r: State)
    ensures r.isMobileOpen != st.isMobileOpen
    ensures r.(isMobileOpen := st.isMobileOpen) == st
  {
    st.(isMobileOpen := !st.isMobileOpen)
  }

  /** The toggles are involutions. */
  lemma TogglesInvolutive(st: State)
    ensures ToggleCollapsed(ToggleCollapsed(st)) == st
    ensures ToggleMobile(ToggleMobile(st)) == st
  {
  }

  datatype Action = Collapse(b: bool) | MobileOpen(b: bool) | Activate(s: Section) | ToggleCollapse | ToggleMobileOpen

  function Apply(st: State, a: Action): State {
    match a
    case Collapse(b) => SetCollapsed(st, b)
    case MobileOpen(b) => SetMobileOpen(st, b)
    case Activate(s) => SetActiveSection(st, s)
    case ToggleCollapse => ToggleCollapsed(st)
    case ToggleMobileOpen => ToggleMobile(st)
  }

  function Run(st: State, acts: seq<Action>): State
    decreases |acts|
  {
    if acts == [] then st else Run(Apply(st, acts[0]), acts[1..])
  }

  /** Every action keeps the theme consistent with the section. */
  lemma ApplyKeepsConsistent(st: State, a: Action)
    requires Consistent(st)
    ensures Consistent(Apply(st, a))
  {
  }

  /** From the initial state, any sequence of actions leaves the theme
      consistent with the section. */
  lemma {:induction false} RunKeepsConsistent(st: State, acts: seq<Action>)
    requires Consistent(st)
    ensures Consistent(Run(st, acts))
    decreases |acts|
  {
    if acts != [] {
      ApplyKeepsConsistent(st, acts[0]);
      RunKeepsConsistent(Apply(st, acts[0]), acts[1..]);
    }
  }

  lemma InitialConsistent()
    ensures Consistent(Initial)
  {
  }

  datatype Role = AdminRole | UserRole

  datatype Rendered = AdminSidebar | ContractSidebar

  /** `renderSidebar`: an admin sees the admin sidebar in the admin section;
      everyone else, and an admin in the contracts section, the contract one. */
  function RenderSidebar(role: Role, s: Section): (r: Rendered)
    ensures r == AdminSidebar <==> role == AdminRole && s == AdminSection
  {
    if role == AdminRole then (if s == AdminSection then AdminSidebar else ContractSidebar)
    else ContractSidebar
  }

  function Other(s: Section): (r: Section)
    ensures r != s
  {
    if s == AdminSection then ContractsSection else AdminSection
  }

  /** The section-switch button: shown to admins only; pressing it activates
      the other section. */
  function SwitchButton(role: Role, st: State): (r: Option<State>)
    ensures r.Some? <==> role == AdminRole
    ensures r.Some? ==> r.value == SetActiveSection(st, Other(st.activeSection))
  {
    if role == AdminRole then Some(SetActiveSection(st, Other(st.activeSection))) else None
  }

  /** Pressing the switch twice returns to the same section and theme. */
  lemma SwitchTwice(st: State)
    requires Consistent(st)
    ensures SwitchButton(AdminRole, SwitchButton(AdminRole, st).value).value == st
  {
  }

  /** Whatever store actions ran from a consistent state, an admin is shown
      the admin sidebar exactly when the store shows the admin theme, so the
      sidebar and its colours never disagree. */
  lemma RenderMatchesTheme(st: State, acts: seq<Action>)
    requires Consistent(st)
    ensures RenderSidebar(AdminRole, Run(st, acts).activeSection) == AdminSidebar <==> Run(st, acts).theme == AdminTheme
  {
    RunKeepsConsistent(st, acts);
    ThemeIffAdmin(Run(st, acts));
  }

  /** The media query `(max-width: 1023px)`: the sidebar is collapsed
      exactly when it matches. */
  function OnMedia(st: State, matches: bool): (r: State)
    ensures r.isCollapsed == matches
    ensures r.(isCollapsed := st.isCollapsed) == st
  {
    SetCollapsed(st, matches)
  }
}

=== FILE: templates_list.dfy ===
/** The contract-templates screen's list: a name box and a status box (a
    missing status searched as "") over a paged list. */
module TemplatesList {
  import opened Prelude
  import opened Listing

  datatype TemplateRow = TemplateRow(id: string, name: string, status: Option<string>)

  /** `filteredAll`: the templates matching both boxes, in order. */
  function FilteredAll(items: seq<TemplateRow>, v: View): (r: seq<TemplateRow>)
    ensures forall t :: t in r <==> t in items && Matches(t.name, v.q1) && Matches(t.status.GetOr(""), v.q2)
    ensures v.q1 == "" && v.q2 == "" ==> r == items
  {
    FilterTwo(items, (t: TemplateRow) => t.name, (t: TemplateRow) => t.status.GetOr(""), v.q1, v.q2)
  }

  /** The page shown: at most 20 rows of `filteredAll`, from the start of
      the clamped page. */
  function Shown(items: seq<TemplateRow>, v: View): (r: seq<TemplateRow>)
    ensures |r| <= PageSize
    ensures forall t :: t in r ==> t in items && Matches(t.name, v.q1)
    ensures IsPage(r, FilteredAll(items, v), v.page)
  {
    PageSlice(FilteredAll(items, v), v.page)
  }

  /** A template without a status is hidden by any status query. */
  lemma NoStatusHidden(items: seq<TemplateRow>, v: View, t: TemplateRow)
    requires t.status.None? && v.q2 != ""
    ensures t !in Shown(items, v)
  {
    assert !Matches("", v.q2);
  }

  /** Walking every page shows each matching template once, in order; a
      query change lands on the first page. */
  lemma PagesShowAll(items: seq<TemplateRow>, v: View, q: string)
    ensures PagesFrom(FilteredAll(items, v), 1) == FilteredAll(items, v)
    ensures q != v.q1 ==> Shown(items, SetQuery1(v, q)) == PageSlice(FilteredAll(items, SetQuery1(v, q)), 1)
  {
    PagesCover(FilteredAll(items, v));
  }
}

=== FILE: text.dfy ===
/** String helpers the pages rely on, written out once: ASCII case mapping
    (`toLowerCase`/`toUpperCase`), `includes`, `startsWith`/`endsWith`,
    `trim`, `indexOf`, `split`, and the decimal rendering of a number inside
    a template literal. */
module Text {
  import opened Prelude

  /** ASCII lower-casing of one character; every other character is kept. */
  function LowerChar(c: char): char {
    if 'A' <= c <= 'Z' then (c as int + 32) as char else c
  }

  /** ASCII upper-casing of one character; every other character is kept. */
  function UpperChar(c: char): char {
    if 'a' <= c <= 'z' then (c as int - 32) as char else c
  }

  function Lower(s: string): (r: string)
    ensures |r| == |s|
    ensures forall i :: 0 <= i < |s| ==> r[i] == LowerChar(s[i])
  {
    seq(|s|, i requires 0 <= i < |s| => LowerChar(s[i]))
  }

  /** Lower-casing twice is lower-casing once. */
  lemma LowerTwice(s: string)
    ensures Lower(Lower(s)) == Lower(s)
  {
    forall i | 0 <= i < |s| ensures Lower(Lower(s))[i] == Lower(s)[i] {
      assert LowerChar(LowerChar(s[i])) == LowerChar(s[i]);
    }
  }

  function Upper(s: string): (r: string)
    ensures |r| == |s|
    ensures forall i :: 0 <= i < |s| ==> r[i] == UpperChar(s[i])
  {
    seq(|s|, i requires 0 <= i < |s| => UpperChar(s[i]))
  }

  /** `s.includes(sub)`: `sub` occurs in `s` at some offset. */
  predicate Contains(s: string, sub: string) {
    exists i | 0 <= i <= |s| - |sub| :: OccursAt(s, sub, i)
  }

  predicate OccursAt(s: string, sub: string, i: int) {
    0 <= i <= |s| - |sub| && s[i..i + |sub|] == sub
  }

  predicate StartsWith(s: string, prefix: string) {
    |prefix| <= |s| && s[..|prefix|] == prefix
  }

  predicate EndsWith(s: string, suffix: string) {
    |suffix| <= |s| && s[|s| - |suffix|..] == suffix
  }

  /** The characters `String.prototype.trim` removes: ECMAScript WhiteSpace
      (tab, vertical tab, form feed, the Zs space separators, BOM) and
      LineTerminator (LF, CR, LS, PS). */
  predicate IsSpace(c: char) {
    || c == '\t' || c == '\n' || c == '\U{000B}' || c == '\U{000C}' || c == '\r'
    || c == ' ' || c == '\U{00A0}' || c == '\U{1680}'
    || ('\U{2000}' <= c <= '\U{200A}')
    || c == '\U{2028}' || c == '\U{2029}' || c == '\U{202F}' || c == '\U{205F}'
    || c == '\U{3000}' || c == '\U{FEFF}'
  }

  function TrimStart(s: string): (r: string)
    ensures |r| <= |s| && r == s[|s| - |r|..]
    ensures r == [] || !IsSpace(r[0])
    ensures forall i :: 0 <= i < |s| - |r| ==> IsSpace(s[i])
  {
    if s != [] && IsSpace(s[0]) then TrimStart(s[1..]) else s
  }

  function TrimEnd(s: string): (r: string)
    ensures |r| <= |s| && r == s[..|r|]
    ensures r == [] || !IsSpace(r[|r| - 1])
    ensures forall i :: |r| <= i < |s| ==> IsSpace(s[i])
  {
    if s != [] && IsSpace(s[|s| - 1]) then TrimEnd(s[..|s| - 1]) else s
  }

  /** `s.trim()`: a contiguous piece of `s` with no space at either end,
      everything cut away being space. */
  function Trim(s: string): (r: string)
    ensures exists k :: TrimmedAt(s, r, k)
    ensures r == [] || (!IsSpace(r[0]) && !IsSpace(r[|r| - 1]))
  {
    var t := TrimStart(s);
    var r := TrimEnd(t);
    TrimPieces(s, t, r);
    r
  }

  /** Cutting spaces off the front and then off the back leaves a piece of
      `s` with only space around it. */
  lemma TrimPieces(s: string, t: string, r: string)
    requires |t| <= |s| && t == s[|s| - |t|..] && forall i :: 0 <= i < |s| - |t| ==> IsSpace(s[i])
    requires |r| <= |t| && r == t[..|r|] && forall i :: |r| <= i < |t| ==> IsSpace(t[i])
    ensures TrimmedAt(s, r, |s| - |t|)
  {
    var k := |s| - |t|;
    assert r == s[k..k + |r|];
    forall i | k + |r| <= i < |s| ensures IsSpace(s[i]) {
      assert s[i] == t[i - k];
    }
  }

  /** Trimming text that starts with a non-space keeps its first character. */
  lemma TrimKeepsFirst(s: string)
    requires s != [] && !IsSpace(s[0])
    ensures Trim(s) != [] && Trim(s)[0] == s[0]
  {
    assert TrimStart(s) == s;
  }

  /** `r` is `s[k..k + |r|]` and everything of `s` outside it is space. */
  predicate TrimmedAt(s: string, r: string, k: int) {
    && 0 <= k <= |s| - |r| && r == s[k..k + |r|]
    && (forall i :: 0 <= i < k ==> IsSpace(s[i]))
    && (forall i :: k + |r| <= i < |s| ==> IsSpace(s[i]))
  }

  /** `s.indexOf(c)`, with `None` for JavaScript's -1. */
  function IndexOf(s: string, c: char): (r: Option<nat>)
    ensures r.None? <==> c !in s
    ensures r.Some? ==> r.value < |s| && s[r.value] == c && c !in s[..r.value]
  {
    if s == [] then None
    else if s[0] == c then Some(0)
    else match IndexOf(s[1..], c)
      case None => None
      case Some(k) =>
        assert s[..k + 1] == [s[0]] + s[1..][..k];
        Some(k + 1)
  }

  /** `s.split(sep)` for a one-character separator. */
  function Split(s: string, sep: char): (r: seq<string>)
    ensures |r| >= 1
    ensures forall i :: 0 <= i < |r| ==> sep !in r[i]
    decreases |s|
  {
    match IndexOf(s, sep)
    case None => [s]
    case Some(k) => [s[..k]] + Split(s[k + 1..], sep)
  }

  /** `parts.join(sep)`. */
  function Join(parts: seq<string>, sep: char): string {
    if parts == [] then ""
    else if |parts| == 1 then parts[0]
    else parts[0] + [sep] + Join(parts[1..], sep)
  }

  /** Splitting loses nothing: joining the pieces back gives the input. */
  lemma {:induction false} JoinSplit(s: string, sep: char)
    ensures Join(Split(s, sep), sep) == s
    decreases |s|
  {
    match IndexOf(s, sep)
    case None =>
    case Some(k) =>
      var rest := Split(s[k + 1..], sep);
      JoinSplit(s[k + 1..], sep);
      assert Join([s[..k]] + rest, sep) == s[..k] + [sep] + Join(rest, sep);
      assert s == s[..k] + [sep] + s[k + 1..];
  }

  /** And joining separator-free pieces, then splitting, gives the pieces. */
  lemma {:induction false} SplitJoin(parts: seq<string>, sep: char)
    requires |parts| >= 1
    requires forall i :: 0 <= i < |parts| ==> sep !in parts[i]
    ensures Split(Join(parts, sep), sep) == parts
    decreases |parts|
  {
    if |parts| > 1 {
      var s := Join(parts, sep);
      var p := parts[0];
      assert s == p + [sep] + Join(parts[1..], sep);
      assert s[..|p|] == p;
      assert s[|p|] == sep;
      IndexOfAfterFree(p, [sep] + Join(parts[1..], sep), sep);
      assert s[|p| + 1..] == Join(parts[1..], sep);
      SplitJoin(parts[1..], sep);
    } else {
      assert IndexOf(parts[0], sep).None?;
    }
  }

  /** The first occurrence of `c` in `p + t`, when `p` lacks `c` and `t` starts with it. */
  lemma {:induction false} IndexOfAfterFree(p: string, t: string, c: char)
    requires c !in p && t != [] && t[0] == c
    ensures IndexOf(p + t, c) == Some(|p|)
  {
    if p != [] {
      assert (p + t)[0] == p[0];
      assert (p + t)[1..] == p[1..] + t;
      IndexOfAfterFree(p[1..], t, c);
    }
  }

  function DigitChar(d: nat): (c: char)
    requires d < 10
    ensures '0' <= c <= '9'
  {
    ('0' as int + d) as char
  }

  predicate IsDigits(s: string) {
    forall i :: 0 <= i < |s| ==> '0' <= s[i] <= '9'
  }

  /** `${n}` for a natural number: decimal digits without a leading zero. */
  function Decimal(n: nat): (r: string)
    ensures |r| >= 1 && IsDigits(r)
    ensures |r| > 1 ==> r[0] != '0'
    decreases n
  {
    if n < 10 then [DigitChar(n)] else Decimal(n / 10) + [DigitChar(n % 10)]
  }

  /** Reads decimal digits back into a number (the partner of `Decimal`). */
  function ParseDecimal(s: string): nat
    requires IsDigits(s)
  {
    if s == [] then 0
    else ParseDecimal(s[..|s| - 1]) * 10 + (s[|s| - 1] as int - '0' as int)
  }

  lemma {:induction false} DecimalRoundTrip(n: nat)
    ensures ParseDecimal(Decimal(n)) == n
    decreases n
  {
    if n >= 10 {
      var d := Decimal(n / 10);
      assert (d + [DigitChar(n % 10)])[..|d|] == d;
      DecimalRoundTrip(n / 10);
    }
  }

  /** Different numbers render differently. */
  lemma DecimalInjective(m: nat, n: nat)
    requires Decimal(m) == Decimal(n)
    ensures m == n
  {
    DecimalRoundTrip(m);
    DecimalRoundTrip(n);
  }
}

=== FILE: upload_queue.dfy ===
/** The multi-file upload queue of the contract-template form. The queue is a
    list of items keyed by a generated id; every handler rewrites only the
    items carrying its id. The browser transfer is outside the model: starting
    an upload or cancelling one yields a request for it, and the transfer's
    callbacks (progress, load, error, abort) come back as events. */
module UploadQueue {
  import opened Prelude
  import opened Text
  import opened Json
  import Listing

  /** `10 * 1024 * 1024` bytes; a file strictly larger is refused. */
  const MaxFileSize: nat := 10 * 1024 * 1024
  const TooLargeMessage: string := "File vượt quá 10MB"
  const NetworkErrorMessage: string := "Network error"
  const CanceledMessage: string := "Canceled"
  /** The multipart form field the file is sent under. */
  const FilesField: string := "files"

  datatype Status = Queued | Uploading | Uploaded | Error | Canceled

  /** One queued file. `hasTransfer` records that a live transfer handle has
      been stored on the item; `serverFileName` is the truthy value read from
      the upload response, if any. */
  datatype Item = Item(
    id: string,
    name: string,
    size: nat,
    status: Status,
    progress: int,
    hasTransfer: bool,
    serverFileName: Option<Json>,
    errorMsg: Option<string>)

  /** One file picked in the file input, with the id generated for it. */
  datatype Picked = Picked(id: string, name: string, size: nat)

  /** What the queue asks of the browser: send one item's file to a template's
      file endpoint under a form field, or abort the transfer of an item. */
  datatype Request = Send(templateId: string, itemId: string, field: string) | Abort(itemId: string)

  /** The new queue and the requests issued while computing it. */
  datatype Effect = Effect(queue: seq<Item>, requests: seq<Request>)

  /** The item made for one picked file: refused (and never sent) when larger
      than 10 MiB, queued otherwise; no progress, no server name yet. */
  function NewItem(f: Picked): (it: Item)
    ensures it.id == f.id && it.name == f.name && it.size == f.size
    ensures it.status == Error <==> f.size > MaxFileSize
    ensures it.status == Queued <==> f.size <= MaxFileSize
    ensures it.errorMsg == (if f.size > MaxFileSize then Some(TooLargeMessage) else None)
    ensures it.progress == 0 && it.serverFileName == None && !it.hasTransfer
  {
    var tooLarge := f.size > MaxFileSize;
    Item(f.id, f.name, f.size, if tooLarge then Error else Queued, 0, false, None,
         if tooLarge then Some(TooLargeMessage) else None)
  }

  /** Picking files: one new item per file, in the picked order, all ahead of
      the items already queued. */
  function Enqueue(q: seq<Item>, files: seq<Picked>): (r: seq<Item>)
    ensures |r| == |files| + |q|
    ensures forall i :: 0 <= i < |files| ==> r[i] == NewItem(files[i])
    ensures r[|files|..] == q
  {
    seq(|files|, i requires 0 <= i < |files| => NewItem(files[i])) + q
  }

  /** `prev.map(p => p.id === id ? f(p) : p)`: the one rewrite every handler
      uses. Items with another id keep their place and their contents. */
  function Update(q: seq<Item>, id: string, f: Item -> Item): (r: seq<Item>)
    ensures |r| == |q|
    ensures forall i :: 0 <= i < |q| ==> (q[i].id == id ==> r[i] == f(q[i]))
    ensures forall i :: 0 <= i < |q| ==> (q[i].id != id ==> r[i] == q[i])
  {
    seq(|q|, i requires 0 <= i < |q| => if q[i].id == id then f(q[i]) else q[i])
  }

  /** `removeQueued(id)`: drops exactly the items with that id, keeping the rest in order. */
  function RemoveQueued(q: seq<Item>, id: string): (r: seq<Item>)
    ensures forall it :: it in r <==> it in q && it.id != id
    ensures forall i :: 0 <= i < |r| ==> r[i].id != id
    ensures (forall i :: 0 <= i < |q| ==> q[i].id != id) ==> r == q
  {
    Listing.Filter(q, (it: Item) => it.id != id)
  }

  /** The statuses the remove button is offered for. */
  predicate Removable(s: Status) {
    s == Queued || s == Uploaded || s == Error
  }

  /** Item ids are stamped with the time, the name and a random suffix, so
      the queue holds each id once. */
  predicate IdsDistinct(q: seq<Item>) {
    forall j, k :: 0 <= j < k < |q| ==> q[j].id != q[k].id
  }

  /** With the ids distinct, removing row `i`'s id takes out exactly that
      row and keeps the others in order. */
  lemma RemoveRow(q: seq<Item>, i: int)
    requires 0 <= i < |q| && IdsDistinct(q)
    ensures RemoveQueued(q, q[i].id) == q[..i] + q[i + 1..]
  {
    var id := q[i].id;
    forall k | 0 <= k < |q| && k != i ensures q[k].id != id {
      if k < i { assert q[k].id != q[i].id; } else { assert q[i].id != q[k].id; }
    }
    Listing.FilterDropsOne(q, i, (it: Item) => it.id != id);
  }

  /** Removing through a row's remove button, which is offered only for a
      queued, uploaded or failed item, takes out exactly that row and keeps
      the others in order, so an upload in progress is never dropped. */
  lemma RemoveOffered(q: seq<Item>, i: int)
    requires 0 <= i < |q| && Removable(q[i].status)
    requires IdsDistinct(q)
    ensures RemoveQueued(q, q[i].id) == q[..i] + q[i + 1..]
    ensures forall it :: it in q && it.status == Uploading ==> it in RemoveQueued(q, q[i].id)
  {
    RemoveRow(q, i);
    forall it | it in q && it.status == Uploading
      ensures it in q[..i] + q[i + 1..]
    {
      var k :| 0 <= k < |q| && q[k] == it;
      if k < i {
        assert q[..i][k] == it;
      } else {
        assert k != i;
        assert q[i + 1..][k - i - 1] == it;
      }
    }
  }

  /** The cancel button's rewrite of an item. */
  function CancelItem(it: Item): (r: Item)
    ensures r.status == Canceled && r.progress == 0
    ensures r.(status := it.status, progress := it.progress) == it
  {
    it.(status := Canceled, progress := 0)
  }

  /** `cancelUpload(id)`: the matching items become `Canceled` with progress 0;
      their live transfers are aborted; nothing else changes. */
  function CancelUpload(q: seq<Item>, id: string): (e: Effect)
    ensures |e.queue| == |q|
    ensures forall i :: 0 <= i < |q| && q[i].id == id ==> e.queue[i] == CancelItem(q[i])
    ensures forall i :: 0 <= i < |q| && q[i].id != id ==> e.queue[i] == q[i]
    ensures forall k :: 0 <= k < |e.requests| ==> e.requests[k] == Abort(id)
  {
    Effect(Update(q, id, CancelItem), Aborts(q, id))
  }

  /** One abort request for each item with `id` that holds a transfer. */
  function Aborts(q: seq<Item>, id: string): (r: seq<Request>)
    ensures forall k :: 0 <= k < |r| ==> r[k] == Abort(id)
    ensures |r| == |Listing.Filter(q, (it: Item) => it.id == id && it.hasTransfer)|
  {
    var live := Listing.Filter(q, (it: Item) => it.id == id && it.hasTransfer);
    seq(|live|, k requires 0 <= k < |live| => Abort(id))
  }

  predicate HasTransfer(it: Item) {
    it.hasTransfer
  }

  /** `cancelAll()`: the transfer of every item holding one is aborted, in
      queue order, and the queue is emptied. */
  function CancelAll(q: seq<Item>): (e: Effect)
    ensures e.queue == []
    ensures |e.requests| == |Listing.Filter(q, HasTransfer)|
    ensures forall k :: 0 <= k < |e.requests| ==> e.requests[k] == Abort(Listing.Filter(q, HasTransfer)[k].id)
  {
    var live := Listing.Filter(q, HasTransfer);
    Effect([], seq(|live|, k requires 0 <= k < |live| => Abort(live[k].id)))
  }

  /** Cancelling everything aborts exactly the items that hold a transfer. */
  lemma CancelAllAbortsLive(q: seq<Item>, id: string)
    ensures Abort(id) in CancelAll(q).requests <==> exists i :: 0 <= i < |q| && q[i].id == id && q[i].hasTransfer
  {
    var live := Listing.Filter(q, HasTransfer);
    AbortsOf(live, CancelAll(q).requests, id);
    LiveIds(q, live, id);
  }

  /** One abort per listed item: an id is aborted iff a listed item has it. */
  lemma AbortsOf(live: seq<Item>, r: seq<Request>, id: string)
    requires |r| == |live| && forall k :: 0 <= k < |r| ==> r[k] == Abort(live[k].id)
    ensures Abort(id) in r <==> exists k :: 0 <= k < |live| && live[k].id == id
  {
    if Abort(id) in r {
      var k :| 0 <= k < |r| && r[k] == Abort(id);
    }
    if k :| 0 <= k < |live| && live[k].id == id {
      assert r[k] == Abort(id);
    }
  }

  /** The items holding a transfer, listed in any order, carry exactly the ids
      of the queue's items holding one. */
  lemma LiveIds(q: seq<Item>, live: seq<Item>, id: string)
    requires forall x :: x in live <==> x in q && HasTransfer(x)
    ensures (exists k :: 0 <= k < |live| && live[k].id == id) <==> exists i :: 0 <= i < |q| && q[i].id == id && q[i].hasTransfer
  {
    if k :| 0 <= k < |live| && live[k].id == id {
      assert live[k] in live;
      var i :| 0 <= i < |q| && q[i] == live[k];
    }
    if i :| 0 <= i < |q| && q[i].id == id && q[i].hasTransfer {
      assert q[i] in q;
      assert q[i] in live;
      var k :| 0 <= k < |live| && live[k] == q[i];
    }
  }

  /** Whether some item carries `id`. */
  predicate HasId(q: seq<Item>, id: string) {
    exists i :: 0 <= i < |q| && q[i].id == id
  }

  /** `startUpload(templateId, id)`: the matching items are marked
      `Uploading`; when the id is in the queue exactly one request sends that
      item's file under `files`, and the transfer handle is stored on it. */
  function StartUpload(q: seq<Item>, templateId: string, id: string): (e: Effect)
    ensures |e.queue| == |q|
    ensures forall i :: 0 <= i < |q| && q[i].id == id ==>
              e.queue[i] == Started(q[i])
    ensures forall i :: 0 <= i < |q| && q[i].id != id ==> e.queue[i] == q[i]
    ensures HasId(q, id) ==> e.requests == [Send(templateId, id, FilesField)]
    ensures !HasId(q, id) ==> e.requests == [] && e.queue == q
  {
    var marked := Update(q, id, (it: Item) => it.(status := Uploading));
    if !HasId(q, id) then
      assert marked == q;
      Effect(marked, [])
    else
      Effect(Update(marked, id, (it: Item) => it.(hasTransfer := true)), [Send(templateId, id, FilesField)])
  }

  /** Some item carrying `id` is queued. */
  predicate QueuedWith(q: seq<Item>, id: string) {
    exists i :: 0 <= i < |q| && q[i].id == id && q[i].status == Queued
  }

  /** The ids of the queued items, in queue order. */
  function QueuedIds(q: seq<Item>): (r: seq<string>)
    ensures |r| <= |q|
    ensures forall id :: id in r <==> QueuedWith(q, id)
  {
    if q == [] then []
    else
      var tail := QueuedIds(q[1..]);
      forall id ensures QueuedWith(q, id) <==> (q[0].id == id && q[0].status == Queued) || QueuedWith(q[1..], id) {
        if QueuedWith(q, id) {
          var i :| 0 <= i < |q| && q[i].id == id && q[i].status == Queued;
          if i > 0 { assert q[1..][i - 1] == q[i]; }
        }
        if QueuedWith(q[1..], id) {
          var j :| 0 <= j < |q[1..]| && q[1..][j].id == id && q[1..][j].status == Queued;
          assert q[j + 1] == q[1..][j];
        }
      }
      (if q[0].status == Queued then [q[0].id] else []) + tail
  }

  /** One send request per id, in order. */
  function SendAll(templateId: string, ids: seq<string>): (r: seq<Request>)
    ensures |r| == |ids|
    ensures forall k :: 0 <= k < |ids| ==> r[k] == Send(templateId, ids[k], FilesField)
  {
    seq(|ids|, k requires 0 <= k < |ids| => Send(templateId, ids[k], FilesField))
  }

  /** The rewrite `startUpload` makes of the item it starts. */
  function Started(it: Item): Item {
    it.(status := Uploading, hasTransfer := true)
  }

  /** Runs `StartUpload` for each id in turn. */
  function StartEach(q: seq<Item>, templateId: string, ids: seq<string>): (e: Effect)
    ensures |e.queue| == |q|
    ensures forall i :: 0 <= i < |q| ==> e.queue[i].id == q[i].id
    decreases |ids|
  {
    if ids == [] then Effect(q, [])
    else
      var first := StartUpload(q, templateId, ids[0]);
      var rest := StartEach(first.queue, templateId, ids[1..]);
      Effect(rest.queue, first.requests + rest.requests)
  }

  /** Each item whose id is started becomes `Started` (starting twice is
      starting once); the others are kept. */
  lemma {:induction false} StartEachItems(q: seq<Item>, templateId: string, ids: seq<string>, i: nat)
    requires i < |q|
    ensures q[i].id in ids ==> StartEach(q, templateId, ids).queue[i] == Started(q[i])
    ensures q[i].id !in ids ==> StartEach(q, templateId, ids).queue[i] == q[i]
    decreases |ids|
  {
    if ids != [] {
      var first := StartUpload(q, templateId, ids[0]);
      StartEachItems(first.queue, templateId, ids[1..], i);
      assert ids == [ids[0]] + ids[1..];
      assert q[i].id in ids <==> q[i].id == ids[0] || q[i].id in ids[1..];
    }
  }

  /** Starting one item keeps every id in the queue. */
  lemma StartKeepsIds(q: seq<Item>, templateId: string, id: string, other: string)
    requires HasId(q, other)
    ensures HasId(StartUpload(q, templateId, id).queue, other)
  {
    var i :| 0 <= i < |q| && q[i].id == other;
    assert StartUpload(q, templateId, id).queue[i].id == other;
  }

  /** When every id names an item, one send request goes out per id, in order. */
  lemma {:induction false} StartEachRequests(q: seq<Item>, templateId: string, ids: seq<string>)
    requires forall k :: 0 <= k < |ids| ==> HasId(q, ids[k])
    ensures StartEach(q, templateId, ids).requests == SendAll(templateId, ids)
    decreases |ids|
  {
    if ids != [] {
      var first := StartUpload(q, templateId, ids[0]);
      assert HasId(q, ids[0]);
      forall k | 0 <= k < |ids[1..]| ensures HasId(first.queue, ids[1..][k]) {
        assert ids[1..][k] == ids[k + 1];
        StartKeepsIds(q, templateId, ids[0], ids[k + 1]);
      }
      StartEachRequests(first.queue, templateId, ids[1..]);
      SendAllCons(templateId, ids);
    }
  }

  /** The requests for a list of ids: the first id's, then the rest's. */
  lemma SendAllCons(templateId: string, ids: seq<string>)
    requires ids != []
    ensures SendAll(templateId, ids) == [Send(templateId, ids[0], FilesField)] + SendAll(templateId, ids[1..])
  {
    var r := [Send(templateId, ids[0], FilesField)] + SendAll(templateId, ids[1..]);
    forall k | 0 <= k < |ids| ensures r[k] == SendAll(templateId, ids)[k] {
      if k > 0 {
        assert r[k] == SendAll(templateId, ids[1..])[k - 1];
      }
    }
  }

  /** `startAll(templateId)`: starts the queued items, and only them; the
      queue keeps its rows in place, and nothing queued means nothing done. */
  function StartAll(q: seq<Item>, templateId: string): (e: Effect)
    ensures |e.queue| == |q|
    ensures forall i :: 0 <= i < |q| ==> e.queue[i].id == q[i].id
    ensures (forall i :: 0 <= i < |q| ==> q[i].status != Queued) ==> e == Effect(q, [])
  {
    NothingQueued(q);
    StartEach(q, templateId, QueuedIds(q))
  }

  /** With no queued item there is no queued id. */
  lemma NothingQueued(q: seq<Item>)
    ensures (forall i :: 0 <= i < |q| ==> q[i].status != Queued) ==> QueuedIds(q) == []
  {
    var ids := QueuedIds(q);
    if ids != [] {
      assert ids[0] in ids;
    }
  }

  /** Every queued item is started, one send request goes out per queued item
      in queue order, and items sharing no id with a queued item are untouched. */
  lemma StartAllStartsQueued(q: seq<Item>, templateId: string)
    ensures |StartAll(q, templateId).queue| == |q|
    ensures forall i :: 0 <= i < |q| && q[i].status == Queued ==> StartAll(q, templateId).queue[i] == Started(q[i])
    ensures forall i :: 0 <= i < |q| && !QueuedWith(q, q[i].id) ==> StartAll(q, templateId).queue[i] == q[i]
    ensures StartAll(q, templateId).requests == SendAll(templateId, QueuedIds(q))
  {
    var ids := QueuedIds(q);
    forall k | 0 <= k < |ids| ensures HasId(q, ids[k]) {
      assert ids[k] in ids;
    }
    StartEachRequests(q, templateId, ids);
    forall i | 0 <= i < |q| ensures QueuedWith(q, q[i].id) ==> StartAll(q, templateId).queue[i] == Started(q[i])
                                ensures !QueuedWith(q, q[i].id) ==> StartAll(q, templateId).queue[i] == q[i] {
      StartEachItems(q, templateId, ids, i);
    }
  }

  /** `Math.round(loaded / total * 100)`, computed exactly: the nearest whole
      percentage, halves rounded up. */
  function RoundPercent(loaded: nat, total: nat): (p: int)
    requires total > 0
    ensures 2 * p * total <= 200 * loaded + total < 2 * (p + 1) * total
    ensures loaded <= total ==> 0 <= p <= 100
  {
    var d := 2 * total;
    var x := 200 * loaded + total;
    var p := x / d;
    assert x == d * p + x % d && 0 <= x % d < d;
    assert 2 * p * total == d * p;
    assert 2 * (p + 1) * total == d * p + d;
    assert loaded <= total ==> p <= 100 by {
      if loaded <= total {
        assert x < d * 101;
        MulMonotone(d, p, 101);
        assert p < 101;
      }
    }
    p
  }

  /** Multiplying by a positive factor keeps the order. */
  lemma MulMonotone(d: int, a: int, b: int)
    requires d > 0
    ensures a >= b ==> d * a >= d * b
  {
    if a >= b {
      assert d * a == d * b + d * (a - b);
    }
  }

  /** `v?.[key]`: undefined on undefined and null. */
  function Member(v: Option<Json>, key: string): (r: Option<Json>)
    ensures r.Some? <==> v.Some? && v.value.JObj? && key in v.value.fields
  {
    match v
    case None => None
    case Some(JNull) => None
    case Some(x) => Get(x, key)
  }

  /** `v?.[0]`: the first element of an array, the first character of a
      string, an object's property "0", otherwise undefined. */
  function First(v: Option<Json>): Option<Json> {
    match v
    case Some(JArr(e)) => if |e| > 0 then Some(e[0]) else None
    case Some(JStr(s)) => if |s| > 0 then Some(JStr([s[0]])) else None
    case Some(JObj(m)) => if "0" in m then Some(m["0"]) else None
    case _ => None
  }

  /** `body?.template?.fileNames?.[0]` on the parsed upload response. */
  function ServerNameOf(body: Json): (r: Option<Json>)
    ensures r.Some? ==> body.JObj? && "template" in body.fields
    ensures Member(Member(Some(body), "template"), "fileNames").Some? &&
            Member(Member(Some(body), "template"), "fileNames").value.JArr? &&
            Member(Member(Some(body), "template"), "fileNames").value.elems != [] ==>
              r == Some(Member(Member(Some(body), "template"), "fileNames").value.elems[0])
  {
    First(Member(Member(Some(body), "template"), "fileNames"))
  }

  /** A response carrying the template's stored names yields the first one. */
  lemma ServerNameOfTemplate(name: string, rest: seq<Json>, other: map<string, Json>)
    ensures ServerNameOf(JObj(other["template" := JObj(map["fileNames" := JArr([JStr(name)] + rest)])]))
            == Some(JStr(name))
  {
  }

  /** A response without a `template` object yields no name. */
  lemma ServerNameOfMissing(body: Json)
    requires !(body.JObj? && "template" in body.fields)
    ensures ServerNameOf(body) == None
  {
  }

  /** The outcomes a transfer reports back, plus the cancel button. */
  datatype Event =
    | Progress(id: string, lengthComputable: bool, loaded: nat, total: nat)
    | Load(id: string, httpStatus: nat, body: Json)
    | NetworkError(id: string)
    | Aborted(id: string)
    | Cancel(id: string)

  predicate IsSuccess(httpStatus: nat) {
    200 <= httpStatus < 300
  }

  function ServerErrorMessage(httpStatus: nat): string {
    "Server error " + Decimal(httpStatus)
  }

  /** What one event does to the item it names. */
  function Apply(it: Item, ev: Event): (r: Item)
    ensures r.id == it.id && r.name == it.name && r.size == it.size && r.hasTransfer == it.hasTransfer
    ensures ev.Progress? && ev.lengthComputable && ev.total > 0 ==>
              r == it.(progress := RoundPercent(ev.loaded, ev.total))
    ensures ev.Progress? && !(ev.lengthComputable && ev.total > 0) ==> r == it
    ensures ev.Load? && IsSuccess(ev.httpStatus) ==>
              r.status == Uploaded && r.progress == 100 && r.errorMsg == it.errorMsg
              && r.serverFileName == Or(ServerNameOf(ev.body), None)
    ensures ev.Load? && !IsSuccess(ev.httpStatus) ==>
              r == it.(status := Error, errorMsg := Some(ServerErrorMessage(ev.httpStatus)))
    ensures ev.NetworkError? ==> r == it.(status := Error, errorMsg := Some(NetworkErrorMessage))
    ensures ev.Aborted? ==> r == it.(status := Canceled, errorMsg := Some(CanceledMessage))
    ensures ev.Cancel? ==> r == CancelItem(it)
  {
    match ev
    case Progress(_, computable, loaded, total) =>
      if computable && total > 0 then it.(progress := RoundPercent(loaded, total)) else it
    case Load(_, httpStatus, body) =>
      if IsSuccess(httpStatus) then
        it.(status := Uploaded, progress := 100, serverFileName := Or(ServerNameOf(body), None))
      else
        it.(status := Error, errorMsg := Some(ServerErrorMessage(httpStatus)))
    case NetworkError(_) => it.(status := Error, errorMsg := Some(NetworkErrorMessage))
    case Aborted(_) => it.(status := Canceled, errorMsg := Some(CanceledMessage))
    case Cancel(_) => CancelItem(it)
  }

  /** Delivering an event: only the items with the event's id change. */
  function Handle(q: seq<Item>, ev: Event): (r: seq<Item>)
    ensures |r| == |q|
    ensures forall i :: 0 <= i < |q| && q[i].id == ev.id ==> r[i] == Apply(q[i], ev)
    ensures forall i :: 0 <= i < |q| && q[i].id != ev.id ==> r[i] == q[i]
    ensures forall i :: 0 <= i < |q| ==> r[i].id == q[i].id
  {
    Update(q, ev.id, (it: Item) => Apply(it, ev))
  }

  /** Delivering a sequence of events in order. */
  function HandleAll(q: seq<Item>, evs: seq<Event>): seq<Item>
    decreases |evs|
  {
    if evs == [] then q else HandleAll(Handle(q, evs[0]), evs[1..])
  }

  /** Isolation: however many events arrive for other items, an item is left
      exactly as it was, in the same place. */
  lemma {:induction false} OthersUntouched(q: seq<Item>, evs: seq<Event>, i: nat)
    requires i < |q|
    requires forall k :: 0 <= k < |evs| ==> evs[k].id != q[i].id
    ensures |HandleAll(q, evs)| == |q|
    ensures HandleAll(q, evs)[i] == q[i]
    decreases |evs|
  {
    if evs != [] {
      var q1 := Handle(q, evs[0]);
      assert q1[i] == q[i];
      OthersUntouched(q1, evs[1..], i);
    }
  }

  /** Cancel followed by the transfer's abort callback: the item stays
      `Canceled`, with progress 0 and the message "Canceled". */
  lemma CancelThenAbort(it: Item)
    ensures Apply(Apply(it, Cancel(it.id)), Aborted(it.id)).status == Canceled
    ensures Apply(Apply(it, Cancel(it.id)), Aborted(it.id)).progress == 0
    ensures Apply(Apply(it, Cancel(it.id)), Aborted(it.id)).errorMsg == Some(CanceledMessage)
  {
  }

  /** Only a 2xx load yields `Uploaded`, and every event but a 2xx load leaves
      an item that was not uploaded still not uploaded. */
  lemma UploadedOnlyBySuccess(it: Item, ev: Event)
    requires it.status != Uploaded
    ensures Apply(it, ev).status == Uploaded <==> ev.Load? && IsSuccess(ev.httpStatus)
  {
  }
}

=== FILE: user_info.dfy ===
/** The header's user badge: the username and role read from the access
    token's payload. The token is a JWS in Compact Serialization
    (section 7.1 of RFC 7515): the payload is its second `.`-separated
    segment, written in the base64url alphabet (section 5 of RFC 4648)
    without padding. `atob` and `JSON.parse` are library functions handed in
    (`None` when they throw). */
module UserInfo {
  import opened Prelude
  import opened Text
  import opened Json

  const RoleClaimUri: string := "http://schemas.microsoft.com/ws/2008/06/identity/claims/role"

  /** The two claims shown; `None` is `undefined`. */
  datatype UserInfo = UserInfo(username: Option<Json>, role: Option<Json>)

  const Unknown := UserInfo(None, None)

  /** base64url back to base64, one character at a time. */
  function FromUrlChar(c: char): char {
    if c == '-' then '+' else if c == '_' then '/' else c
  }

  function ToUrlChar(c: char): char {
    if c == '+' then '-' else if c == '/' then '_' else c
  }

  /** `replace(/-/g, "+").replace(/_/g, "/")`: same length, every `-` now `+`,
      every `_` now `/`, every other character kept. */
  function FromUrl(p: string): (r: string)
    ensures |r| == |p|
    ensures forall i :: 0 <= i < |p| ==> r[i] == FromUrlChar(p[i])
    ensures '-' !in r && '_' !in r
  {
    seq(|p|, i requires 0 <= i < |p| => FromUrlChar(p[i]))
  }

  /** The base64 → base64url direction, the partner of `FromUrl`. */
  function ToUrl(b: string): (r: string)
    ensures |r| == |b|
    ensures forall i :: 0 <= i < |b| ==> r[i] == ToUrlChar(b[i])
  {
    seq(|b|, i requires 0 <= i < |b| => ToUrlChar(b[i]))
  }

  /** On base64url text (no `+` or `/`) the mapping loses nothing. */
  lemma UrlRoundTrip(p: string)
    requires '+' !in p && '/' !in p
    ensures ToUrl(FromUrl(p)) == p
  {
    assert forall i :: 0 <= i < |p| ==> ToUrl(FromUrl(p))[i] == p[i] by {
      forall i | 0 <= i < |p| ensures ToUrl(FromUrl(p))[i] == p[i] {
        assert p[i] in p;
      }
    }
  }

  /** `"===".slice((base.length + 3) % 4)`: the `=` signs appended. */
  function Padding(base: string): (pad: string)
    ensures |pad| == (4 - |base| % 4) % 4
    ensures |pad| <= 3
    ensures forall i :: 0 <= i < |pad| ==> pad[i] == '='
    ensures (|base| + |pad|) % 4 == 0
    ensures |pad| == 3 <==> |base| % 4 == 1
  {
    "==="[(|base| + 3) % 4..]
  }

  /** The text handed to `atob`: `base` followed by its padding. */
  function Padded(base: string): (r: string)
    ensures |r| % 4 == 0 && |base| <= |r| <= |base| + 3
    ensures r[..|base|] == base
    ensures forall i :: |base| <= i < |r| ==> r[i] == '='
  {
    base + Padding(base)
  }

  /** Removing the padding again gives back unpadded text. */
  lemma PaddedStrips(base: string)
    requires base == [] || base[|base| - 1] != '='
    ensures TrimPad(Padded(base)) == base
  {
    TrimPadOfPadded(base, Padding(base));
  }

  /** Drops trailing `=` signs. */
  function TrimPad(s: string): (r: string)
    ensures |r| <= |s| && r == s[..|r|]
    ensures r == [] || r[|r| - 1] != '='
  {
    if s != [] && s[|s| - 1] == '=' then
      var r := TrimPad(s[..|s| - 1]);
      assert s[..|s| - 1][..|r|] == s[..|r|];
      r
    else s
  }

  lemma {:induction false} TrimPadOfPadded(base: string, pad: string)
    requires base == [] || base[|base| - 1] != '='
    requires forall i :: 0 <= i < |pad| ==> pad[i] == '='
    ensures TrimPad(base + pad) == base
    decreases |pad|
  {
    if pad == [] {
      assert base + pad == base;
    } else {
      var s := base + pad;
      assert s[|s| - 1] == '=';
      assert s[..|s| - 1] == base + pad[..|pad| - 1];
      TrimPadOfPadded(base, pad[..|pad| - 1]);
    }
  }

  /** `token.split(".")[1]`, `None` for `undefined`. */
  function PayloadSegment(token: string): (r: Option<string>)
    ensures r.Some? <==> '.' in token
    ensures r.Some? ==> '.' !in r.value
  {
    var parts := Split(token, '.');
    if |parts| >= 2 then Some(parts[1])
    else
      assert '.' !in token by { JoinSplit(token, '.'); }
      None
  }

  /** A compact JWS `header.payload.signature` yields its payload. */
  lemma PayloadOfCompact(header: string, payload: string, signature: string)
    requires '.' !in header && '.' !in payload && '.' !in signature
    ensures PayloadSegment(header + "." + payload + "." + signature) == Some(payload)
  {
    var parts := [header, payload, signature];
    assert Join(parts, '.') == header + "." + payload + "." + signature by {
      assert Join(parts[1..], '.') == payload + "." + signature by {
        assert parts[1..][1..] == [signature];
      }
    }
    SplitJoin(parts, '.');
  }

  /** `json[a] || json[b]` on a parsed payload that is not null. */
  function Claim(json: Json, a: string, b: string): (r: Option<Json>)
    requires !json.JNull?
    ensures Truthy(Get(json, a)) ==> r == Get(json, a)
    ensures !Truthy(Get(json, a)) ==> r == Get(json, b)
  {
    Or(Get(json, a), Get(json, b))
  }

  /** The claims of a decoded payload: `role` over the role-claim URI,
      `unique_name` over `name`. */
  function ClaimsOf(json: Json): (u: UserInfo)
    requires !json.JNull?
    ensures u.role == Claim(json, "role", RoleClaimUri)
    ensures u.username == Claim(json, "unique_name", "name")
  {
    UserInfo(Claim(json, "unique_name", "name"), Claim(json, "role", RoleClaimUri))
  }

  /** `userInfo`. The empty token, a token without a second segment, and any
      decode or parse failure (reading a claim of `null` included) all give
      `Unknown`; otherwise the claims of the decoded payload. */
  function UserInfoOf(token: string, atob: string -> Option<string>, codec: Codec): (u: UserInfo)
    ensures token == "" || '.' !in token ==> u == Unknown
    ensures u != Unknown ==>
              && PayloadSegment(token).Some?
              && atob(Padded(FromUrl(PayloadSegment(token).value))).Some?
              && codec.parse(atob(Padded(FromUrl(PayloadSegment(token).value))).value).Some?
  {
    if token == "" then Unknown
    else match PayloadSegment(token)
      case None => Unknown
      case Some(payload) =>
        match atob(Padded(FromUrl(payload)))
        case None => Unknown
        case Some(text) =>
          match codec.parse(text)
          case None => Unknown
          case Some(JNull) => Unknown
          case Some(json) => ClaimsOf(json)
  }

  /** A well-formed token whose payload decodes to a claims object shows that
      object's claims. */
  lemma UserInfoOfCompact(header: string, payload: string, signature: string,
                          atob: string -> Option<string>, codec: Codec, claims: map<string, Json>)
    requires '.' !in header && '.' !in payload && '.' !in signature
    requires atob(Padded(FromUrl(payload))).Some?
    requires codec.parse(atob(Padded(FromUrl(payload))).value) == Some(JObj(claims))
    ensures UserInfoOf(header + "." + payload + "." + signature, atob, codec) == ClaimsOf(JObj(claims))
  {
    PayloadOfCompact(header, payload, signature);
  }

  /** The role claim wins when truthy; otherwise the URI claim is shown,
      whatever it is. */
  lemma RoleFallback(claims: map<string, Json>, role: Json)
    requires RoleClaimUri in claims
    ensures ClaimsOf(JObj(claims["role" := role])).role ==
            (if Truthy(Some(role)) then Some(role) else Some(claims[RoleClaimUri]))
  {
    assert RoleClaimUri != "role";
  }
}

=== FILE: users.dfy ===
/** The users screen: its list filter (user text and company name, first 20
    rows) and the `save` rules for the password pair in add and edit mode. */
module Users {
  import opened Prelude
  import opened Text
  import opened Listing
  import opened Crud
  import FileNames

  const AddPasswordMessage: string := "Mật khẩu không hợp lệ hoặc không khớp"
  const EditPasswordMessage: string := "Mật khẩu mới không hợp lệ hoặc không khớp"

  datatype User = User(id: string, username: string, fullName: string, email: string,
                       roleId: string, companyId: string, isActive: bool)

  datatype Company = Company(id: string, name: string)

  /** The user box searches the username and full name written together. */
  predicate UserMatches(u: User, q: string) {
    Matches(u.username + u.fullName, q)
  }

  /** `companies.find(c => c.id === companyId)?.name`: the name of the first
      company with that id. */
  function CompanyName(companies: seq<Company>, id: string): (r: Option<string>)
    ensures r.Some? ==> exists c :: c in companies && c.id == id && c.name == r.value
    ensures r.Some? ==> exists k :: 0 <= k < |companies| && companies[k].id == id && companies[k].name == r.value &&
                                    forall j :: 0 <= j < k ==> companies[j].id != id
    ensures r.None? <==> forall c :: c in companies ==> c.id != id
  {
    if companies == [] then None
    else if companies[0].id == id then Some(companies[0].name)
    else
      var r := CompanyName(companies[1..], id);
      assert forall c :: c in companies[1..] ==> c in companies;
      FirstAfterHead(companies, id, r);
      r
  }

  /** A first match in the tail, after a head that does not match, is the
      first match of the whole list. */
  lemma FirstAfterHead(companies: seq<Company>, id: string, r: Option<string>)
    requires companies != [] && companies[0].id != id
    requires r.Some? ==> exists k :: 0 <= k < |companies[1..]| && companies[1..][k].id == id &&
                                     companies[1..][k].name == r.value &&
                                     forall j :: 0 <= j < k ==> companies[1..][j].id != id
    ensures r.Some? ==> exists k :: 0 <= k < |companies| && companies[k].id == id && companies[k].name == r.value &&
                                    forall j :: 0 <= j < k ==> companies[j].id != id
  {
    if r.Some? {
      var k :| 0 <= k < |companies[1..]| && companies[1..][k].id == id && companies[1..][k].name == r.value &&
               forall j :: 0 <= j < k ==> companies[1..][j].id != id;
      assert companies[k + 1] == companies[1..][k];
      forall j | 0 <= j < k + 1 ensures companies[j].id != id {
        if j > 0 {
          assert companies[j] == companies[1..][j - 1];
        }
      }
    }
  }

  /** The company box: an empty query keeps everyone; otherwise the user's
      company must be known and its name must contain the query. */
  predicate CompanyMatches(companies: seq<Company>, u: User, q: string) {
    q == "" || (CompanyName(companies, u.companyId).Some? && Matches(CompanyName(companies, u.companyId).value, q))
  }

  /** A user passes both boxes. */
  predicate Listed(companies: seq<Company>, qUser: string, qCompany: string, u: User) {
    UserMatches(u, qUser) && CompanyMatches(companies, u, qCompany)
  }

  /** The users passing the user box, then the company box, in order. */
  function Matching(items: seq<User>, companies: seq<Company>, qUser: string, qCompany: string): (r: seq<User>)
    ensures forall u :: u in r <==> u in items && Listed(companies, qUser, qCompany, u)
    ensures qUser == "" && qCompany == "" ==> r == items
  {
    Filter(Filter(items, u => UserMatches(u, qUser)), u => CompanyMatches(companies, u, qCompany))
  }

  /** The chained filters are one filter by both boxes, so the kept users
      keep their order and multiplicity. */
  lemma MatchingIsOneFilter(items: seq<User>, companies: seq<Company>, qUser: string, qCompany: string)
    ensures Matching(items, companies, qUser, qCompany) == Filter(items, u => Listed(companies, qUser, qCompany, u))
  {
    FilterFilterAs(items, u => UserMatches(u, qUser), u => CompanyMatches(companies, u, qCompany),
                   u => Listed(companies, qUser, qCompany, u));
  }

  /** The rows shown: the first 20 matching users. */
  function Shown(items: seq<User>, companies: seq<Company>, qUser: string, qCompany: string): (r: seq<User>)
    ensures |r| <= PageSize
    ensures forall u :: u in r ==> u in items && Listed(companies, qUser, qCompany, u)
    ensures var all := Matching(items, companies, qUser, qCompany);
            |r| == Min(|all|, PageSize) && r == all[..|r|]
  {
    var all := Matching(items, companies, qUser, qCompany);
    var r := FirstPage(all);
    assert forall u :: u in r ==> u in all;
    r
  }

  /** A user of an unknown company is never listed under a company query. */
  lemma UnknownCompanyHidden(items: seq<User>, companies: seq<Company>, qUser: string, qCompany: string, u: User)
    requires qCompany != ""
    requires forall c :: c in companies ==> c.id != u.companyId
    ensures u !in Shown(items, companies, qUser, qCompany)
  {
  }

  /** The user query may straddle the username and the full name: "ab"
      finds the user "a" named "b", although neither part contains it. */
  lemma QuerySpansBoundary(u: User)
    requires u.username == "a" && u.fullName == "b"
    ensures UserMatches(u, "ab")
    ensures !Matches(u.username, "ab") && !Matches(u.fullName, "ab")
  {
    assert u.username + u.fullName == "ab";
    assert Lower("ab") == "ab";
    assert OccursAt(Lower("ab"), Lower("ab"), 0);
  }

  /** The form. `password` and `confirm` are `undefined` after `openAdd` and
      `""` after `openEdit`. */
  datatype Form = Form(username: string, fullName: string, email: string, roleId: string,
                       companyId: string, isActive: string, password: Option<string>, confirm: Option<string>)

  const AddForm := Form("", "", "", "", "", "1", None, None)

  function EditForm(u: User): (f: Form)
    ensures ActiveValue(f.isActive) == u.isActive
    ensures f.password == Some("") && f.confirm == Some("")
  {
    Form(u.username, u.fullName, u.email, u.roleId, u.companyId, ActiveText(u.isActive), Some(""), Some(""))
  }

  /** The body sent; `password` is `None` when the key is left out. */
  datatype Payload = Payload(username: string, fullName: string, email: string, roleId: string,
                             companyId: string, isActive: bool, password: Option<string>)

  datatype SaveOutcome = Rejected(message: string) | Sent(target: Target, payload: Payload)

  /** Both password boxes filled in and equal; a valid pair is always an
      attempt to change the password. */
  predicate PairValid(f: Form): (b: bool)
    ensures b ==> TryingToChange(f) && f.password.Some? && f.password.value != ""
    ensures b ==> f.password == f.confirm
  {
    FileNames.Present(f.password) && FileNames.Present(f.confirm) && f.password == f.confirm
  }

  /** Some password box filled in (`!!password || !!confirm`): not both empty
      or missing. */
  predicate TryingToChange(f: Form): (b: bool)
    ensures !b <==> f.password.GetOr("") == "" && f.confirm.GetOr("") == ""
  {
    FileNames.Present(f.password) || FileNames.Present(f.confirm)
  }

  /** `save`. Adding needs a valid pair and always sends it; editing sends a
      new password only when one is typed, and then needs a valid pair. */
  function Save(f: Form, isEdit: bool, editId: string): (r: SaveOutcome)
    ensures !isEdit && !PairValid(f) ==> r == Rejected(AddPasswordMessage)
    ensures isEdit && TryingToChange(f) && !PairValid(f) ==> r == Rejected(EditPasswordMessage)
    ensures r.Sent? <==> PairValid(f) || (isEdit && !TryingToChange(f))
    ensures r.Sent? ==> r.target == SaveTarget(isEdit, editId)
    ensures r.Sent? ==>
              && r.payload.username == f.username && r.payload.fullName == f.fullName
              && r.payload.email == f.email && r.payload.roleId == f.roleId
              && r.payload.companyId == f.companyId && r.payload.isActive == ActiveValue(f.isActive)
    ensures r.Sent? && PairValid(f) ==> r.payload.password == f.password && r.payload.password.value != ""
    ensures r.Sent? && !PairValid(f) ==> r.payload.password == None
  {
    if !isEdit && !PairValid(f) then Rejected(AddPasswordMessage)
    else
      var base := Payload(f.username, f.fullName, f.email, f.roleId, f.companyId, ActiveValue(f.isActive), None);
      if isEdit then
        if TryingToChange(f) then
          if !PairValid(f) then Rejected(EditPasswordMessage)
          else Sent(SaveTarget(isEdit, editId), base.(password := f.password))
        else Sent(SaveTarget(isEdit, editId), base)
      else Sent(SaveTarget(isEdit, editId), base.(password := f.password))
  }

  /** Saving an edit form untouched sends the user back unchanged, without a
      password, to the user's own id. */
  lemma EditUntouched(u: User)
    requires u.id != ""
    ensures Save(EditForm(u), true, u.id) ==
            Sent(Update(u.id), Payload(u.username, u.fullName, u.email, u.roleId, u.companyId, u.isActive, None))
  {
    ActiveRoundTrip(u.isActive, "");
  }

  /** A new user is never created without a password. */
  lemma AddNeedsPassword(f: Form, editId: string)
    ensures Save(f, false, editId).Sent? ==> Save(f, false, editId).payload.password.Some?
    ensures Save(AddForm, false, editId) == Rejected(AddPasswordMessage)
  {
  }
}

=== FILE: workflow.dfy ===
/** The DKKD workflow panel as a state machine. Each async handler is cut at
    its `await`: the click issues the start request and waits, the reply
    resumes it; the automation request likewise. One poll tick of the armed
    interval is one event carrying the status reply. The contract id is the
    panel's prop and stays fixed. */
module Workflow {
  import opened Prelude
  import Listing

  const PollIntervalMs: nat := 2000

  const StartingMessage: string := "Đang khởi động trình duyệt đăng nhập..."
  const PleaseLoginMessage: string := "Vui lòng đăng nhập trên trình duyệt vừa mở..."
  const NoFlowMessage: string := "Không thể khởi động trình duyệt"
  const LoginErrorPrefix: string := "Lỗi: "
  const MissingContractMessage: string := "Thiếu Contract ID để thực hiện tự động hóa"
  const AutomatingMessage: string := "Đăng nhập thành công! Đang thực hiện quy trình tự động..."
  const CompletedMessage: string := "Quy trình tự động hoàn tất thành công!"
  const AutomationErrorPrefix: string := "Lỗi tự động hóa: "
  const UnknownErrorMessage: string := "Lỗi không xác định"

  datatype Status = Idle | LoggingIn | Automating | Completed | Error

  /** The panel's state. `timer` is the armed poll interval together with the
      flow id it polls; `awaitingStart` and `awaitingAutomation` mark a handler
      suspended on its request. */
  datatype State = State(
    loading: bool,
    status: Status,
    message: string,
    flowId: string,
    timer: Option<string>,
    awaitingStart: bool,
    awaitingAutomation: bool)

  const Initial := State(false, Idle, "", "", None, false, false)

  /** What the panel asks of the outside world. */
  datatype Request =
    | StartFlow
    | AutomationRequest(flowId: string, contractId: string)
    | ArmTimer(flowId: string, periodMs: nat)
    | ClearTimer

  /** How the start request ended: it threw (with the error's text), or it
      answered, with `flowId` "" standing for a missing or empty flow id. */
  datatype StartResult = StartThrew(error: string) | StartAnswered(flowId: string)

  /** How the status poll ended: a throw, or an answer with its `loggedIn` flag. */
  datatype PollResult = PollThrew | PollAnswered(loggedIn: bool)

  /** How the automation request ended: a throw, or an answer with its
      `success` flag and `error` text ("" when absent). */
  datatype AutomationResult = AutomationThrew(error: string) | AutomationAnswered(success: bool, error: string)

  datatype Event =
    | LoginClick
    | StartReply(start: StartResult)
    | Tick(poll: PollResult)
    | AutomationReply(automation: AutomationResult)
    | RetryClick
    | Unmount

  datatype Step = Step(state: State, requests: seq<Request>)

  /** The `!contractId` test on the optional prop. */
  predicate HasContract(contractId: Option<string>) {
    contractId.Some? && contractId.value != ""
  }

  /** The Login button is shown only while idle and is disabled while loading. */
  predicate LoginEnabled(s: State) {
    s.status == Idle && !s.loading
  }

  /** `startLogin` up to its `await`. */
  function Login(s: State): (r: Step)
    requires LoginEnabled(s)
    ensures r.state == s.(loading := true, status := LoggingIn, message := StartingMessage, awaitingStart := true)
    ensures r.requests == [StartFlow]
  {
    Step(s.(loading := true, status := LoggingIn, message := StartingMessage, awaitingStart := true), [StartFlow])
  }

  /** `startLogin` after its `await`. A flow id replaces any armed interval by
      one 2000 ms interval polling that id; anything else ends in `Error`
      with loading cleared and no interval armed. */
  function OnStart(s: State, res: StartResult): (r: Step)
    ensures !r.state.awaitingStart && r.state.awaitingAutomation == s.awaitingAutomation
    ensures res.StartAnswered? && res.flowId != "" ==>
              && r.state == s.(flowId := res.flowId, message := PleaseLoginMessage,
                              timer := Some(res.flowId), awaitingStart := false)
              && r.requests == (if s.timer.Some? then [ClearTimer] else []) + [ArmTimer(res.flowId, PollIntervalMs)]
    ensures !(res.StartAnswered? && res.flowId != "") ==>
              && r.state.status == Error && !r.state.loading
              && r.state.message == LoginErrorPrefix + (if res.StartThrew? then res.error else NoFlowMessage)
              && r.state.timer == s.timer && r.state.flowId == s.flowId
              && r.requests == []
  {
    match res
    case StartAnswered(fid) =>
      if fid != "" then
        Step(s.(flowId := fid, message := PleaseLoginMessage, timer := Some(fid), awaitingStart := false),
             (if s.timer.Some? then [ClearTimer] else []) + [ArmTimer(fid, PollIntervalMs)])
      else
        Fail(s, NoFlowMessage)
    case StartThrew(e) => Fail(s, e)
  }

  /** The `catch` of `startLogin`. */
  function Fail(s: State, error: string): (r: Step)
    ensures r.state == s.(status := Error, message := LoginErrorPrefix + error, loading := false, awaitingStart := false)
    ensures r.requests == []
  {
    Step(s.(status := Error, message := LoginErrorPrefix + error, loading := false, awaitingStart := false), [])
  }

  /** `startAutomation(fid)` up to its `await`. Without a contract id the
      panel fails at once, sends nothing, and leaves loading as it was. */
  function StartAutomation(s: State, fid: string, contractId: Option<string>): (r: Step)
    ensures !HasContract(contractId) ==>
              r.state == s.(status := Error, message := MissingContractMessage) && r.requests == []
    ensures HasContract(contractId) ==>
              && r.state == s.(status := Automating, message := AutomatingMessage, awaitingAutomation := true)
              && r.requests == [AutomationRequest(fid, contractId.value)]
  {
    if !HasContract(contractId) then
      Step(s.(status := Error, message := MissingContractMessage), [])
    else
      Step(s.(status := Automating, message := AutomatingMessage, awaitingAutomation := true),
           [AutomationRequest(fid, contractId.value)])
  }

  /** One tick of the interval polling `fid`: a `loggedIn` answer disarms the
      interval, then starts the automation for that same flow id; any other
      answer, or a throw, changes nothing. */
  function OnTick(s: State, fid: string, poll: PollResult, contractId: Option<string>): (r: Step)
    ensures !(poll.PollAnswered? && poll.loggedIn) ==> r == Step(s, [])
    ensures poll.PollAnswered? && poll.loggedIn ==>
              && r.state.timer == None
              && |r.requests| >= 1 && r.requests[0] == ClearTimer
              && r.requests[1..] == StartAutomation(s.(timer := None), fid, contractId).requests
              && r.state == StartAutomation(s.(timer := None), fid, contractId).state
  {
    if poll.PollAnswered? && poll.loggedIn then
      var a := StartAutomation(s.(timer := None), fid, contractId);
      Step(a.state, [ClearTimer] + a.requests)
    else
      Step(s, [])
  }

  /** `startAutomation` after its `await`; the `finally` clears loading. */
  function OnAutomation(s: State, res: AutomationResult): (r: Step)
    ensures !r.state.loading && !r.state.awaitingAutomation && r.requests == []
    ensures r.state.timer == s.timer && r.state.flowId == s.flowId
    ensures r.state.status == Completed <==> res.AutomationAnswered? && res.success
    ensures r.state.status == Completed ==> r.state.message == CompletedMessage
    ensures r.state.status != Completed ==> r.state.status == Error
    ensures res.AutomationAnswered? && !res.success ==>
              r.state.message == AutomationErrorPrefix + (if res.error != "" then res.error else UnknownErrorMessage)
    ensures res.AutomationThrew? ==> r.state.message == AutomationErrorPrefix + res.error
  {
    var done := s.(loading := false, awaitingAutomation := false);
    match res
    case AutomationAnswered(ok, err) =>
      if ok then Step(done.(status := Completed, message := CompletedMessage), [])
      else Step(done.(status := Error, message := AutomationErrorPrefix + (if err != "" then err else UnknownErrorMessage)), [])
    case AutomationThrew(err) =>
      Step(done.(status := Error, message := AutomationErrorPrefix + err), [])
  }

  /** Whether the panel can receive the event in this state: the Login button
      is enabled, a reply is awaited, an interval is armed, Retry is shown. */
  predicate Receivable(s: State, ev: Event) {
    match ev
    case LoginClick => LoginEnabled(s)
    case StartReply(_) => s.awaitingStart
    case Tick(_) => s.timer.Some?
    case AutomationReply(_) => s.awaitingAutomation
    case RetryClick => s.status == Error
    case Unmount => true
  }

  /** The panel's reaction to one event. Events the panel cannot receive in
      its current state (a disabled button, a reply nobody waits for, a tick
      with no interval armed) change nothing and send nothing; unmounting
      always leaves no interval armed. */
  function Next(s: State, ev: Event, contractId: Option<string>): (r: Step)
    ensures !Receivable(s, ev) ==> r == Step(s, [])
    ensures ev.Unmount? ==> r.state.timer.None?
    ensures ev.LoginClick? && Receivable(s, ev) ==> r == Login(s)
    ensures ev.Tick? && Receivable(s, ev) ==> r == OnTick(s, s.timer.value, ev.poll, contractId)
  {
    match ev
    case LoginClick => if LoginEnabled(s) then Login(s) else Step(s, [])
    case StartReply(res) => if s.awaitingStart then OnStart(s, res) else Step(s, [])
    case Tick(poll) =>
      (match s.timer
       case Some(fid) => OnTick(s, fid, poll, contractId)
       case None => Step(s, []))
    case AutomationReply(res) => if s.awaitingAutomation then OnAutomation(s, res) else Step(s, [])
    case RetryClick => if s.status == Error then Step(s.(status := Idle), []) else Step(s, [])
    case Unmount => Step(s.(timer := None), if s.timer.Some? then [ClearTimer] else [])
  }

  /** Retry is offered only on `Error` and returns to `Idle`, changing nothing
      else; unmounting clears an armed interval and changes nothing else. */
  lemma RetryAndUnmount(s: State, contractId: Option<string>)
    ensures s.status == Error ==> Next(s, RetryClick, contractId) == Step(s.(status := Idle), [])
    ensures s.status != Error ==> Next(s, RetryClick, contractId) == Step(s, [])
    ensures Next(s, Unmount, contractId).state == s.(timer := None)
    ensures Next(s, Unmount, contractId).requests == if s.timer.Some? then [ClearTimer] else []
  {
  }

  /** What holds in every reachable state: an armed interval polls the stored
      flow id while logging in with loading set; an interval is never armed
      while a handler is suspended; at most one handler is suspended. */
  ghost predicate Inv(s: State) {
    && (s.timer.Some? ==> s.status == LoggingIn && s.timer.value == s.flowId && s.loading)
    && (s.awaitingStart ==> s.status == LoggingIn && s.loading && s.timer.None?)
    && (s.awaitingAutomation ==> s.status == Automating && s.loading && s.timer.None?)
    && !(s.awaitingStart && s.awaitingAutomation)
    && (s.status == Automating ==> s.awaitingAutomation)
  }

  lemma InitialInv()
    ensures Inv(Initial)
  {
  }

  /** Every event preserves the invariant. */
  lemma NextInv(s: State, ev: Event, contractId: Option<string>)
    requires Inv(s)
    ensures Inv(Next(s, ev, contractId).state)
  {
  }

  predicate IsAutomation(r: Request) {
    r.AutomationRequest?
  }

  predicate IsArm(r: Request) {
    r.ArmTimer?
  }

  function Armed(s: State): nat {
    if s.timer.Some? then 1 else 0
  }

  /** Runs a sequence of events, collecting every request issued. */
  function Run(s: State, evs: seq<Event>, contractId: Option<string>): Step
    decreases |evs|
  {
    if evs == [] then Step(s, [])
    else
      var first := Next(s, evs[0], contractId);
      var rest := Run(first.state, evs[1..], contractId);
      Step(rest.state, first.requests + rest.requests)
  }

  /** One event sends an automation request only by disarming an interval. */
  lemma StepDedup(s: State, ev: Event, contractId: Option<string>)
    ensures Listing.CountIf(Next(s, ev, contractId).requests, IsAutomation) + Armed(Next(s, ev, contractId).state)
            <= Listing.CountIf(Next(s, ev, contractId).requests, IsArm) + Armed(s)
  {
    var r := Next(s, ev, contractId);
    if ev.Tick? && s.timer.Some? && ev.poll.PollAnswered? && ev.poll.loggedIn {
      Listing.CountIfAppend([ClearTimer], r.requests[1..], IsAutomation);
      Listing.CountIfAppend([ClearTimer], r.requests[1..], IsArm);
      assert r.requests == [ClearTimer] + r.requests[1..];
    } else if ev.StartReply? && s.awaitingStart && ev.start.StartAnswered? && ev.start.flowId != "" {
      var pre: seq<Request> := if s.timer.Some? then [ClearTimer] else [];
      Listing.CountIfAppend(pre, [ArmTimer(ev.start.flowId, PollIntervalMs)], IsAutomation);
      Listing.CountIfAppend(pre, [ArmTimer(ev.start.flowId, PollIntervalMs)], IsArm);
    }
  }

  /** Disarming is the only dedup, and with a poll tick taken as one event
      (the status request and its reply together) it suffices: over any
      run, the automation requests sent, plus one if an interval is still
      armed at the end, never exceed the intervals armed, plus one if one
      was armed at the start. In particular a run from the initial state
      sends at most one automation request per successful start. Two polls
      in flight at once, which both see `loggedIn` and both start the
      automation, are outside this model. */
  lemma {:induction false} RunDedup(s: State, evs: seq<Event>, contractId: Option<string>)
    ensures Listing.CountIf(Run(s, evs, contractId).requests, IsAutomation) + Armed(Run(s, evs, contractId).state)
            <= Listing.CountIf(Run(s, evs, contractId).requests, IsArm) + Armed(s)
    decreases |evs|
  {
    if evs != [] {
      var first := Next(s, evs[0], contractId);
      var rest := Run(first.state, evs[1..], contractId);
      StepDedup(s, evs[0], contractId);
      RunDedup(first.state, evs[1..], contractId);
      Listing.CountIfAppend(first.requests, rest.requests, IsAutomation);
      Listing.CountIfAppend(first.requests, rest.requests, IsArm);
    }
  }

  /** The automation request carries the flow id the armed interval polled,
      which is the one stored from the start reply, and the panel's contract id. */
  lemma AutomationUsesStoredFlow(s: State, ev: Event, contractId: Option<string>, k: nat)
    requires Inv(s)
    requires k < |Next(s, ev, contractId).requests|
    requires Next(s, ev, contractId).requests[k].AutomationRequest?
    ensures s.timer == Some(s.flowId)
    ensures Next(s, ev, contractId).requests[k] == AutomationRequest(s.flowId, contractId.value)
    ensures HasContract(contractId)
  {
  }

  /** The failure of the missing-contract path leaves loading set: after
      Retry the panel is idle but the Login button stays disabled. */
  lemma MissingContractKeepsLoginDisabled(s: State, contractId: Option<string>)
    requires Inv(s) && s.timer.Some? && !HasContract(contractId)
    ensures Next(s, Tick(PollAnswered(true)), contractId).state.status == Error
    ensures Next(Next(s, Tick(PollAnswered(true)), contractId).state, RetryClick, contractId).state.status == Idle
    ensures !LoginEnabled(Next(Next(s, Tick(PollAnswered(true)), contractId).state, RetryClick, contractId).state)
  {
  }
}
